=== FILE: README.md ===
# AI Expense Tracker core, modelled in Dafny

This project models the server-side core of the AI expense tracker. It covers the
Express/Sequelize back end and the small Python services beside it, and proves
properties of that model:

- **Two-tier cache** (`EnterpriseCache`, `EnterpriseCacheProperties`, `Glob`): the
  in-process L1 and the Redis L2 with its `tag:<tag>` index sets, as pure state
  transitions over an explicit clock `now` (milliseconds) and a flag `l2Up` saying
  whether Redis answers. Covers read-through `get`, write-through `set`,
  invalidation by tag and by glob pattern, statistics and cache warming.
- **Transactions** (`TransactionModel`, `TransactionRoutes`, `TransactionController`,
  `Ordering`, `Calendar`): the model's validators and defaults, the formatted amount,
  the monthly summary range, and the list and create endpoints of the router and of
  the controller. Money is integer cents.
- **Users** (`UserModel`): validators, the unique e-mail index, defaults and
  timestamps, the re-hash-on-change save hook, the JSON view without secrets, and
  the token payloads.
- **Exports** (`ExportRoutes`, `ExportController`): the request check, format
  dispatch, CSV and Excel output rules, and the status and download endpoints.
- **Encryption framing** (`EncryptionService`, `EncryptionUtils`, `Bytes`): the
  `salt‖iv‖tag‖ciphertext` buffer, and the `ivHex:cipherHex` text both as written
  (no authentication tag) and corrected (`ivHex:tagHex:cipherHex`). Cryptography
  itself is a parameter.
- **Middleware and configuration** (`Auth`, `Tenant`, `ResponseCache`, `Health`,
  `ServerConfig`, `AppErrors`): decision tables, rate limiting, error handlers and
  the start-up environment check.
- **Receipt parsers** (`ReceiptScan`, `ReceiptEngine`, `OcrEngine`): the regular
  expressions of the two Python AI engines. Each is written as a matcher that
  follows Python's backtracking order, plus a leftmost search.
- **File extraction script** (`MergeExtract`): the file-name heuristic of
  `merge_and_extract.py` and how `main` resolves each block's name.

`Wrappers` (Option/Result) and `Text` (digits, search, strip, split, lower-case)
are shared helpers.

All I/O is a parameter of the function that needs it:

- database rows arrive as sequences;
- Redis as a map;
- the clock as `now` or `today`;
- random bytes, identifiers and nonces as arguments;
- hashing, signing and ciphers as functions;
- OCR output as a `Result` of text.

## Model

| member | source | states |
|---|---|---|
| EnterpriseCache.Resolve | backend/src/cache/enterpriseCache.js:49-54 | a missing option takes its default (l1TTL 60, l2TTL 300, no tags); a given one is kept |
| EnterpriseCache.Get | backend/src/cache/enterpriseCache.js:48-85 | L1 answers iff its entry is live, with the L1 value; L2 answers iff L1 misses, Redis is up and holds a string under the key, with the L2 value; otherwise the fetch result is returned |
| EnterpriseCache.AddTags | backend/src/cache/enterpriseCache.js:102-104 | the SADD loop never touches a cached string, leaves keys that are not tag keys alone, only grows existing tag sets, and adds the key to every tag when no tag key holds a string |
| EnterpriseCache.Set | backend/src/cache/enterpriseCache.js:87-113 | L1 always receives the value with the l1TTL expiry; the hit and miss counters do not move |
| EnterpriseCache.InvalidateByTag | backend/src/cache/enterpriseCache.js:115-129 | the call throws exactly when Redis is down or the tag key holds a string (SMEMBERS type error) |
| EnterpriseCache.Scan | backend/src/cache/enterpriseCache.js:131-145 | SCAN reports exactly the live Redis keys that match the glob |
| EnterpriseCache.InvalidatePattern | backend/src/cache/enterpriseCache.js:131-158 | rejects iff Redis is down; otherwise returns the number of keys the SCAN stream reported, repeats included, removes each from both tiers and leaves every other key and both counters unchanged |
| EnterpriseCache.HitRate | backend/src/cache/enterpriseCache.js:199 | undefined exactly when there were no reads; otherwise a ratio in [0,1] with rate·(hits+misses) = hits, 1 iff no misses, 0 iff no hits |
| EnterpriseCache.GetStats | backend/src/cache/enterpriseCache.js:190-205 | rejects iff Redis is down, through the awaited `INFO stats` call; otherwise the L1 counters, the number of L1 keys and the hit rate of those counters |
| EnterpriseCache.WarmDashboard | backend/src/cache/enterpriseCache.js:183-187 | fails iff the fetch fails; otherwise `set`s the data under `dashboard:<tenant>:<user>` with TTLs 300/600 and the two tags |
| EnterpriseCache.CountFulfilled | backend/src/cache/enterpriseCache.js:177-179 | the fulfilled count is at most the number of tasks, equals it iff all settled fulfilled, and is 0 iff none did |
| EnterpriseCache.WarmCache | backend/src/cache/enterpriseCache.js:169-181 | four tasks; successes ≤ 4, and 4 iff every task fulfilled; only the dashboard task changes the cache |
| EnterpriseCacheProperties.GetL1Hit | backend/src/cache/enterpriseCache.js:56-61 | an L1 hit returns the L1 value; L2 is not read, fetch is not called, only the hit counter changes |
| EnterpriseCacheProperties.GetL2Hit | backend/src/cache/enterpriseCache.js:63-72 | an L1 miss and an L2 hit return the L2 value and promote it to L1 under the same key with the l1TTL expiry; fetch is not called |
| EnterpriseCacheProperties.GetFullMiss | backend/src/cache/enterpriseCache.js:77-84 | a full miss, a swallowed L2 read error included, calls fetch once; its value is returned and the cache becomes exactly what `set` with the same options makes of it after the miss is counted, so the value is in L1, in L2 when the TTL is positive and L2 is up, and registered under every tag; a fetch error propagates with nothing written |
| EnterpriseCacheProperties.GetErrorsOnlyFromFetch | backend/src/cache/enterpriseCache.js:63-79 | the only error `get` reports is the fetch function's; with Redis down L2 is unchanged |
| EnterpriseCacheProperties.GetCountsOneRead | backend/src/cache/enterpriseCache.js:57-60 | every `get` raises exactly one of the two counters, the hit counter iff L1 answered |
| EnterpriseCacheProperties.StatsCountEveryRead | backend/src/cache/enterpriseCache.js:56-79 | after one `get`, the hits and misses `getStats` reports have grown by one together, the hits alone iff L1 answered, and a hit rate exists |
| EnterpriseCacheProperties.SetEffects | backend/src/cache/enterpriseCache.js:94-104 | with Redis up, L2 holds the value with its l2TTL expiry, and each tag set gains the key when no tag key holds a string |
| EnterpriseCacheProperties.SetL2FailureTouchesNoTag | backend/src/cache/enterpriseCache.js:98-107 | a failed SETEX (Redis down or a non-positive TTL) leaves L2, tag sets included, unchanged |
| EnterpriseCacheProperties.AddTagsStopsAtWrongType | backend/src/cache/enterpriseCache.js:102-107 | a tag key holding a string aborts the loop: the result is that of the earlier tags alone |
| EnterpriseCacheProperties.ReadAfterSet | backend/src/cache/enterpriseCache.js:57-61 | after `set`, a `get` while the L1 entry is live returns the written value whatever fetch would give |
| EnterpriseCacheProperties.ReadThroughAfterL1Eviction | backend/src/cache/enterpriseCache.js:64-72 | with L1 evicted, a `get` while the L2 entry lives returns the written value from L2 without fetching |
| EnterpriseCacheProperties.InvalidateByTagEffects | backend/src/cache/enterpriseCache.js:115-126 | every member of the tag's set leaves both tiers, the tag key is gone, and every other key keeps its entry |
| EnterpriseCacheProperties.InvalidateUnknownTag | backend/src/cache/enterpriseCache.js:117-126 | an unknown tag deletes nothing but its own index key |
| EnterpriseCacheProperties.TagInvalidationForcesRefetch | backend/src/cache/enterpriseCache.js:115-126 | two keys set under one tag both miss after invalidating it, so the next `get` of each fetches |
| EnterpriseCacheProperties.InvalidatePatternEffects | backend/src/cache/enterpriseCache.js:131-157 | for a SCAN reply that lists every matching key: the count is at least the number of matching keys, and equal to it when the reply repeats no key; each matching key leaves both tiers; non-matching and L1-only keys survive |
| EnterpriseCacheProperties.UserOnePatternMatches | backend/src/cache/enterpriseCache.js:132-135 | `user:1:*` matches `user:1:profile` and `user:1:settings` and not `user:2:profile` |
| EnterpriseCacheProperties.PatternInvalidationExample | backend/src/cache/enterpriseCache.js:131-157 | with those three keys, invalidating `user:1:*` returns 2 and keeps only `user:2:profile` |
| EnterpriseCacheProperties.PatternCountIncludesRepeats | backend/src/cache/enterpriseCache.js:136-157 | a reply that reports a key twice makes the same deletions and returns 3 for the two keys |
| Glob.StarMatchesAll | backend/src/cache/enterpriseCache.js:132-135 | the pattern `*` matches every key |
| Glob.LiteralMatchesOnlyItself | backend/src/cache/enterpriseCache.js:132-135 | a pattern without wildcards matches exactly the key it spells |
| Glob.PrefixStar | backend/src/cache/enterpriseCache.js:132-135 | `pre*` matches exactly the keys starting with `pre` |
| TransactionModel.ParseTxType | backend/src/models/Transaction.js:11-14 | a parsed type prints back as the text it was read from |
| TransactionModel.TxTypeNameParses | backend/src/models/Transaction.js:11-14 | the ENUM accepts exactly the texts `income` and `expense`, each naming its own type |
| TransactionModel.ParsePattern | backend/src/models/Transaction.js:66-68 | only daily, weekly, monthly and yearly are accepted, each naming its own pattern |
| TransactionModel.Create | backend/src/models/Transaction.js:4-80 | creation fails exactly when some validator fails, `isDate` and `isUrl` included, reporting all violations; a created row carries the given id, creation time and receipt link |
| TransactionModel.CreateAcceptsExactly | backend/src/models/Transaction.js:11-68 | creation succeeds iff type and amount are present and valid, the description is at most 500 long, the date is a calendar date not after today, a given receipt link passes `isUrl` and the confidence is in [0,1] |
| TransactionModel.CreatedRowIsValid | backend/src/models/Transaction.js:11-68 | every created row satisfies all column constraints, a calendar date and a valid receipt link included |
| TransactionModel.TomorrowIsRejected | backend/src/models/Transaction.js:29-39 | a date after today is refused with the not-future violation |
| TransactionModel.OffCalendarDateRejected | backend/src/models/Transaction.js:29-39 | a date that is not on the calendar is refused by `isDate`, and is not reported as a future date |
| TransactionModel.BadReceiptUrlRejected | backend/src/models/Transaction.js:41-46 | the `isUrl` violation is reported iff a receipt link is given that the URL check refuses |
| TransactionModel.AmountAndTypeRules | backend/src/models/Transaction.js:11-22 | a non-positive amount breaks `min`, one above 999999.99 breaks `max`, and a missing type is the first violation |
| TransactionModel.CreateDefaults | backend/src/models/Transaction.js:47-79 | omitted attributes default to not OCR-processed, no tags, not recurring, no splits and empty metadata |
| TransactionModel.ValidationError | backend/src/models/Transaction.js:11-39 | the rejection is a SequelizeValidationError carrying one message per violation, in order |
| TransactionModel.FormattedAmount | backend/src/models/Transaction.js:98-102 | an expense starts with `-$`, income with `$` |
| TransactionModel.Fixed2RoundTrip | backend/src/models/Transaction.js:100-101 | the two-decimal rendering of a cent amount reads back as that amount |
| TransactionModel.FormattedAmountRoundTrip | backend/src/models/Transaction.js:98-102 | the formatted amount determines both the type and the cents |
| TransactionModel.ExpenseSignIgnored | backend/src/models/Transaction.js:100 | an expense is shown by its absolute value |
| TransactionModel.CountOf | backend/src/models/Transaction.js:116-121 | the per-type count is at most the row count and positive iff a row of that type exists |
| TransactionModel.CountOfPositive | backend/src/models/Transaction.js:116-121 | a type's count is positive iff some row has that type |
| TransactionModel.Totals | backend/src/models/Transaction.js:116-121 | the grouped result has an entry exactly for the types that occur, with their count and sum |
| TransactionModel.CountsCoverRows | backend/src/models/Transaction.js:116-121 | the income and expense counts add up to the number of rows |
| TransactionModel.SumOfAppend | backend/src/models/Transaction.js:118-119 | sums and counts are additive over concatenation |
| TransactionModel.TotalsBounded | backend/src/models/Transaction.js:15-22 | a type's total lies between count·0.01 and count·999999.99 |
| TransactionModel.MonthlySummary | backend/src/models/Transaction.js:105-123 | a type has a group iff one of the caller's rows of that type is dated in the month; each group's count and total are those of the month's rows of that type |
| TransactionModel.InMonth | backend/src/models/Transaction.js:109-115 | selects exactly the caller's rows dated within the range |
| TransactionModel.MonthlySummaryRowsInMonth | backend/src/models/Transaction.js:106-115 | every row the summary counts lies in the requested month |
| TransactionModel.MonthlySummaryCoversMonth | backend/src/models/Transaction.js:105-123 | the two groups' counts add up to the number of the caller's rows in the month |
| Calendar.FirstOfMonth | backend/src/models/Transaction.js:106 | `new Date(y, m-1, 1)` is a valid date on day 1 |
| Calendar.DayZero | backend/src/models/Transaction.js:107 | `new Date(y, m, 0)` is a valid date |
| Calendar.MonthRange | backend/src/models/Transaction.js:106-107 | both ends of the range are valid dates |
| Calendar.MonthRangeIsWholeMonth | backend/src/models/Transaction.js:106-107 | the range runs from day 1 to the month's last day, February 29 in leap years |
| Calendar.MonthRangeMembers | backend/src/models/Transaction.js:106-114 | every date between the ends lies in that month |
| Calendar.IsoDate | ai_engine/app.py:71 | for a year below 10000: ten characters, dashes at 4 and 7, and digit fields that read back as the year, the month and the day |
| Text.Pad4RoundTrip | ai_engine/app.py:71 | the four-digit year field reads back as the year |
| Ordering.SortDesc | backend/src/routes/transactions.js:72 | the result is sorted in descending order and is a permutation of the input |
| Ordering.Window | backend/src/routes/transactions.js:73-74 | the page is the slice `[offset, offset+limit)` clamped to the input |
| Ordering.WindowOfSorted | backend/src/routes/transactions.js:69-75 | a page of a sorted listing is sorted |
| Ordering.NextWindowRanksLower | backend/src/routes/transactions.js:72-74 | in a sorted listing, every element of one page ranks at least as high as every element of the next page |
| Ordering.InSomeWindow | backend/src/routes/transactions.js:73-74 | every element of a listing lies on some page of any positive size |
| Ordering.Filter | backend/src/routes/transactions.js:70 | keeps exactly the elements satisfying the condition, in order |
| TransactionRoutes.QueryAccepted | backend/src/routes/transactions.js:26-33 | a query passes iff page ≥ 1, 1 ≤ limit ≤ 100, dates and category are well formed, type is income or expense and both amount bounds are non-negative |
| TransactionRoutes.IntOr | backend/src/routes/transactions.js:38-39 | a missing value gives the fallback, and the result is never 0 |
| TransactionRoutes.PageAndLimit | backend/src/routes/transactions.js:38-39 | in a valid query the page and limit are the given numbers, or 1 and 20 |
| TransactionRoutes.BuildFilter | backend/src/routes/transactions.js:42-67 | always the caller's id; the date range iff both dates are given, with those dates; each amount bound iff given, with the given value; a category id or type in the clause comes from the query (the category id as parsed, the type by name), and for a query that passes validation they are in the clause iff given; `FilterSelects` states which rows the clause selects |
| TransactionRoutes.FilterSelects | backend/src/routes/transactions.js:42-67 | for a validated query, a row matches iff it is the caller's, lies in the range when both dates are given, and has the given category id, the given type and an amount within the given bounds |
| TransactionRoutes.Selected | backend/src/routes/transactions.js:69-70 | selects exactly the rows satisfying every part of the clause, with both range ends inclusive |
| TransactionRoutes.PageCount | backend/src/routes/transactions.js:98 | pages·limit ≥ total, and one page fewer would not hold it (`ceil`) |
| TransactionRoutes.PageRows | backend/src/routes/transactions.js:69-75 | the page is the run of the (date, creation)-descending selection that starts at the offset: its i-th row is the selection's (offset+i)-th; at most `limit` rows, exactly those left after the offset |
| TransactionRoutes.PagesInOrder | backend/src/routes/transactions.js:69-75 | every row on page p ranks at least as high as every row on page p+1 |
| TransactionRoutes.RowOnSomePage | backend/src/routes/transactions.js:69-75 | every selected row is listed on some page |
| TransactionRoutes.List | backend/src/routes/transactions.js:36-131 | 400 iff a validator fails, with the failures; a forwarded error iff the database fails; otherwise the page, the pagination over all matches and the summary |
| TransactionRoutes.ListedRows | backend/src/routes/transactions.js:69-107 | listed rows are the caller's matches, sorted, at most `limit`; the total and the summary cover the whole selection |
| TransactionRoutes.PageSize | backend/src/routes/transactions.js:73-74 | the page size is `limit` or what remains after the offset |
| TransactionRoutes.ListIsScoped | backend/src/routes/transactions.js:42-57 | a listed row is the caller's, lies inside a given date range, and is income when income is requested |
| TransactionRoutes.OneDateIsIgnored | backend/src/routes/transactions.js:45-49 | with only one date given, no row is excluded by date |
| TransactionRoutes.BodyAccepted | backend/src/routes/transactions.js:138-147 | a body passes iff category ≥ 1, type is valid, the amount is in [0.01, 999999.99], the description is at most 500, the date is given, a receipt link passes `isURL` and the other optional fields are well formed |
| TransactionRoutes.NewFromBody | backend/src/routes/transactions.js:179-192 | the stored owner is the authenticated caller |
| TransactionRoutes.CreateTx | backend/src/routes/transactions.js:150-214 | 400 with errors iff validation fails; 'Invalid category' iff no category has the id; a stored row carries the caller, category, amount, type and id |
| TransactionRoutes.CreateAfterValidation | backend/src/routes/transactions.js:167-202 | once validation passes and the category exists, the row is stored iff its date is a calendar date not after today; an off-calendar date gets the `isDate` 400 and a future one the future-date 400 |
| TransactionRoutes.BodyLeavesDateRules | backend/src/routes/transactions.js:138-147 | after the body check only the model's two date rules can still object |
| TransactionRoutes.StoredDefaults | backend/src/routes/transactions.js:179-192 | attributes left out of the body get the model's defaults |
| TransactionRoutes.SampleSelection | backend/tests/unit/transactionController.test.js:120-150 | with the three sample rows, no filter selects all three and the 11th–12th range selects the last two |
| TransactionRoutes.PaginationScenario | backend/tests/unit/transactionController.test.js:152-163 | `page=1&limit=2` returns 2 rows with total 3 and 2 pages |
| TransactionRoutes.DateRangeScenario | backend/tests/unit/transactionController.test.js:165-173 | the range 2026-01-11..12 lists the 2 rows of those days |
| TransactionRoutes.DateRangeQueryValid | backend/src/routes/transactions.js:45-49 | the date-range query validates and builds the caller's date clause |
| TransactionRoutes.DateRangeSelectsTwo | backend/src/routes/transactions.js:45-49 | that clause selects two of the three sample rows |
| TransactionRoutes.SummaryScenario | backend/tests/unit/transactionController.test.js:185-197 | the summary totals expenses at 300.00 over 2 rows and income at 1000.00 over 1 |
| TransactionRoutes.SampleTotals | backend/src/routes/transactions.js:100-107 | the per-type sums and counts of the sample rows |
| TransactionController.CreateAsWritten | backend/src/controllers/transactionController.js:6-34 | as written: 400 'Invalid category' iff no category has both the id and the caller as owner |
| TransactionController.AsWrittenNeverCreates | backend/src/controllers/transactionController.js:17-25 | as written, no request creates a row; with an owned category the reply is the missing-date 400 |
| TransactionController.AsWrittenRejectsValidExpense | backend/src/controllers/transactionController.js:17-25 | a valid expense in an owned category is refused |
| TransactionController.SampleExpenseLosesDate | backend/src/controllers/transactionController.js:17-25 | the attributes that arrive lack the date, which is the first violation |
| TransactionController.NewFromBody | backend/src/controllers/transactionController.js:9-25 | the owner is the authenticated caller |
| TransactionController.CreateTransaction | backend/src/controllers/transactionController.js:6-34 | rejected iff the category is not the caller's; created iff it is and the row validates, owned by the caller with the body's values and receipt link |
| TransactionController.ForeignCategoryRejected | backend/src/controllers/transactionController.js:12-15 | another user's category is refused like a missing one |
| TransactionController.OwnerIsCaller | backend/src/controllers/transactionController.js:17-18 | a created row's owner is the caller |
| TransactionController.Selected | backend/src/controllers/transactionController.js:41-50 | selects exactly the caller's rows meeting the date, category and type conditions |
| TransactionController.GetTransactions | backend/src/controllers/transactionController.js:36-63 | the database error is forwarded iff the query fails; otherwise distinct matching rows (a sub-multiset of the matches), newest date first, min(matches, 1000) of them, and no matching row left out is newer than a listed one |
| TransactionController.NewestKept | backend/src/controllers/transactionController.js:52-57 | the first rows of a newest-first listing are at least as new as every later row |
| TransactionController.SmallResultsAreComplete | backend/src/controllers/transactionController.js:56 | with at most 1000 matches every match is listed |
| UserModel.ParsePlan | backend/src/models/User.js:63-66 | a parsed plan prints back as its text |
| UserModel.PlanNamesParse | backend/src/models/User.js:63-66 | every plan's name parses to that plan |
| UserModel.Create | backend/src/models/User.js:6-94 | creation fails iff a validator fails or the e-mail is already stored, validation errors first, then the unique index; a created user holds the given values, the defaults, the hashed password, and `now` as both timestamps |
| UserModel.DuplicateEmailRefused | backend/src/models/User.js:12-19 | once a user is created, a second user with the same e-mail is refused by the unique index |
| UserModel.LengthBounds | backend/src/models/User.js:20-40 | a password outside 8..100 and a name outside 2..50 break `len` |
| UserModel.CreateDefaults | backend/src/models/User.js:41-66 | omitted attributes give USD, not verified, active, no two-factor and the free plan |
| UserModel.SavePassword | backend/src/models/User.js:78-83 | only the password and `updatedAt` can change; an unchanged password leaves the stored user as it was; a changed one is validated, replaced by its hash and stamps `updatedAt` |
| UserModel.Attributes | backend/src/models/User.js:121 | `get()` has every attribute, the two timestamps included |
| UserModel.ToJson | backend/src/models/User.js:120-127 | the view has every attribute except the four secrets, with unchanged values |
| UserModel.ToJsonHidesExactlySecrets | backend/src/models/User.js:120-127 | an attribute is in the view iff it is not a secret, and then it has the user's value |
| UserModel.ToJsonIgnoresSecrets | backend/src/models/User.js:120-127 | changing only secrets does not change the view |
| UserModel.SameOutsideSecrets | backend/src/models/User.js:120-127 | users equal outside the secrets agree on every visible attribute |
| UserModel.EnvOr | backend/src/models/User.js:108 | an unset variable gives the fallback; a non-empty one gives its value |
| UserModel.Sign | backend/src/models/User.js:101-109 | signing fails iff the secret is unset or empty, or the expiry is not a timespan `ms` can read; the secret error comes first; a token carries the payload, expiry and secret |
| UserModel.AuthToken | backend/src/models/User.js:100-110 | fails iff JWT_SECRET is unset or empty, or the expiry (JWT_EXPIRES_IN, 7d when unset or empty) is not a readable timespan; otherwise signed with JWT_SECRET, carrying id, e-mail, plan and that expiry |
| UserModel.RefreshToken | backend/src/models/User.js:112-118 | the payload is the id alone; fails iff JWT_REFRESH_SECRET is unset or empty, or the expiry (JWT_REFRESH_EXPIRES_IN, 30d when unset or empty) is not a readable timespan; otherwise signed with the refresh secret and that expiry |
| UserModel.RefreshTokenOnlyId | backend/src/models/User.js:112-118 | users with the same id get the same refresh token |
| UserModel.EmptyExpiryFallsBack | backend/src/models/User.js:108 | an empty JWT_EXPIRES_IN counts as unset and gives 7d |
| UserModel.UnreadableExpiryRefused | backend/src/models/User.js:100-110 | with a secret set and JWT_EXPIRES_IN "abc", which `ms` cannot read, no token is issued and the timespan error is returned |
| ExportRoutes.BodyErrors | backend/src/routes/exports.js:23-28 | a field is reported iff its check fails |
| ExportRoutes.Validate | backend/src/routes/exports.js:11-28 | accepted iff format and data type are in their allow-lists and filters and options are objects when given; otherwise 400 with the errors |
| ExportRoutes.AcceptedFormatsDispatch | backend/src/routes/exports.js:24 | every accepted format is handled by the controller's dispatch |
| ExportRoutes.AllowedFormatsAreLowercase | backend/src/routes/exports.js:24 | every allowed format is already lower case and is a dispatch label |
| ExportRoutes.OptionsMayBeOmitted | backend/src/routes/exports.js:26-27 | a body without filters and options passes |
| ExportRoutes.FindLog | backend/src/routes/exports.js:39-41 | finds a matching log iff one exists |
| ExportRoutes.ExportStatus | backend/src/routes/exports.js:34-60 | 404 iff no log of the caller has the id; the data carries the log's status, progress and expiry, and a download URL iff completed |
| ExportRoutes.ExportStatusAsWritten | backend/src/routes/exports.js:39 | as written, every status request fails at the unbound `ExportLog` |
| ExportRoutes.AsWrittenStatusNeverAnswers | backend/src/routes/exports.js:39 | the owner's own export is answered by the corrected endpoint and fails as written |
| ExportRoutes.Download | backend/src/routes/exports.js:63-91 | 404 iff no completed log of the caller has the id; 410 iff now is after its expiry; otherwise served with the log's headers |
| ExportRoutes.DownloadAsWritten | backend/src/routes/exports.js:68 | as written, every download request fails at the unbound `ExportLog` |
| ExportRoutes.ServedUntilExpiry | backend/src/routes/exports.js:80-82 | served at the expiry instant and gone one millisecond later |
| ExportRoutes.OnlyOwnCompletedExports | backend/src/routes/exports.js:68-78 | another user's export, and a processing one, are not found |
| ExportController.RendererNamed | backend/src/controllers/exportController.js:53-72 | a renderer exists exactly for the eight labels |
| ExportController.Dispatch | backend/src/controllers/exportController.js:52-75 | handled iff the lower-cased format is a label; otherwise 'Unsupported export format: ' and the format as given |
| ExportController.LowerOfLowercase | backend/src/controllers/exportController.js:52 | lower-casing lower-case text changes nothing |
| ExportController.AliasesShareRenderers | backend/src/controllers/exportController.js:56-68 | excel ≡ xlsx, ofx ≡ qfx, and case does not matter |
| ExportController.HeadersFor | backend/src/controllers/exportController.js:98-100 | the headers carry the file's type, length and name |
| ExportController.CsvSettingsFor | backend/src/controllers/exportController.js:115-122 | the header row is on unless `includeHeader` is false; `flatten`, `unwind` and `excelStrings` are passed through as given; the BOM is always on |
| ExportController.SameCsvSettings | backend/src/controllers/exportController.js:115-122 | two requests get the same settings iff they agree on whether the header is off and on `flatten`, `unwind` and `excelStrings` |
| ExportController.CsvFollowsSettings | backend/src/controllers/exportController.js:112-127 | the CSV export depends on the options only through the converter settings |
| ExportController.ExportToCsv | backend/src/controllers/exportController.js:112-143 | the converter gets the data and the settings built from the options (header, flatten, unwind, excelStrings, BOM); gzip iff the raw CSV exceeds 1 MiB, with matching type; the size is the final buffer's length |
| ExportController.CsvNameMatchesCompression | backend/src/controllers/exportController.js:131-142 | the name ends in `.csv.gz` iff compressed, else in `.csv` |
| ExportController.FitsColumnIsUnique | backend/src/controllers/exportController.js:203-210 | the width a column's cells call for is unique |
| ExportController.ColumnWidth | backend/src/controllers/exportController.js:203-210 | the width is min(longest cell + 2, 50) |
| ExportController.ColumnCells | backend/src/controllers/exportController.js:160-168 | a column holds its header cell, then that cell of every row |
| ExportController.AutoFilter | backend/src/controllers/exportController.js:183-186 | the filter covers exactly rows 1..n+1 and columns 1..columns |
| ExportController.ExportToExcel | backend/src/controllers/exportController.js:146-221 | sheet list, rows, auto-filter, frozen header, fitted widths, size, type and `.xlsx` name |
| ExportController.Render | backend/src/controllers/exportController.js:52-75 | each renderer produces its format; CSV and Excel report their true size |
| ExportController.ExportWith | backend/src/controllers/exportController.js:25-109 | a failed check, fetch or dispatch is forwarded; the stored metadata counts the records; an async reply has the download URL and a 24-hour expiry; a sync reply streams with the file's headers |
| ExportController.ExportDataAsWritten | backend/src/controllers/exportController.js:54-87 | as written, a request without `options` always fails |
| ExportController.ExportData | backend/src/controllers/exportController.js:25-109 | with missing options read as `{}`, a valid CSV request succeeds; the stored record count is the number of rows fetched |
| EncryptionService.Pack | backend/src/services/encryptionService.js:25 | the blob's length is the sum of its four parts |
| EncryptionService.Slice | backend/src/services/encryptionService.js:36-39 | in-range slices are exact; past the end they are empty |
| EncryptionService.Unpack | backend/src/services/encryptionService.js:35-39 | a blob of at least 96 bytes yields 64/16/16-byte fields |
| EncryptionService.UnpackPack | backend/src/services/encryptionService.js:25-39 | slicing a packed frame recovers salt, iv, tag and ciphertext |
| EncryptionService.PackUnpack | backend/src/services/encryptionService.js:25-39 | every blob of at least 96 bytes is the packing of its slices |
| EncryptionService.Encrypt | backend/src/services/encryptionService.js:16-31 | the output packs salt, IV, tag and ciphertext of the key derived from the salt; a failure is only 'Encryption failed' |
| EncryptionService.Decrypt | backend/src/services/encryptionService.js:33-50 | opens with the slices and the key derived from the stored salt; a failure is only 'Decryption failed' |
| EncryptionService.DecryptOpensWhatWasSealed | backend/src/services/encryptionService.js:16-50 | decrypting hands the cipher exactly the key, IV, tag and ciphertext that encryption produced |
| EncryptionService.RoundTrip | backend/src/services/encryptionService.js:16-50 | with an inverting cipher, decrypt(encrypt(text)) = text |
| EncryptionUtils.Frame | backend/src/utils/encryption.js:12 | one `:`, right after the IV's hex digits, and splitting gives exactly the two hex parts |
| EncryptionUtils.EncryptAsWritten | backend/src/utils/encryption.js:7-13 | as written: 32 hex digits of the IV, `:`, then the hex ciphertext; the tag is not written |
| EncryptionUtils.IvIgnored | backend/src/utils/encryption.js:8-9 | `createCipher` takes no IV: two encryptions of one text differ only before the `:` |
| EncryptionUtils.DecryptAsWritten | backend/src/utils/encryption.js:15-22 | as written: text without `:`, or whose second part has an odd number of hex digits, fails with a TypeError from `update`; any other text with a `:` fails with the missing-tag error from `final` |
| EncryptionUtils.OddHexRefused | backend/src/utils/encryption.js:19 | `decrypt("00:abc")` fails in `update` with the TypeError, not with the missing-tag error |
| EncryptionUtils.OnePartMeansNoColon | backend/src/utils/encryption.js:16 | a single part after splitting means no `:` |
| EncryptionUtils.TwoPartsMeanColon | backend/src/utils/encryption.js:16 | more than one part means a `:` |
| EncryptionUtils.AsWrittenNeverDecrypts | backend/src/utils/encryption.js:7-22 | as written, nothing `encrypt` writes can be decrypted |
| EncryptionUtils.Frame3 | backend/src/utils/encryption.js:12 | corrected: the IV, tag and ciphertext text splits back into exactly the three hex parts |
| EncryptionUtils.EncryptSealed | backend/src/utils/encryption.js:7-13 | corrected: the IV, the tag and the ciphertext of the cipher under the key and IV, in hex, separated by `:` |
| EncryptionUtils.DecryptSealed | backend/src/utils/encryption.js:15-22 | corrected: text that is not three parts, or whose ciphertext part has an odd number of hex digits, fails with the TypeError; otherwise the decipher gets the decoded IV, ciphertext and tag |
| EncryptionUtils.DecryptSealedSeesParts | backend/src/utils/encryption.js:7-22 | decrypting what the corrected `encrypt` wrote hands the decipher exactly the IV, ciphertext and tag it produced |
| EncryptionUtils.SealedRoundTrip | backend/src/utils/encryption.js:7-22 | with a GCM decipher that opens what its cipher sealed, decrypt(encrypt(text)) = text |
| EncryptionUtils.AsWrittenTextRefused | backend/src/utils/encryption.js:7-22 | text in the as-written format, without a tag, is refused by the corrected `decrypt` |
| Bytes.FromHexOfHex | backend/src/utils/encryption.js:17 | hex-decoding the hex text of a buffer gives the buffer back |
| Bytes.NoColonInHex | backend/src/utils/encryption.js:12 | hex text never contains `:` |
| Auth.ExtractToken | backend/src/middleware/auth.js:7 | no header gives no token; a header without 'Bearer ' is the token; otherwise the first 'Bearer ' is removed: putting it back where it first occurred gives the header |
| Auth.BearerPrefixRemoved | backend/src/middleware/auth.js:7 | 'Bearer t' yields exactly t |
| Auth.Authenticate | backend/src/middleware/auth.js:5-25 | no token gives 'Access denied'; a token that fails verification or names no user gives 'Invalid token.'; a resolving token attaches its user; 401 iff refused |
| Auth.NoTokenRefused | backend/src/middleware/auth.js:9-11 | a missing or empty header is refused for lack of a token; 'Bearer', all that Node leaves of 'Bearer ' after trimming, is passed on as a token |
| Auth.UnverifiedTokenRefused | backend/src/middleware/auth.js:13-24 | a token that does not verify gets 'Invalid token.' |
| Auth.DeletedUserRefused | backend/src/middleware/auth.js:14-18 | a verified token whose user is gone gets 'Invalid token.' |
| Auth.ValidTokenAuthenticates | backend/src/middleware/auth.js:13-21 | a verified token of an existing user authenticates that user |
| Tenant.Identifier | backend/src/middleware/tenant.js:7 | a truthy header wins, else the query; truthy iff either is |
| Tenant.FindActive | backend/src/middleware/tenant.js:9 | finds an active tenant with the id iff one exists |
| Tenant.ResolveTenant | backend/src/middleware/tenant.js:5-16 | 400 iff no identifier; 500 when the lookup throws; 404 iff no active tenant matches; a resolved tenant is active and in the table |
| Tenant.HeaderTakesPrecedence | backend/src/middleware/tenant.js:7 | with a non-empty header the query parameter is irrelevant |
| Tenant.InactiveIsNotFound | backend/src/middleware/tenant.js:9-10 | an inactive tenant is reported like a missing one |
| ResponseCache.CacheKey | backend/src/middleware/cache.js:8 | the key is `__expres__` followed by the URL |
| ResponseCache.CacheKeyInjective | backend/src/middleware/cache.js:8 | distinct URLs have distinct keys |
| ResponseCache.Get | backend/src/middleware/cache.js:11 | a key is read iff present and not expired |
| ResponseCache.SetEx | backend/src/middleware/cache.js:19 | a positive duration stores the value with its expiry; otherwise nothing changes |
| ResponseCache.Middleware | backend/src/middleware/cache.js:7-27 | a store error passes through; a stored value is answered parsed; otherwise the request proceeds |
| ResponseCache.Respond | backend/src/middleware/cache.js:17-21 | the body is sent unchanged and stored under its key; other keys are untouched |
| ResponseCache.MissThenHit | backend/src/middleware/cache.js:11-21 | a body sent after a miss answers later requests for the URL while it lives |
| ResponseCache.ExpiredMisses | backend/src/middleware/cache.js:11-14 | after expiry the next request misses |
| Health.Probe | backend/src/controllers/health.js:15-27 | a probe is up iff it answers and is never unknown |
| Health.CheckHealth | backend/src/controllers/health.js:5-31 | each service's status reflects its own probe; 200 iff both are up, else 503 |
| Health.ProbesAreIndependent | backend/src/controllers/health.js:15-27 | one service's status does not depend on the other's probe |
| ServerConfig.ErrorHandler | backend/src/config/server.js:80-104 | ValidationError → 400 with details; UnauthorizedError → 401; anything else → 500 with the message hidden iff in production |
| ServerConfig.HandlersDisagreeOutsideBothModes | backend/src/config/server.js:98-103 | outside production and development this handler shows the message, while the application's hides it |
| ServerConfig.Request | backend/src/config/server.js:65-76 | a request is counted; 429 once the count exceeds `max`; a successful one is uncounted when skipping; other clients are untouched |
| ServerConfig.Run | backend/src/config/server.js:65-76 | one status per request |
| ServerConfig.FailuresAccumulate | backend/src/config/server.js:65-73 | failures within a window each add a hit and get 429 once the count passes `max` |
| ServerConfig.SixthFailedLoginIsLimited | backend/tests/unit/transactionController.test.js:231-249 | six failed logins within fifteen minutes give 401 five times, then 429 |
| ServerConfig.SuccessIsNotCounted | backend/src/config/server.js:69 | a successful login leaves the count unchanged |
| AppErrors.MissingFrom | backend/src/app.js:11 | exactly the falsy variables, in order |
| AppErrors.MissingFromKeepsOrder | backend/src/app.js:11 | the missing names of a concatenated list are those of the first part followed by those of the second |
| AppErrors.MissingFromOne | backend/src/app.js:11 | a single name is reported iff it is falsy |
| AppErrors.CheckEnv | backend/src/app.js:10-16 | start-up aborts iff a required variable is falsy, naming them |
| AppErrors.OnlyRedisSet | backend/src/app.js:10-16 | with only REDIS_URL set, DATABASE_URL and JWT_SECRET are reported and start-up aborts |
| AppErrors.HandleError | backend/src/app.js:42-55 | Sequelize validation errors → 400 with the first message; otherwise `err.status` or 500, with the message shown iff in development |
| AppErrors.DatabaseFailureIsHidden | backend/tests/integration/api.test.js:202-215 | a database failure in a test environment answers 500 'Internal Server Error' |
| ReceiptScan.FirstMatch | ai_engine/app.py:57 | `re.search`: the match at the first position where the pattern matches, or none if it matches nowhere |
| ReceiptScan.FirstMatchAgrees | ai_engine/app.py:57 | two matchers that agree everywhere have the same leftmost match |
| ReceiptScan.FirstMatchSkips | ai_engine/app.py:57 | the search from a position skips the positions where nothing matches |
| ReceiptScan.RunEnd | ai_engine/app.py:53 | `\d+` extends over the maximal digit run |
| ReceiptScan.AmountWithIsAmountAt | ai_engine/app.py:53 | the backtracking `\d+\.\d{2}` matches exactly at the decision form's positions |
| ReceiptScan.AmountText | ai_engine/app.py:53 | the group is digits, a point and two digits |
| ReceiptScan.FirstAmount | ai_engine/app.py:53 | the leftmost amount, or none iff no amount exists |
| ReceiptScan.PrefixKeepsFirstAmount | ai-engine/app.py:57 | `\$?` and `\$?\s*` do not move the group off the leftmost amount |
| ReceiptScan.DmyAt | ai_engine/app.py:64 | a day-first match is 8 to 10 characters long |
| ReceiptScan.YmdAt | ai_engine/app.py:65 | a year-first match is 8 to 10 characters long |
| ReceiptScan.DayFirstMatcher | ai_engine/app.py:64 | the matcher succeeds exactly where a d/m/yyyy-shaped text starts |
| ReceiptScan.YearFirstMatcher | ai_engine/app.py:65 | the matcher succeeds exactly where a yyyy/m/d-shaped text starts |
| ReceiptEngine.CurrencyPatternIsDead | ai_engine/app.py:52-59 | the currency pattern matches only where the first already did |
| ReceiptEngine.AmountValue | ai_engine/app.py:59 | an amount is non-negative |
| ReceiptEngine.ExtractAmount | ai_engine/app.py:50-60 | the first amount's value; 0.0 iff there is no amount |
| ReceiptEngine.DayFirstSearch | ai_engine/app.py:64-68 | the search finds a day-first date iff one exists, and it is the leftmost |
| ReceiptEngine.YearFirstSearch | ai_engine/app.py:65-68 | the search finds a year-first date iff one exists, and it is the leftmost |
| ReceiptEngine.ExtractDate | ai_engine/app.py:62-71 | the leftmost day-first date verbatim, else the leftmost year-first one, read to its longest end as the greedy `\d{1,2}` does, else today's date |
| ReceiptEngine.GreedyDayTaken | ai_engine/app.py:62-71 | "2020-1-15" is taken whole, not cut to "2020-1-1" |
| ReceiptScan.YearFirstLongest | ai_engine/app.py:65 | no year-first date at a position ends after the one the matcher takes |
| ReceiptEngine.DateFromTextHasDateShape | ai_engine/app.py:62-70 | a date taken from the text has one of the two shapes |
| ReceiptEngine.ExtractDateAlwaysHasDateShape | ai_engine/app.py:62-71 | for a valid today with a four-digit year, whatever is returned has one of the two date shapes, the fallback being year-first |
| ReceiptEngine.DayFirstWins | ai_engine/app.py:67-70 | a day-first date anywhere beats year-first dates, and the one chosen starts no later |
| ReceiptEngine.FirstNonEmpty | ai_engine/app.py:75-76 | finds the first of the stripped lines that is non-empty, with every earlier one empty, or none iff all are empty |
| ReceiptEngine.ExtractMerchant | ai_engine/app.py:73-76 | 'Unknown' iff every line is blank; else the first non-blank line, stripped, one line without outer whitespace |
| ReceiptEngine.PredictCategory | ai_engine/app.py:78-87 | Groceries iff a grocery word occurs, then Transportation, then Dining Out, else Other |
| ReceiptEngine.LowerIdempotent | ai_engine/app.py:80 | lower-casing twice is lower-casing once |
| ReceiptEngine.CategoryIgnoresCase | ai_engine/app.py:80 | the category does not depend on letter case |
| ReceiptEngine.GroceriesComeFirst | ai_engine/app.py:81-84 | 'SUPERMARKET FUEL' is Groceries |
| ReceiptEngine.ExtractReceipt | ai_engine/app.py:25-48 | success iff OCR succeeded, else 500 with the message; the reply confirms, echoes the raw text and holds the four extractions |
| ReceiptEngine.ZeroAmountIsAmbiguous | ai_engine/app.py:50-60 | 'no total' and '0.00' both give 0.0 |
| OcrEngine.LazyGroupFrom | ai-engine/app.py:57 | the lazy `.*?` group is an amount at or after the label |
| OcrEngine.LabelledAt | ai-engine/app.py:57 | a labelled match's group is an amount |
| OcrEngine.LabelledPatternIsDead | ai-engine/app.py:57-61 | the labelled pattern matches only where the first already did |
| OcrEngine.ExtractAmount | ai-engine/app.py:56-62 | None iff there is no amount; otherwise the first amount's value |
| OcrEngine.EnginesAgreeOnAmount | ai-engine/app.py:56-62 | both engines read the same amount; where there is none this one says None and the other 0.0 |
| OcrEngine.PredictCategory | ai-engine/app.py:64-69 | groceries iff 'grocery' occurs, then dining for 'restaurant', then transportation for 'gas', else other |
| OcrEngine.CategoryIgnoresCase | ai-engine/app.py:66 | the category does not depend on letter case |
| OcrEngine.EnginesDisagreeOnFuel | ai-engine/app.py:64-69 | 'fuel' is Transportation to one engine and other to this one |
| OcrEngine.EnginesSpellCategoriesDifferently | ai-engine/app.py:64-69 | 'gas' is Transportation to one engine and transportation to this one |
| OcrEngine.ExtractReceipt | ai-engine/app.py:71-78 | success iff OCR succeeded, else 500; the reply holds the amount and category the two extractors give for the recognised text, with confidence 0.7 |
| MergeExtract.FirstLine | merge_and_extract.py:6 | the first line of the stripped content, itself stripped, contains no line feed |
| MergeExtract.PathRunEnd | merge_and_extract.py:9 | the `[a-zA-Z0-9_\-\.\/]+` run is maximal |
| MergeExtract.MarkerLength | merge_and_extract.py:9 | a marker is found iff the line starts with `//`, `#` or `<!--`, and its length is returned |
| MergeExtract.CommentPath | merge_and_extract.py:9-11 | the group is a non-empty run of path characters after a marker and optional whitespace |
| MergeExtract.CommentPathComplete | merge_and_extract.py:9-11 | conversely, a line made of a marker, optional whitespace and a non-empty run of path characters that no further path character follows yields exactly that run |
| MergeExtract.CommentShapeNamesFile | merge_and_extract.py:9-17 | such a line whose run holds a `/` or a `.` is named by the run |
| MergeExtract.CommentCleanupNeverApplies | merge_and_extract.py:13-14 | the group never contains `-->`, so the clean-up never applies |
| MergeExtract.CommentName | merge_and_extract.py:9-17 | a comment name is accepted iff it contains `/` or `.` |
| MergeExtract.NameFromLine | merge_and_extract.py:5-23 | the comment name first; else the whole line iff it has `/` and `.` and is shorter than 100; a name is never empty |
| MergeExtract.FileNameFromContent | merge_and_extract.py:5-23 | a name is one line, non-empty, and contains `/` or `.` |
| MergeExtract.OnlyFirstLineMatters | merge_and_extract.py:6 | text after the first line never changes the name |
| MergeExtract.SlashCommentNamesFile | merge_and_extract.py:9-17 | '// src/app.js' names src/app.js |
| MergeExtract.CommentSentenceTakenAsName | merge_and_extract.py:16-21 | '// Go on.' is taken whole as a file name |
| MergeExtract.IndicesMap | merge_and_extract.py:31 | the map has exactly the listed indices |
| MergeExtract.LastEntryWins | merge_and_extract.py:31 | for a repeated index the last entry's file name wins |
| MergeExtract.LoadIndices | merge_and_extract.py:27-33 | a failed load gives the empty map |
| MergeExtract.ChosenName | merge_and_extract.py:53-61 | the content's own name beats the index; the index is used only without one |
| MergeExtract.ResolveBlock | merge_and_extract.py:57-68 | skipped iff no name; the written name has its leading `/` removed |
| MergeExtract.Extract | merge_and_extract.py:52-82 | one outcome per block, each resolved independently |
| MergeExtract.ContentNameBeatsIndex | merge_and_extract.py:57-61 | with a name in the content, the index entry is irrelevant |
| MergeExtract.AbsolutePathMadeRelative | merge_and_extract.py:68 | '// /a.c' is written to a.c |

## Left out

- Redis, node-cache, Sequelize, Express, socket.io and the file system are not called. Their state is passed in (maps, sequences) and their answers are parameters.
- Concurrency is not modelled. The unawaited `set` in a cache miss is treated as completing in order, and `Promise.allSettled` as a sequence of settled outcomes.
- The controller's insight recomputation after a created transaction is started without being awaited, and its failure is only logged; it cannot change the reply and is left out.
- node-cache's `maxKeys` limit, its expiry sweep and the `expired` hook are not modelled. `promoteToL2` and `invalidateCDN` are not part of this model: the hook is a no-op and the CDN is off.
- The `warmRecentTransactions`, `warmBudgetData`, `warmCategoryData`, `fetchDashboardData`, `fetchData`, `validateExportRequest` and `exportToPDF`/`JSON`/`OFX`/`QIF` helpers are not part of this model. Their outcomes are parameters.
- EnterpriseCache.GetStats: the `l2` part of the statistics is an empty object in the source and is not modelled; only whether the awaited `INFO stats` call rejects is.
- Glob.Match: only the `*` and `?` wildcards are modelled; Redis's `[...]` character classes and `\` escapes are matched as literal characters.
- Cryptography (AES-GCM, pbkdf2, scrypt, bcrypt, JWT signing and verification) is a set of uninterpreted functions; only the framing is modelled. So is base64 on the encryption service's output.
- `Math.random` nonces, `crypto.randomBytes`, `Date.now()`, `new Date()` and `datetime.now()` are arguments.
- Floating point is not modelled. Money is integer cents; the Python engines' `float()` gives an exact decimal (`real`).
- TransactionRoutes.List: the summary's `average` (SQL AVG, a float) is not modelled; totals and counts are.
- ReceiptEngine.ExtractAmount and OcrEngine.ExtractAmount: the value is the exact decimal the digits denote, not the nearest binary double.
- Python's `\d`, `\s`, `lower()` and `strip()` are modelled for ASCII text only.
- Image decoding, `preprocess_image`, Tesseract OCR, the NLP pipeline and CORS of the AI services are not modelled. The recognised text, or the exception message, is a parameter.
- `merge_and_extract.py`: listing and loading batch files, `makedirs`, the file writes, `success_count` and the printed messages are left out. `Extract` yields the resolved outcome per block.
- The rate limiter follows the memory-store semantics of `express-rate-limit`. The library is not part of this model; rate-limit headers are left out.
- `requireFeature` and `asyncHandler`, used by the export routes, are not part of this model. The routes are modelled after authentication, with errors forwarded.
- ExportRoutes: modelled as if the router loaded and were mounted. As written, `backend/src/routes/exports.js:5` imports `requireFeature` from `middleware/auth`, which exports only `authenticate` and `hashPassword` (`backend/src/middleware/auth.js:5`, `:29`), so the call at `exports.js:22` throws a TypeError when the module loads; and `backend/src/app.js:31-39` never mounts the export router. The module-load failure and the missing mount are not modelled, so no export endpoint is reachable in the program as written.
- ResponseCache: modelled as if the module loaded. As written, `backend/src/middleware/cache.js:32-36` calls `app.get` on an `app` the file never defines, a ReferenceError when the module is loaded; that failure is not modelled. The route it sketches, the dashboard summary cached for 300 seconds, is the only use.
- ResponseCache.SetEx: a non-positive duration is modelled as storing nothing. In the source the `setEx` call at `cache.js:19` is not awaited, so Redis's rejection of such an expiry becomes an unhandled promise rejection rather than an error the request sees; the only call site passes 300.
- ExportController.ColumnWidth and ExportController.CellLength: a cell's length is its number of characters, each a Unicode scalar value, whereas JavaScript's `toString().length` counts UTF-16 code units, so a character outside the Basic Multilingual Plane counts once here and twice in the source.
- `securityMiddleware`'s helmet and CORS settings, the JSON body limits and the route mounting of `app.js` have no logic to state.
- UserModel.Sign, UserModel.AuthToken and UserModel.RefreshToken: which expiry strings the `ms` library reads as timespans is the parameter predicate `isTimespan`; its grammar is not modelled.
- UserModel.Create: the e-mail syntax check (`isEmail`) is a parameter predicate, and the e-mails already stored are a parameter set `taken`; uniqueness is exact string equality, and two concurrent registrations racing for one e-mail are not modelled.
- TransactionModel.RuleViolations: `isDate` is modelled as calendar validity, so JavaScript's lenient parsing of a day such as February 30 is not modelled. The URL check `isUrl` is a parameter predicate, like `isEmail`.
- TransactionModel.FormattedAmount: assumes the amount is a number. Sequelize returns PostgreSQL DECIMAL columns as strings, and income's `toFixed` on a string throws; that path is not modelled.
- EncryptionUtils: the key is a parameter. In the source, `backend/src/utils/encryption.js:5` derives it with `crypto.scryptSync(process.env.ENCRYPTION_KEY, 'salt', 32)` when the module loads, which throws when `ENCRYPTION_KEY` is unset; `backend/src/app.js:10` does not list that variable as required, so the failure is not caught at start-up. That load-time failure is not modelled.
- EncryptionUtils and EncryptionService: `crypto.createCipher` and `createDecipher` derive the IV from the key and ignore the one passed; Node.js releases that no longer have them, where every call throws, are not modelled.
- TransactionController.CreateTransaction: a failing category lookup is not modelled; the categories are passed in.
- The uptime field of the health report is not modelled.
- The socket.io emit after a created transaction and all logging are left out.

## Findings

| source | as written | input that shows it | evidently intended | confidence | as-written member | corrected member |
|---|---|---|---|---|---|---|
| backend/src/controllers/transactionController.js:17-25 | passes `user_id`, `category_id`, `transaction_date` and `receipt_image_url` to `Transaction.create`; the model's attributes are camelCase, so these keys are dropped and the required date is missing | a valid expense of 99.99 dated 2026-01-12 in category 7, owned by the caller | store the row under `userId`, `categoryId`, `transactionDate`, `receiptImageUrl` | medium, not executed | TransactionController.CreateAsWritten | TransactionController.CreateTransaction |
| backend/src/controllers/exportController.js:87 | reads members of `options` unconditionally, `options.async` on line 87 and, for CSV, `options.includeHeader` on line 117, but the route lets `options` be omitted, so such a request ends in a TypeError | `{format: 'csv', dataType: 'transactions'}` | a missing `options` read as `{}` | high, not executed | ExportController.ExportDataAsWritten | ExportController.ExportData |
| backend/src/routes/exports.js:39 | the status handler calls `ExportLog.findOne`, but the file never imports `ExportLog` | a status request for the caller's own completed export, once the router loads and is mounted (see ExportRoutes under Left out) | look the export up in the export log | high, not executed | ExportRoutes.ExportStatusAsWritten | ExportRoutes.ExportStatus |
| backend/src/utils/encryption.js:7-22 | AES-256-GCM is used, but `encrypt` never reads the authentication tag and `decrypt` never calls `setAuthTag`, so `decipher.final()` throws on everything `encrypt` writes | any text, e.g. `decrypt(encrypt('hello'))` | store the tag beside the IV and ciphertext and set it before `final` | high, not executed | EncryptionUtils.DecryptAsWritten | EncryptionUtils.DecryptSealed |
| backend/src/routes/exports.js:68 | the download handler calls `ExportLog.findOne`, with the same missing import | a download of the caller's completed, unexpired export, once the router loads and is mounted (see ExportRoutes under Left out) | look the export up in the export log | high, not executed | ExportRoutes.DownloadAsWritten | ExportRoutes.Download |

The lemmas that exhibit each discrepancy:

- `TransactionController.AsWrittenNeverCreates` and `TransactionController.AsWrittenRejectsValidExpense` for the first row.
- The ensures of `ExportController.ExportDataAsWritten` for the second.
- `ExportRoutes.AsWrittenStatusNeverAnswers` for the third.
- `EncryptionUtils.AsWrittenNeverDecrypts` for the fourth; `EncryptionUtils.SealedRoundTrip` proves the corrected pair's round trip.
- The ensures of `ExportRoutes.DownloadAsWritten`, beside `ExportRoutes.ServedUntilExpiry` for the corrected endpoint, for the fifth.

The rest of the model uses the corrected members.

=== FILE: app_errors.dfy ===
/**
 * Start-up and error handling of the Express application: the required
 * environment variables, and the final error-handling middleware that turns an
 * error passed to `next` into a JSON reply.
 */
module AppErrors {
  import opened Wrappers
  import Text

  const RequiredEnvVars: seq<string> := ["DATABASE_URL", "REDIS_URL", "JWT_SECRET"]

  /** An environment variable is falsy when it is unset or set to the empty string. */
  predicate Falsy(env: map<string, string>, name: string) { name !in env || env[name] == "" }

  /** The names among `names` whose value is falsy, in the order given. */
  function MissingFrom(names: seq<string>, env: map<string, string>): (r: seq<string>)
    ensures |r| <= |names|
    ensures forall v {:trigger v in r} :: v in r <==> v in names && Falsy(env, v)
  {
    if |names| == 0 then []
    else
      var rest := MissingFrom(names[1..], env);
      assert names == [names[0]] + names[1..];
      if Falsy(env, names[0]) then [names[0]] + rest else rest
  }

  /** The missing names keep the order of the list they are drawn from: the result for a
      concatenation is the concatenation of the results. */
  lemma {:induction false} MissingFromKeepsOrder(a: seq<string>, b: seq<string>, env: map<string, string>)
    ensures MissingFrom(a + b, env) == MissingFrom(a, env) + MissingFrom(b, env)
    decreases |a|
  {
    if |a| == 0 {
      assert a + b == b;
    } else {
      MissingFromKeepsOrder(a[1..], b, env);
      MissingFromStep(a, b, env);
    }
  }

  /** The inductive step: with the property for the tail of `a`, it holds for `a`. */
  lemma MissingFromStep(a: seq<string>, b: seq<string>, env: map<string, string>)
    requires |a| > 0
    requires MissingFrom(a[1..] + b, env) == MissingFrom(a[1..], env) + MissingFrom(b, env)
    ensures MissingFrom(a + b, env) == MissingFrom(a, env) + MissingFrom(b, env)
  {
    var head := if Falsy(env, a[0]) then [a[0]] else [];
    var x, y := MissingFrom(a[1..], env), MissingFrom(b, env);
    MissingFromHead(a, b, env);
    MissingFromHead(a, [], env);
    assert head + (x + y) == (head + x) + y;
  }

  /** Peeling the first name off a list with a suffix. */
  lemma MissingFromHead(a: seq<string>, b: seq<string>, env: map<string, string>)
    requires |a| > 0
    ensures MissingFrom(a + b, env) == (if Falsy(env, a[0]) then [a[0]] else []) + MissingFrom(a[1..] + b, env)
    ensures b == [] ==> MissingFrom(a, env) == (if Falsy(env, a[0]) then [a[0]] else []) + MissingFrom(a[1..], env)
  {
    assert a + b == [a[0]] + (a[1..] + b);
    MissingFromCons(a[0], a[1..] + b, env);
    if b == [] {
      assert a + b == a && a[1..] + b == a[1..];
    }
  }

  /** The names missing from a list with a first name added. */
  lemma MissingFromCons(n: string, rest: seq<string>, env: map<string, string>)
    ensures MissingFrom([n] + rest, env) == (if Falsy(env, n) then [n] else []) + MissingFrom(rest, env)
  {
    var s := [n] + rest;
    assert s[0] == n && s[1..] == rest;
  }

  /** A single name is reported exactly when it is falsy. */
  lemma MissingFromOne(n: string, env: map<string, string>)
    ensures MissingFrom([n], env) == (if Falsy(env, n) then [n] else [])
  {
    assert [n][1..] == [];
  }

  datatype Startup = Start | Abort(message: string)

  /** The check run when the application module loads: start-up aborts when any
      required variable is falsy and names all of them. */
  function CheckEnv(env: map<string, string>): (r: Startup)
    ensures r.Abort? <==> exists v :: v in RequiredEnvVars && Falsy(env, v)
    ensures r.Abort? ==> r.message == "Missing required environment variables: "
                                      + Text.JoinWith(MissingFrom(RequiredEnvVars, env), ", ")
  {
    var missing := MissingFrom(RequiredEnvVars, env);
    if |missing| > 0 then
      assert missing[0] in missing;
      Abort("Missing required environment variables: " + Text.JoinWith(missing, ", "))
    else
      assert forall v :: v in RequiredEnvVars ==> v !in missing;
      Start
  }

  /** With only the Redis URL set (the secret is empty), the other two are reported,
      in declaration order, and start-up aborts. */
  lemma OnlyRedisSet(env: map<string, string>)
    requires env == map["REDIS_URL" := "redis://cache", "JWT_SECRET" := ""]
    ensures MissingFrom(RequiredEnvVars, env) == ["DATABASE_URL", "JWT_SECRET"]
    ensures CheckEnv(env).Abort?
  {
    var names := RequiredEnvVars;
    assert Falsy(env, "DATABASE_URL") && !Falsy(env, "REDIS_URL") && Falsy(env, "JWT_SECRET");
    assert names[1..][1..][1..] == [];
    assert MissingFrom(names[1..][1..], env) == ["JWT_SECRET"];
    assert MissingFrom(names[1..], env) == ["JWT_SECRET"];
  }

  /** An error passed to `next(err)`: its `name`, `message`, `status` property, and the
      messages of its `errors` entries (set on Sequelize validation errors). */
  datatype ErrorValue = ErrorValue(name: string, message: string, status: Option<int>, entries: seq<string>)

  /** The reply the error middleware sends: `{success: false, error}` with a status,
      or a failure of the handler itself (Express then answers with its default 500 page). */
  datatype Reply = Reply(status: int, error: string) | HandlerFailure

  predicate IsSequelizeValidation(err: ErrorValue)
  {
    err.name == "SequelizeValidationError" || err.name == "SequelizeUniqueConstraintError"
  }

  /** The error-handling middleware registered last on the application. */
  function HandleError(err: ErrorValue, nodeEnv: Option<string>): (r: Reply)
    ensures IsSequelizeValidation(err) ==>
              (r.HandlerFailure? <==> |err.entries| == 0)
              && (r.Reply? ==> r.status == 400 && r.error == err.entries[0])
    ensures !IsSequelizeValidation(err) ==> r.Reply?
    ensures !IsSequelizeValidation(err) && (err.status.None? || err.status == Some(0)) ==> r.status == 500
    ensures !IsSequelizeValidation(err) && err.status.Some? && err.status.value != 0 ==> r.status == err.status.value
    ensures !IsSequelizeValidation(err) && nodeEnv != Some("development") ==> r.error == "Internal Server Error"
    ensures !IsSequelizeValidation(err) && nodeEnv == Some("development") ==> r.error == err.message
  {
    if IsSequelizeValidation(err) then
      if |err.entries| == 0 then HandlerFailure else Reply(400, err.entries[0])
    else
      var status := if err.status.Some? && err.status.value != 0 then err.status.value else 500;
      Reply(status, if nodeEnv == Some("development") then err.message else "Internal Server Error")
  }

  /** A database failure outside development answers 500 without leaking its message. */
  lemma DatabaseFailureIsHidden(message: string)
    ensures HandleError(ErrorValue("Error", message, None, []), Some("test"))
            == Reply(500, "Internal Server Error")
  {
  }
}

=== FILE: auth.dfy ===
/**
 * The `authenticate` middleware of `backend/src/middleware/auth.js`: the token
 * is the Authorization header with its first "Bearer " removed; a missing or
 * empty token, a token that fails verification, and a token whose user no
 * longer exists are all refused with 401, and only a known user is attached
 * to the request before `next` is called.
 */
module Auth {
  import opened Wrappers
  import Text

  const Bearer: string := "Bearer "
  const NoTokenMessage: string := "Access denied. No token provided."
  const InvalidTokenMessage: string := "Invalid token."

  /** `req.header('Authorization')?.replace('Bearer ', '')`: JavaScript's string
      `replace` removes only the first occurrence, wherever it is. */
  function ExtractToken(header: Option<string>): (token: Option<string>)
    ensures header.None? <==> token.None?
    ensures header.Some? && !Text.Contains(header.value, Bearer) ==> token == header
    ensures header.Some? && Text.Contains(header.value, Bearer) ==>
              |token.value| + |Bearer| == |header.value|
    ensures header.Some? && Text.Contains(header.value, Bearer) ==>
              var i := Text.IndexOf(header.value, Bearer).value;
              && i <= |token.value|
              && header.value == token.value[..i] + Bearer + token.value[i..]
              && forall j: nat :: j < i ==> !Text.OccursAt(header.value, Bearer, j)
  {
    match header
    case None => None
    case Some(h) =>
      if Text.Contains(h, Bearer) then
        FirstBearerRemoved(h);
        Some(Text.ReplaceFirst(h, Bearer, ""))
      else Some(Text.ReplaceFirst(h, Bearer, ""))
  }

  /** Removing the first "Bearer " leaves text into which it can be put back at the same place. */
  lemma FirstBearerRemoved(h: string)
    requires Text.Contains(h, Bearer)
    ensures var i := Text.IndexOf(h, Bearer).value;
            var t := Text.ReplaceFirst(h, Bearer, "");
            i <= |t| && h == t[..i] + Bearer + t[i..]
  {
    var i := Text.IndexOf(h, Bearer).value;
    var t := Text.ReplaceFirst(h, Bearer, "");
    assert t[..i] == h[..i] && t[i..] == h[i + |Bearer|..];
    assert h == h[..i] + h[i..i + |Bearer|] + h[i + |Bearer|..];
  }

  /** A header of the form "Bearer <t>" yields exactly `t`. */
  lemma BearerPrefixRemoved(t: string)
    ensures ExtractToken(Some(Bearer + t)) == Some(t)
  {
    var h := Bearer + t;
    assert Text.OccursAt(h, Bearer, 0);
    assert Text.IndexOf(h, Bearer) == Some(0);
    assert h[..0] + "" + h[7..] == t;
  }

  /** What `jwt.verify` yields: the `id` claim of a valid token (absent when the payload
      has none), or the error it throws for a bad signature, a malformed or expired token. */
  type Verify = string -> Result<Option<string>, string>

  /** `User.findByPk(id)`: the user, none, or a database error. */
  type FindUser<U> = string -> Result<Option<U>, string>

  /** The two ends of the middleware. `Refused` is a 401 with `{error}` and `next` is not
      called; `Authenticated` sets `req.user` and calls `next` once. */
  datatype AuthOutcome<U> = Refused(error: string) | Authenticated(user: U)

  function Status<U>(r: AuthOutcome<U>): int
  {
    if r.Refused? then 401 else 200
  }

  /** True when `token` verifies to an id under which `findUser` finds a user. */
  predicate Resolves<U>(token: string, verify: Verify, findUser: FindUser<U>)
  {
    verify(token).Ok? && verify(token).value.Some?
    && findUser(verify(token).value.value).Ok? && findUser(verify(token).value.value).value.Some?
  }

  /** The user a resolving token names. */
  function UserOf<U>(token: string, verify: Verify, findUser: FindUser<U>): U
    requires Resolves(token, verify, findUser)
  {
    findUser(verify(token).value.value).value.value
  }

  function Authenticate<U>(header: Option<string>, verify: Verify, findUser: FindUser<U>): (r: AuthOutcome<U>)
    ensures var token := ExtractToken(header);
            (token.None? || token.value == "") <==> r == Refused(NoTokenMessage)
    ensures var token := ExtractToken(header);
            (r.Authenticated? <==> token.Some? && token.value != "" && Resolves(token.value, verify, findUser))
            && (r.Authenticated? ==> r.user == UserOf(token.value, verify, findUser))
    ensures r.Refused? ==> r.error == NoTokenMessage || r.error == InvalidTokenMessage
    ensures Status(r) == 401 <==> r.Refused?
  {
    var token := ExtractToken(header);
    if token.None? || token.value == "" then Refused(NoTokenMessage)
    else
      match verify(token.value)
      case Err(_) => Refused(InvalidTokenMessage)
      case Ok(id) =>
        if id.None? then Refused(InvalidTokenMessage)
        else
          match findUser(id.value)
          case Ok(Some(u)) => Authenticated(u)
          case Ok(None) => Refused(InvalidTokenMessage)
          case Err(_) => Refused(InvalidTokenMessage)
  }

  /** A request without an Authorization header, or with an empty one, gets the no-token
      reply. A bare "Bearer " cannot arrive: Node trims the trailing space of a header
      value, and the remaining "Bearer" contains no "Bearer " to remove, so it is passed on
      as a token of its own. */
  lemma NoTokenRefused<U>(verify: Verify, findUser: FindUser<U>)
    ensures Authenticate(None, verify, findUser) == Refused(NoTokenMessage)
    ensures Authenticate(Some(""), verify, findUser) == Refused(NoTokenMessage)
    ensures ExtractToken(Some("Bearer")) == Some("Bearer")
  {
    Text.AbsentChar("Bearer", Bearer, 6);
  }

  /** A bearer token that fails verification gets 'Invalid token.' whatever the users are. */
  lemma UnverifiedTokenRefused<U>(t: string, verify: Verify, findUser: FindUser<U>)
    requires t != "" && verify(t).Err?
    ensures Authenticate(Some(Bearer + t), verify, findUser) == Refused(InvalidTokenMessage)
  {
    BearerPrefixRemoved(t);
  }

  /** A verified token whose user is gone also gets 'Invalid token.'. */
  lemma DeletedUserRefused<U>(t: string, id: string, verify: Verify, findUser: FindUser<U>)
    requires t != "" && verify(t) == Ok(Some(id)) && findUser(id) == Ok(None)
    ensures Authenticate(Some(Bearer + t), verify, findUser) == Refused(InvalidTokenMessage)
  {
    BearerPrefixRemoved(t);
  }

  /** A bearer token that verifies to the id of an existing user attaches that user. */
  lemma ValidTokenAuthenticates<U>(t: string, id: string, u: U, verify: Verify, findUser: FindUser<U>)
    requires t != "" && verify(t) == Ok(Some(id)) && findUser(id) == Ok(Some(u))
    ensures Authenticate(Some(Bearer + t), verify, findUser) == Authenticated(u)
  {
    BearerPrefixRemoved(t);
  }
}

=== FILE: bytes.dfy ===
/**
 * Byte strings and their hexadecimal text, as Node's `Buffer#toString('hex')`
 * writes it (lower case, two digits per byte) and `Buffer.from(text, 'hex')`
 * reads it back (pairs of hex digits, stopping at the first pair that is not one).
 */
module Bytes {

  newtype Byte = b: int | 0 <= b < 256

  const HexDigits: string := "0123456789abcdef"

  predicate IsHexChar(c: char) { '0' <= c <= '9' || 'a' <= c <= 'f' || 'A' <= c <= 'F' }

  function HexChar(d: nat): (c: char)
    requires d < 16
    ensures c in HexDigits && IsHexChar(c)
  {
    HexDigits[d]
  }

  function HexValue(c: char): (d: nat)
    requires IsHexChar(c)
    ensures d < 16
  {
    if '0' <= c <= '9' then c as int - '0' as int
    else if 'a' <= c <= 'f' then c as int - 'a' as int + 10
    else c as int - 'A' as int + 10
  }

  lemma HexCharValue(d: nat)
    requires d < 16
    ensures HexValue(HexChar(d)) == d
  {
  }

  /** The two digits of one byte, high nibble first. */
  function HexPair(b: Byte): (s: string)
    ensures |s| == 2 && IsHexChar(s[0]) && IsHexChar(s[1])
    ensures s[0] in HexDigits && s[1] in HexDigits
  {
    [HexChar(b as int / 16), HexChar(b as int % 16)]
  }

  /** The byte two hex digits denote. */
  function PairValue(c0: char, c1: char): Byte
    requires IsHexChar(c0) && IsHexChar(c1)
  {
    (HexValue(c0) * 16 + HexValue(c1)) as Byte
  }

  /** `Buffer#toString('hex')`. */
  function Hex(bs: seq<Byte>): (s: string)
    ensures |s| == 2 * |bs|
    ensures forall i :: 0 <= i < |s| ==> s[i] in HexDigits
  {
    if |bs| == 0 then "" else HexPair(bs[0]) + Hex(bs[1..])
  }

  /** `Buffer.from(s, 'hex')`: decodes leading pairs of hex digits; decoding stops at
      the first pair containing another character, and a lone final digit is dropped. */
  function FromHex(s: string): (bs: seq<Byte>)
    ensures |bs| <= |s| / 2
  {
    if |s| < 2 || !IsHexChar(s[0]) || !IsHexChar(s[1]) then []
    else [PairValue(s[0], s[1])] + FromHex(s[2..])
  }

  /** The two hex digits written for a byte read back as that byte. */
  lemma PairRoundTrip(b: Byte)
    ensures PairValue(HexPair(b)[0], HexPair(b)[1]) == b
  {
    HexCharValue(b as int / 16);
    HexCharValue(b as int % 16);
  }

  lemma FromHexStep(s: string)
    requires |s| >= 2 && IsHexChar(s[0]) && IsHexChar(s[1])
    ensures FromHex(s) == [PairValue(s[0], s[1])] + FromHex(s[2..])
  {
  }

  /** Decoding the hex text of a buffer gives the buffer back. */
  lemma {:induction false} FromHexOfHex(bs: seq<Byte>)
    ensures FromHex(Hex(bs)) == bs
  {
    if |bs| > 0 {
      var p := HexPair(bs[0]);
      var h := Hex(bs);
      assert h == p + Hex(bs[1..]);
      assert h[0] == p[0] && h[1] == p[1] && h[2..] == Hex(bs[1..]);
      FromHexStep(h);
      PairRoundTrip(bs[0]);
      FromHexOfHex(bs[1..]);
      assert bs == [bs[0]] + bs[1..];
    }
  }

  /** Hex text never contains a character outside the sixteen digits, `:` among them. */
  lemma NoColonInHex(bs: seq<Byte>)
    ensures ':' !in Hex(bs)
  {
  }
}

=== FILE: calendar.dfy ===
/**
 * Calendar dates as the models and routes compare them: proleptic Gregorian
 * dates, their order, month lengths, and the JavaScript `Date(year, monthIndex, day)`
 * normalisation used to compute a month's first and last day.
 */
module Calendar {
  import Text

  datatype Date = Date(year: int, month: int, day: int)

  predicate IsLeap(y: int) { (y % 4 == 0 && y % 100 != 0) || y % 400 == 0 }

  function DaysInMonth(y: int, m: int): (n: int)
    requires 1 <= m <= 12
    ensures 28 <= n <= 31
    ensures m == 2 ==> (n == 29 <==> IsLeap(y))
  {
    if m == 2 then (if IsLeap(y) then 29 else 28)
    else if m == 4 || m == 6 || m == 9 || m == 11 then 30
    else 31
  }

  predicate Valid(d: Date) { 1 <= d.month <= 12 && 1 <= d.day <= DaysInMonth(d.year, d.month) }

  /** Chronological order of dates: by year, then month, then day. */
  predicate Before(a: Date, b: Date)
  {
    a.year < b.year || (a.year == b.year && (a.month < b.month || (a.month == b.month && a.day < b.day)))
  }

  predicate NotAfter(a: Date, b: Date) { Before(a, b) || a == b }

  /** The calendar day after `d`. */
  function NextDay(d: Date): (r: Date)
    requires Valid(d)
    ensures Valid(r) && Before(d, r)
  {
    if d.day < DaysInMonth(d.year, d.month) then d.(day := d.day + 1)
    else if d.month < 12 then Date(d.year, d.month + 1, 1)
    else Date(d.year + 1, 1, 1)
  }

  /** The calendar day before `d`. */
  function PrevDay(d: Date): (r: Date)
    requires Valid(d)
    ensures Valid(r) && Before(r, d)
  {
    if d.day > 1 then d.(day := d.day - 1)
    else if d.month > 1 then Date(d.year, d.month - 1, DaysInMonth(d.year, d.month - 1))
    else Date(d.year - 1, 12, 31)
  }

  /** The year JavaScript's `new Date(year, ...)` uses: years 0 to 99 mean 1900 to 1999. */
  function JsYear(year: int): int
  {
    if 0 <= year <= 99 then 1900 + year else year
  }

  /** `new Date(year, monthIndex, 1)`: a month index outside 0..11 rolls into
      neighbouring years. */
  function FirstOfMonth(year: int, monthIndex: int): (r: Date)
    ensures Valid(r) && r.day == 1
  {
    Date(JsYear(year) + monthIndex / 12, monthIndex % 12 + 1, 1)
  }

  /** `new Date(year, monthIndex, 0)`: day 0 is the day before the first of that month. */
  function DayZero(year: int, monthIndex: int): (r: Date)
    ensures Valid(r)
  {
    PrevDay(FirstOfMonth(year, monthIndex))
  }

  /** The date range `getMonthlySummary(userId, year, month)` selects:
      `new Date(year, month - 1, 1)` to `new Date(year, month, 0)`. */
  function MonthRange(year: int, month: int): (r: (Date, Date))
    ensures Valid(r.0) && Valid(r.1)
  {
    (FirstOfMonth(year, month - 1), DayZero(year, month))
  }

  /** The range runs from day 1 of a month to that month's last day, February 29 in a
      leap year included, and the day after it is the first of the next month. */
  lemma MonthRangeIsWholeMonth(year: int, month: int)
    ensures var (s, e) := MonthRange(year, month);
            && s.day == 1
            && e.year == s.year && e.month == s.month
            && e.day == DaysInMonth(s.year, s.month)
            && (s.month == 2 && IsLeap(s.year) ==> e.day == 29)
            && NextDay(e) == FirstOfMonth(year, month)
  {
    var s := FirstOfMonth(year, month - 1);
    var f := FirstOfMonth(year, month);
    var y := JsYear(year);
    if (month - 1) % 12 == 11 {
      assert month % 12 == 0 && month / 12 == (month - 1) / 12 + 1;
    } else {
      assert month % 12 == (month - 1) % 12 + 1 && month / 12 == (month - 1) / 12;
    }
  }

  /** Every date between the two ends of the range lies in the same month. */
  lemma MonthRangeMembers(year: int, month: int, d: Date)
    requires NotAfter(MonthRange(year, month).0, d) && NotAfter(d, MonthRange(year, month).1)
    ensures d.year == MonthRange(year, month).0.year && d.month == MonthRange(year, month).0.month
  {
    MonthRangeIsWholeMonth(year, month);
  }

  /** `YYYY-MM-DD`, as Python's `strftime("%Y-%m-%d")` writes a date. For a year below
      10000 the text is ten characters, and the three digit fields read back as the
      year, the month and the day. */
  function IsoDate(d: Date): (s: string)
    requires d.year >= 0 && d.month >= 0 && d.day >= 0
    ensures |s| >= 10
    ensures d.year < 10000 && d.month < 100 && d.day < 100 ==>
              && |s| == 10 && s[4] == '-' && s[7] == '-'
              && Text.AllDigits(s[..4]) && Text.AllDigits(s[5..7]) && Text.AllDigits(s[8..])
              && Text.DigitsValue(s[..4]) == d.year
              && Text.DigitsValue(s[5..7]) == d.month
              && Text.DigitsValue(s[8..]) == d.day
  {
    var y, m, dd := Text.Pad4(d.year), Text.Pad2(d.month), Text.Pad2(d.day);
    var s := y + "-" + m + "-" + dd;
    if d.year < 10000 && d.month < 100 && d.day < 100 then
      Text.Pad4RoundTrip(d.year);
      Text.Pad2RoundTrip(d.month);
      Text.Pad2RoundTrip(d.day);
      assert s[..4] == y && s[5..7] == m && s[8..] == dd;
      s
    else s
  }
}

=== FILE: encryption_service.dfy ===
/**
 * The encryption service of `backend/src/services/encryptionService.js`:
 * `encrypt` derives a key from the password and a fresh 64-byte salt with
 * PBKDF2, draws a fresh 16-byte IV, seals the text, and packs
 * salt ‖ IV ‖ tag ‖ ciphertext into one buffer; `decrypt` slices the buffer
 * at the same offsets and derives the key again from the stored salt.
 * The cipher is made with `crypto.createCipher` and `createDecipher`, which take
 * no IV argument: they derive their own IV from the key, so the stored IV is
 * handed to `Seal` and `Open` but plays no part in the real cipher. Both ends
 * ignore it alike, so the round trip does not depend on it.
 * PBKDF2 and the authenticated cipher are parameters. The buffers are the
 * bytes that `encrypt` base64-encodes and that `decrypt` gets from decoding.
 */
module EncryptionService {
  import opened Wrappers
  import opened Bytes

  const Algorithm: string := "aes-256-gcm"
  const Iterations: nat := 100000
  const KeyLength: nat := 32
  const IvLength: nat := 16
  const SaltLength: nat := 64
  const TagLength: nat := 16
  const Digest: string := "sha256"

  /** `crypto.pbkdf2Sync(password, salt, iterations, keyLength, digest)`. */
  type Pbkdf2 = (string, seq<Byte>, nat, nat, string) -> seq<Byte>

  /** What the cipher hands back: the ciphertext (`update` + `final`) and `getAuthTag()`. */
  datatype Sealed = Sealed(ciphertext: seq<Byte>, tag: seq<Byte>)

  /** Sealing `text` under a key and an IV (which `createCipher` ignores); an error is
      whatever the cipher throws. */
  type Seal = (seq<Byte>, seq<Byte>, string) -> Result<Sealed, string>

  /** Opening a ciphertext under a key, an IV and an authentication tag. */
  type Open = (seq<Byte>, seq<Byte>, seq<Byte>, seq<Byte>) -> Result<string, string>

  /** The key both directions derive: PBKDF2 with 100000 iterations, 32 bytes, SHA-256. */
  function DeriveKey(pbkdf2: Pbkdf2, password: string, salt: seq<Byte>): seq<Byte>
  {
    pbkdf2(password, salt, Iterations, KeyLength, Digest)
  }

  datatype Parts = Parts(salt: seq<Byte>, iv: seq<Byte>, tag: seq<Byte>, ciphertext: seq<Byte>)

  /** A frame whose fixed-width fields have their fixed widths. */
  predicate WellSized(p: Parts)
  {
    |p.salt| == SaltLength && |p.iv| == IvLength && |p.tag| == TagLength
  }

  /** `Buffer.concat([salt, iv, tag, encrypted])`. */
  function Pack(p: Parts): (blob: seq<Byte>)
    ensures |blob| == |p.salt| + |p.iv| + |p.tag| + |p.ciphertext|
  {
    p.salt + p.iv + p.tag + p.ciphertext
  }

  /** `Buffer#slice(from, to)`: both ends are clamped to the buffer. */
  function Slice(b: seq<Byte>, from: nat, to: nat): (r: seq<Byte>)
    ensures from <= to <= |b| ==> r == b[from..to]
    ensures |b| <= from ==> r == []
  {
    var hi := if to <= |b| then to else |b|;
    var lo := if from <= hi then from else hi;
    b[lo..hi]
  }

  /** The four slices `decrypt` takes: [0,64), [64,80), [80,96) and [96,end). */
  function Unpack(blob: seq<Byte>): (p: Parts)
    ensures |blob| >= SaltLength + IvLength + TagLength ==> WellSized(p)
  {
    Parts(Slice(blob, 0, SaltLength),
          Slice(blob, SaltLength, SaltLength + IvLength),
          Slice(blob, SaltLength + IvLength, SaltLength + IvLength + TagLength),
          Slice(blob, SaltLength + IvLength + TagLength, |blob|))
  }

  /** Slicing a packed frame recovers its four fields exactly. */
  lemma UnpackPack(p: Parts)
    requires WellSized(p)
    ensures Unpack(Pack(p)) == p
  {
    var blob := Pack(p);
    assert blob[..64] == p.salt;
    assert blob[64..80] == p.iv;
    assert blob[80..96] == p.tag;
    assert blob[96..] == p.ciphertext;
  }

  /** Every buffer of at least 96 bytes is the packing of its own slices. */
  lemma PackUnpack(blob: seq<Byte>)
    requires |blob| >= SaltLength + IvLength + TagLength
    ensures Pack(Unpack(blob)) == blob
  {
    assert blob == blob[..64] + blob[64..80] + blob[80..96] + blob[96..];
  }

  /** `encrypt(text, password)`: `salt` and `iv` are the outputs of `crypto.randomBytes`
      (64 and 16 bytes). Any failure inside is reported only as 'Encryption failed'. */
  function Encrypt(text: string, password: string, salt: seq<Byte>, iv: seq<Byte>,
                   pbkdf2: Pbkdf2, seal: Seal): (r: Result<seq<Byte>, string>)
    requires |salt| == SaltLength && |iv| == IvLength
    ensures var sealed := seal(DeriveKey(pbkdf2, password, salt), iv, text);
            (r.Ok? <==> sealed.Ok?)
            && (r.Ok? ==> r.value == Pack(Parts(salt, iv, sealed.value.tag, sealed.value.ciphertext))
                          && |r.value| == SaltLength + IvLength + |sealed.value.tag| + |sealed.value.ciphertext|)
    ensures r.Err? ==> r.error == "Encryption failed"
  {
    match seal(DeriveKey(pbkdf2, password, salt), iv, text)
    case Ok(sealed) => Ok(Pack(Parts(salt, iv, sealed.tag, sealed.ciphertext)))
    case Err(_) => Err("Encryption failed")
  }

  /** `decrypt(encryptedData, password)`: the key is derived again from the salt stored
      at the front of the buffer. Any failure is reported only as 'Decryption failed'. */
  function Decrypt(blob: seq<Byte>, password: string, pbkdf2: Pbkdf2, open: Open): (r: Result<string, string>)
    ensures var p := Unpack(blob);
            var result := open(DeriveKey(pbkdf2, password, p.salt), p.iv, p.tag, p.ciphertext);
            (r.Ok? <==> result.Ok?) && (r.Ok? ==> r == result)
    ensures r.Err? ==> r.error == "Decryption failed"
  {
    var p := Unpack(blob);
    match open(DeriveKey(pbkdf2, password, p.salt), p.iv, p.tag, p.ciphertext)
    case Ok(text) => Ok(text)
    case Err(_) => Err("Decryption failed")
  }

  /** Decrypting a buffer `encrypt` produced (with the 16-byte tag GCM gives) opens the
      same ciphertext, IV and tag under the same derived key. */
  lemma DecryptOpensWhatWasSealed(text: string, password: string, salt: seq<Byte>, iv: seq<Byte>,
                                  pbkdf2: Pbkdf2, seal: Seal, open: Open)
    requires |salt| == SaltLength && |iv| == IvLength
    requires seal(DeriveKey(pbkdf2, password, salt), iv, text).Ok?
    requires |seal(DeriveKey(pbkdf2, password, salt), iv, text).value.tag| == TagLength
    ensures var key := DeriveKey(pbkdf2, password, salt);
            var sealed := seal(key, iv, text).value;
            var blob := Encrypt(text, password, salt, iv, pbkdf2, seal).value;
            |blob| == 96 + |sealed.ciphertext|
            && (Decrypt(blob, password, pbkdf2, open).Ok? <==> open(key, iv, sealed.tag, sealed.ciphertext).Ok?)
  {
    var key := DeriveKey(pbkdf2, password, salt);
    var sealed := seal(key, iv, text).value;
    UnpackPack(Parts(salt, iv, sealed.tag, sealed.ciphertext));
  }

  /** With a cipher whose opening inverts its sealing, `decrypt(encrypt(text, pw), pw)`
      gives the text back. */
  lemma RoundTrip(text: string, password: string, salt: seq<Byte>, iv: seq<Byte>,
                  pbkdf2: Pbkdf2, seal: Seal, open: Open)
    requires |salt| == SaltLength && |iv| == IvLength
    requires seal(DeriveKey(pbkdf2, password, salt), iv, text).Ok?
    requires |seal(DeriveKey(pbkdf2, password, salt), iv, text).value.tag| == TagLength
    requires var key := DeriveKey(pbkdf2, password, salt);
             var sealed := seal(key, iv, text).value;
             open(key, iv, sealed.tag, sealed.ciphertext) == Ok(text)
    ensures Decrypt(Encrypt(text, password, salt, iv, pbkdf2, seal).value, password, pbkdf2, open) == Ok(text)
  {
    var key := DeriveKey(pbkdf2, password, salt);
    var sealed := seal(key, iv, text).value;
    UnpackPack(Parts(salt, iv, sealed.tag, sealed.ciphertext));
  }
}

=== FILE: encryption_utils.dfy ===
/**
 * The field-encryption helpers of `backend/utils/encryption.js`. `encrypt` writes
 * `hex(iv) + ':' + hex(ciphertext)` and `decrypt` splits that text on `:` and
 * deciphers the second half. The algorithm is AES-256-GCM, an authenticated mode:
 * the cipher's authentication tag must be handed to the decipher before `final`.
 * As written, `encrypt` never reads the tag and `decrypt` never sets one, so every
 * decryption fails. Both the helpers as written and a corrected pair that stores
 * the tag are modelled. The GCM primitive itself is a parameter.
 */
module EncryptionUtils {
  import opened Wrappers
  import opened Bytes
  import Text

  const IvLength: nat := 16

  /** What a GCM cipher produces: the ciphertext (`update` + `final`) and the
      authentication tag (`getAuthTag()`). */
  datatype Sealed = Sealed(ciphertext: seq<Byte>, tag: seq<Byte>)

  /** A GCM decipher's `final` with no tag set throws this. */
  const NoTagError: string := "Unsupported state or unable to authenticate data"

  /** `decipher.update(data, 'hex')` throws a TypeError before deciphering anything when
      `data` is undefined (text with no second part) or has an odd number of hex digits:
      Node checks the data against the declared encoding first. */
  const UpdateError: string := "TypeError"

  /** The stored text for an IV and a ciphertext. */
  function Frame(iv: seq<Byte>, ciphertext: seq<Byte>): (r: string)
    ensures |r| == 2 * |iv| + 1 + 2 * |ciphertext|
    ensures r[2 * |iv|] == ':'
    ensures Text.SplitOn(r, ':') == [Hex(iv), Hex(ciphertext)]
  {
    NoColonInHex(iv);
    NoColonInHex(ciphertext);
    Text.SplitTwo(Hex(iv), Hex(ciphertext), ':');
    Hex(iv) + ":" + Hex(ciphertext)
  }

  // ---------------------------------------------------------------------------
  // As written

  /** `encrypt(text)` as written. `iv` is the output of `crypto.randomBytes(16)`.
      `crypto.createCipher(algorithm, key, iv)` takes no IV argument: it derives both
      the cipher key and the IV from `key`, so `encipher` sees the key and the text only.
      The tag is dropped. */
  function EncryptAsWritten(text: string, key: seq<Byte>, iv: seq<Byte>,
                            encipher: (seq<Byte>, string) -> Sealed): (r: string)
    requires |iv| == IvLength
    ensures |r| == 33 + 2 * |encipher(key, text).ciphertext|
    ensures r[..32] == Hex(iv) && r[32] == ':'
    ensures Text.SplitOn(r, ':') == [Hex(iv), Hex(encipher(key, text).ciphertext)]
  {
    var r := Frame(iv, encipher(key, text).ciphertext);
    assert r[..32] == Hex(iv);
    r
  }

  /** The random IV plays no part in the ciphertext: two encryptions of one text differ
      only in the IV digits before the `:`. */
  lemma IvIgnored(text: string, key: seq<Byte>, iv1: seq<Byte>, iv2: seq<Byte>,
                  encipher: (seq<Byte>, string) -> Sealed)
    requires |iv1| == IvLength && |iv2| == IvLength
    ensures EncryptAsWritten(text, key, iv1, encipher)[32..] == EncryptAsWritten(text, key, iv2, encipher)[32..]
  {
  }

  /** The second `:`-separated part, the one `decrypt` hands to `update`, has an odd
      number of digits. */
  predicate OddSecondPart(t: string)
  {
    var parts := Text.SplitOn(t, ':');
    |parts| >= 2 && |parts[1]| % 2 == 1
  }

  /** `decrypt(encryptedText)` as written. The text is split on `:` and the first two
      parts taken. Without a second part, or with one of odd length, `update` throws;
      otherwise no tag has been set, so `final` throws. */
  function DecryptAsWritten(encryptedText: string, key: seq<Byte>): (r: Result<string, string>)
    ensures (':' !in encryptedText || OddSecondPart(encryptedText)) <==> r == Err(UpdateError)
    ensures (':' in encryptedText && !OddSecondPart(encryptedText)) <==> r == Err(NoTagError)
  {
    var parts := Text.SplitOn(encryptedText, ':');
    if |parts| < 2 then
      OnePartMeansNoColon(encryptedText);
      Err(UpdateError)
    else
      TwoPartsMeanColon(encryptedText);
      if |parts[1]| % 2 == 1 then Err(UpdateError) else Err(NoTagError)
  }

  /** An odd number of hex digits after the colon fails in `update`, before the missing
      tag could matter. */
  lemma OddHexRefused(key: seq<Byte>)
    ensures DecryptAsWritten("00:abc", key) == Err(UpdateError)
  {
    Text.SplitTwo("00", "abc", ':');
    assert "00" + [':'] + "abc" == "00:abc";
  }

  lemma OnePartMeansNoColon(s: string)
    requires |Text.SplitOn(s, ':')| < 2
    ensures ':' !in s
  {
    Text.JoinSplit(s, ':');
    var parts := Text.SplitOn(s, ':');
    assert parts == [parts[0]];
    assert Text.JoinWith(parts, [':']) == parts[0];
  }

  lemma TwoPartsMeanColon(s: string)
    requires |Text.SplitOn(s, ':')| >= 2
    ensures ':' in s
  {
    Text.JoinSplit(s, ':');
    var parts := Text.SplitOn(s, ':');
    assert parts == [parts[0]] + parts[1..];
    assert s == parts[0] + ":" + Text.JoinWith(parts[1..], [':']);
    assert s[|parts[0]|] == ':';
  }

  /** As written, nothing `encrypt` writes can be read back: decryption ends in the
      missing-tag error, whatever the text, key, IV and cipher. */
  lemma AsWrittenNeverDecrypts(text: string, key: seq<Byte>, iv: seq<Byte>,
                               encipher: (seq<Byte>, string) -> Sealed)
    requires |iv| == IvLength
    ensures DecryptAsWritten(EncryptAsWritten(text, key, iv, encipher), key) == Err(NoTagError)
  {
    var c := encipher(key, text).ciphertext;
    var r := EncryptAsWritten(text, key, iv, encipher);
    EvenSecondPartNoTag(r, key, Hex(iv), c);
  }

  /** A second part of whole hex pairs passes `update`, so `final` throws. */
  lemma EvenSecondPartNoTag(t: string, key: seq<Byte>, first: string, bs: seq<Byte>)
    requires Text.SplitOn(t, ':') == [first, Hex(bs)]
    ensures DecryptAsWritten(t, key) == Err(NoTagError)
  {
    HexIsEven(bs);
  }

  lemma HexIsEven(bs: seq<Byte>)
    ensures |Hex(bs)| % 2 == 0
  {
    DoubleIsEven(|bs|);
  }

  lemma DoubleIsEven(k: nat)
    ensures (2 * k) % 2 == 0
  {
  }

  // ---------------------------------------------------------------------------
  // Corrected: the IV is used and the tag is stored

  /** The stored text for an IV, a tag and a ciphertext: `hex(iv):hex(tag):hex(ciphertext)`. */
  function Frame3(iv: seq<Byte>, tag: seq<Byte>, ciphertext: seq<Byte>): (r: string)
    ensures Text.SplitOn(r, ':') == [Hex(iv), Hex(tag), Hex(ciphertext)]
  {
    NoColonInHex(iv);
    NoColonInHex(tag);
    NoColonInHex(ciphertext);
    Text.SplitThree(Hex(iv), Hex(tag), Hex(ciphertext), ':');
    Hex(iv) + ":" + Hex(tag) + ":" + Hex(ciphertext)
  }

  /** `encrypt` with `createCipheriv(algorithm, key, iv)` and the tag kept: `seal` is the
      cipher under the key and the random IV. */
  function EncryptSealed(text: string, key: seq<Byte>, iv: seq<Byte>,
                         seal: (seq<Byte>, seq<Byte>, string) -> Sealed): (r: string)
    requires |iv| == IvLength
    ensures var s := seal(key, iv, text);
            Text.SplitOn(r, ':') == [Hex(iv), Hex(s.tag), Hex(s.ciphertext)]
  {
    var s := seal(key, iv, text);
    Frame3(iv, s.tag, s.ciphertext)
  }

  /** `decrypt` with `createDecipheriv(algorithm, key, iv)` and `setAuthTag(tag)` before
      `final`: `open(key, iv, ciphertext, tag)` is that decipher. Text that is not three
      `:`-separated parts, or whose ciphertext has an odd number of hex digits, is
      refused by `update` before anything is deciphered. */
  function DecryptSealed(encryptedText: string, key: seq<Byte>,
                         open: (seq<Byte>, seq<Byte>, seq<Byte>, seq<Byte>) -> Result<string, string>): (r: Result<string, string>)
    ensures var parts := Text.SplitOn(encryptedText, ':');
            && (|parts| != 3 ==> r == Err(UpdateError))
            && (|parts| == 3 && |parts[2]| % 2 == 1 ==> r == Err(UpdateError))
            && (|parts| == 3 && |parts[2]| % 2 == 0 ==>
                  r == open(key, FromHex(parts[0]), FromHex(parts[2]), FromHex(parts[1])))
  {
    var parts := Text.SplitOn(encryptedText, ':');
    if |parts| != 3 || |parts[2]| % 2 == 1 then Err(UpdateError)
    else open(key, FromHex(parts[0]), FromHex(parts[2]), FromHex(parts[1]))
  }

  /** Decrypting what the corrected `encrypt` wrote hands the decipher exactly the IV,
      ciphertext and tag that encryption produced. */
  lemma DecryptSealedSeesParts(text: string, key: seq<Byte>, iv: seq<Byte>,
                               seal: (seq<Byte>, seq<Byte>, string) -> Sealed,
                               open: (seq<Byte>, seq<Byte>, seq<Byte>, seq<Byte>) -> Result<string, string>)
    requires |iv| == IvLength
    ensures var s := seal(key, iv, text);
            DecryptSealed(EncryptSealed(text, key, iv, seal), key, open) == open(key, iv, s.ciphertext, s.tag)
  {
    var s := seal(key, iv, text);
    FromHexOfHex(iv);
    FromHexOfHex(s.tag);
    FromHexOfHex(s.ciphertext);
  }

  /** With a GCM decipher that opens what its cipher sealed under the same key, IV and
      tag, the corrected pair gives back the plain text. */
  lemma SealedRoundTrip(text: string, key: seq<Byte>, iv: seq<Byte>,
                        seal: (seq<Byte>, seq<Byte>, string) -> Sealed,
                        open: (seq<Byte>, seq<Byte>, seq<Byte>, seq<Byte>) -> Result<string, string>)
    requires |iv| == IvLength
    requires open(key, iv, seal(key, iv, text).ciphertext, seal(key, iv, text).tag) == Ok(text)
    ensures DecryptSealed(EncryptSealed(text, key, iv, seal), key, open) == Ok(text)
  {
    DecryptSealedSeesParts(text, key, iv, seal, open);
  }

  /** Text in the as-written format, with no tag, is refused by the corrected decrypt. */
  lemma AsWrittenTextRefused(text: string, key: seq<Byte>, iv: seq<Byte>,
                             encipher: (seq<Byte>, string) -> Sealed,
                             open: (seq<Byte>, seq<Byte>, seq<Byte>, seq<Byte>) -> Result<string, string>)
    requires |iv| == IvLength
    ensures DecryptSealed(EncryptAsWritten(text, key, iv, encipher), key, open) == Err(UpdateError)
  {
  }
}

=== FILE: enterprise_cache.dfy ===
/**
 * The two-tier cache coordinator (EnterpriseCacheManager).
 *
 * L1 is the in-process NodeCache store; L2 is the Redis keyspace. The tag
 * index lives inside L2 itself: tag `t` is the Redis set stored under the key
 * "tag:" + t, so it shares one keyspace with cached values. Every operation is
 * a pure transition on `Cache`; time is the explicit `now` (milliseconds) and
 * whether Redis answers is the explicit flag `l2Up`. Values are opaque: the
 * JSON round trip through Redis is taken to return the value unchanged.
 */
module EnterpriseCache {
  import opened Wrappers
  import Glob

  type Key = string

  /** An absolute expiry in milliseconds, or no expiry at all. */
  datatype Stamp = Forever | Until(ms: int)

  /** NodeCache and Redis both treat an entry as expired only once `now` is past its stamp. */
  predicate Live(s: Stamp, now: int) { s.Forever? || now <= s.ms }

  datatype L1Entry<V> = L1Entry(value: V, stamp: Stamp)

  /** A Redis value: a string holding a serialised cache value, or a set (a tag index). */
  datatype L2Slot<V> = Str(value: V, stamp: Stamp) | Members(keys: set<Key>)

  /** `hits` and `misses` are NodeCache's own counters, bumped by every L1 read. */
  datatype Cache<V> = Cache(l1: map<Key, L1Entry<V>>, l2: map<Key, L2Slot<V>>, hits: nat, misses: nat)

  /** The Redis errors the invalidation paths let escape to their caller. */
  datatype L2Error = Unavailable | WrongType

  /** Options after defaulting; TTLs are in seconds. */
  datatype Options = Options(l1TTL: int, l2TTL: int, tags: seq<string>)

  /** Options as a caller passes them; an absent field takes its default. */
  datatype RawOptions = RawOptions(l1TTL: Option<int>, l2TTL: Option<int>, tags: Option<seq<string>>)

  const DefaultL1TTL := 60
  const DefaultL2TTL := 300

  /** Destructuring defaults of `get` and `set`: l1TTL 60, l2TTL 300, no tags. */
  function Resolve(o: RawOptions): (r: Options)
    ensures o.l1TTL.None? ==> r.l1TTL == 60
    ensures o.l2TTL.None? ==> r.l2TTL == 300
    ensures o.tags.None? ==> r.tags == []
    ensures o.l1TTL.Some? ==> r.l1TTL == o.l1TTL.value
    ensures o.l2TTL.Some? ==> r.l2TTL == o.l2TTL.value
    ensures o.tags.Some? ==> r.tags == o.tags.value
  {
    Options(o.l1TTL.GetOr(DefaultL1TTL), o.l2TTL.GetOr(DefaultL2TTL), o.tags.GetOr([]))
  }

  /** NodeCache expiry for `set(key, value, ttl)`: a ttl of 0 never expires. */
  function L1Stamp(ttl: int, now: int): Stamp
  {
    if ttl == 0 then Forever else Until(now + ttl * 1000)
  }

  function TagKey(tag: string): Key { "tag:" + tag }

  predicate L1Live<V>(c: Cache<V>, key: Key, now: int)
  {
    key in c.l1 && Live(c.l1[key].stamp, now)
  }

  /** Whether Redis still reports `key` at time `now`; sets carry no expiry. */
  predicate Visible<V>(l2: map<Key, L2Slot<V>>, key: Key, now: int)
  {
    key in l2 && (l2[key].Members? || Live(l2[key].stamp, now))
  }

  /** True when `key` holds a live string in Redis (a cached value). */
  predicate HoldsString<V>(l2: map<Key, L2Slot<V>>, key: Key, now: int)
  {
    Visible(l2, key, now) && l2[key].Str?
  }

  /** The members of the set at `key`; an absent key reads as the empty set. */
  function MembersAt<V>(l2: map<Key, L2Slot<V>>, key: Key, now: int): set<Key>
  {
    if Visible(l2, key, now) && l2[key].Members? then l2[key].keys else {}
  }

  /** Every live string of `l2` is in `r` unchanged. */
  ghost predicate KeepsStrings<V>(l2: map<Key, L2Slot<V>>, r: map<Key, L2Slot<V>>, now: int)
  {
    forall k :: k in l2 && HoldsString(l2, k, now) ==> k in r && r[k] == l2[k]
  }

  /** Every key that is not the index key of one of `tags` is as it was. */
  ghost predicate KeepsUntagged<V>(l2: map<Key, L2Slot<V>>, r: map<Key, L2Slot<V>>, tags: seq<string>)
  {
    forall k :: (forall i :: 0 <= i < |tags| ==> k != TagKey(tags[i])) ==>
      (k in r <==> k in l2) && (k in l2 ==> r[k] == l2[k])
  }

  /** Every set of `l2` is still a set in `r`, with at least its members. */
  ghost predicate GrowsSets<V>(l2: map<Key, L2Slot<V>>, r: map<Key, L2Slot<V>>, now: int)
  {
    forall k :: Visible(l2, k, now) && l2[k].Members? ==> Visible(r, k, now) && r[k].Members? && l2[k].keys <= r[k].keys
  }

  /** No index key of `tags` holds a string. */
  ghost predicate NoStringTag<V>(l2: map<Key, L2Slot<V>>, tags: seq<string>, now: int)
  {
    forall i :: 0 <= i < |tags| ==> !HoldsString(l2, TagKey(tags[i]), now)
  }

  /** `key` is a member of the set of every one of `tags`. */
  ghost predicate Registered<V>(r: map<Key, L2Slot<V>>, tags: seq<string>, key: Key, now: int)
  {
    forall i :: 0 <= i < |tags| ==> Visible(r, TagKey(tags[i]), now) && r[TagKey(tags[i])].Members? && key in r[TagKey(tags[i])].keys
  }

  /** The SADD loop of `set`: add `key` to each tag's set in order. SADD on a key that
      holds a string fails with WRONGTYPE, and the exception leaves the loop, so the
      remaining tags are skipped. */
  function AddTags<V>(l2: map<Key, L2Slot<V>>, tags: seq<string>, key: Key, now: int): (r: map<Key, L2Slot<V>>)
    ensures KeepsStrings(l2, r, now)
    ensures KeepsUntagged(l2, r, tags)
    ensures GrowsSets(l2, r, now)
    ensures NoStringTag(l2, tags, now) ==> Registered(r, tags, key, now)
    decreases |tags|
  {
    if |tags| == 0 then l2
    else
      var tk := TagKey(tags[0]);
      if HoldsString(l2, tk, now) then l2
      else
        var l2' := l2[tk := Members(MembersAt(l2, tk, now) + {key})];
        var r := AddTags(l2', tags[1..], key, now);
        AddTagsStep(l2, l2', r, tags, key, now);
        r
  }

  /** One turn of the SADD loop: what holds from the updated map on holds from the old one. */
  lemma AddTagsStep<V>(l2: map<Key, L2Slot<V>>, l2': map<Key, L2Slot<V>>, r: map<Key, L2Slot<V>>,
                       tags: seq<string>, key: Key, now: int)
    requires |tags| > 0 && !HoldsString(l2, TagKey(tags[0]), now)
    requires l2' == l2[TagKey(tags[0]) := Members(MembersAt(l2, TagKey(tags[0]), now) + {key})]
    requires KeepsStrings(l2', r, now) && KeepsUntagged(l2', r, tags[1..]) && GrowsSets(l2', r, now)
    requires NoStringTag(l2', tags[1..], now) ==> Registered(r, tags[1..], key, now)
    ensures KeepsStrings(l2, r, now) && KeepsUntagged(l2, r, tags) && GrowsSets(l2, r, now)
    ensures NoStringTag(l2, tags, now) ==> Registered(r, tags, key, now)
  {
    var tk := TagKey(tags[0]);
    assert forall i :: 0 <= i < |tags[1..]| ==> tags[1..][i] == tags[i + 1];
    assert GrowsSets(l2, l2', now);
    assert Visible(l2', tk, now) && l2'[tk].Members? && key in l2'[tk].keys;
    if NoStringTag(l2, tags, now) {
      assert NoStringTag(l2', tags[1..], now);
      assert forall i :: 1 <= i < |tags| ==> TagKey(tags[i]) == TagKey(tags[1..][i - 1]);
    }
  }

  /** `set`: L1 is always written. The Redis SETEX and the tag registrations share one
      try block: when Redis is down, or SETEX rejects a ttl that is not positive, the
      error is swallowed and no tag set is touched. */
  function Set<V>(c: Cache<V>, key: Key, value: V, opts: Options, now: int, l2Up: bool): (r: Cache<V>)
    ensures r.l1 == c.l1[key := L1Entry(value, L1Stamp(opts.l1TTL, now))]
    ensures r.hits == c.hits && r.misses == c.misses
  {
    var l1 := c.l1[key := L1Entry(value, L1Stamp(opts.l1TTL, now))];
    if !l2Up || opts.l2TTL <= 0 then c.(l1 := l1)
    else
      var l2 := c.l2[key := Str(value, Until(now + opts.l2TTL * 1000))];
      c.(l1 := l1, l2 := AddTags(l2, opts.tags, key, now))
  }

  /** Which tier answered a `get`. `FromSource` is the only case that calls `fetchFunction`. */
  datatype Source = FromL1 | FromL2 | FromSource

  datatype GetOutcome<V> = GetOutcome(result: Result<V, string>, cache: Cache<V>, source: Source)

  /** `get(key, fetchFunction, options)`. `fetch` is what `fetchFunction` would produce if
      called. An L1 read of an expired entry removes it and counts a miss. Any L2 read
      error (Redis down, or WRONGTYPE on a set key) is swallowed and treated as a miss. */
  function Get<V>(c: Cache<V>, key: Key, fetch: Result<V, string>, opts: Options, now: int, l2Up: bool): (o: GetOutcome<V>)
    ensures o.source == FromL1 <==> L1Live(c, key, now)
    ensures o.source == FromL2 <==> !L1Live(c, key, now) && l2Up && HoldsString(c.l2, key, now)
    ensures o.source == FromL1 ==> o.result == Ok(c.l1[key].value)
    ensures o.source == FromL2 ==> o.result == Ok(c.l2[key].value)
    ensures o.source == FromSource ==> o.result == fetch
  {
    if L1Live(c, key, now) then
      GetOutcome(Ok(c.l1[key].value), c.(hits := c.hits + 1), FromL1)
    else
      var c1 := c.(l1 := c.l1 - {key}, misses := c.misses + 1);
      if l2Up && HoldsString(c.l2, key, now) then
        var v := c.l2[key].value;
        GetOutcome(Ok(v), c1.(l1 := c1.l1[key := L1Entry(v, L1Stamp(opts.l1TTL, now))]), FromL2)
      else
        match fetch
        case Err(e) => GetOutcome(Err(e), c1, FromSource)
        case Ok(v) => GetOutcome(Ok(v), Set(c1, key, v, opts, now, l2Up), FromSource)
  }

  /** `invalidateByTag(tag)`: read the tag's set, delete each member from both tiers, then
      delete the set. Redis errors are not caught here: they reach the caller, and
      nothing has been deleted by then. */
  function InvalidateByTag<V>(c: Cache<V>, tag: string, now: int, l2Up: bool): (r: Result<Cache<V>, L2Error>)
    ensures r.Err? <==> !l2Up || HoldsString(c.l2, TagKey(tag), now)
  {
    if !l2Up then Err(Unavailable)
    else if HoldsString(c.l2, TagKey(tag), now) then Err(WrongType)
    else
      var keys := MembersAt(c.l2, TagKey(tag), now);
      Ok(c.(l1 := c.l1 - keys, l2 := c.l2 - keys - {TagKey(tag)}))
  }

  /** The keys SCAN reports for `pattern`: every visible Redis key matching it,
      tag-index keys included. */
  function Scan<V>(l2: map<Key, L2Slot<V>>, pattern: string, now: int): (keys: set<Key>)
    ensures keys <= l2.Keys
    ensures forall k :: k in keys <==> k in l2 && Visible(l2, k, now) && Glob.Match(pattern, k)
  {
    set k | k in l2 && Visible(l2, k, now) && Glob.Match(pattern, k)
  }

  /** What the SCAN stream reports, its batches concatenated as `keys.push(...resultKeys)`
      does: every reported key is a visible key matching the pattern, and every such key is
      reported at least once. SCAN may report a key more than once. */
  predicate ScanReply<V>(l2: map<Key, L2Slot<V>>, pattern: string, now: int, scanned: seq<Key>)
  {
    && (forall i :: 0 <= i < |scanned| ==> scanned[i] in Scan(l2, pattern, now))
    && (forall k :: k in Scan(l2, pattern, now) ==> k in scanned)
  }

  /** `invalidatePattern(pattern)`: `scanned` is what the SCAN stream reported. Every
      reported key is deleted from L1 and L2, and the number of reported keys, repeats
      included, is returned. A stream error (Redis down) rejects before anything is deleted. */
  function InvalidatePattern<V>(c: Cache<V>, pattern: string, scanned: seq<Key>, now: int, l2Up: bool): (r: Result<(nat, Cache<V>), L2Error>)
    ensures r.Err? <==> !l2Up
    ensures r.Ok? ==> r.value.0 == |scanned|
    ensures r.Ok? ==> forall k :: k in scanned ==> k !in r.value.1.l1 && k !in r.value.1.l2
    ensures r.Ok? ==> forall k :: k !in scanned ==>
                        && (k in r.value.1.l1 <==> k in c.l1) && (k in c.l1 ==> r.value.1.l1[k] == c.l1[k])
                        && (k in r.value.1.l2 <==> k in c.l2) && (k in c.l2 ==> r.value.1.l2[k] == c.l2[k])
    ensures r.Ok? ==> r.value.1.hits == c.hits && r.value.1.misses == c.misses
  {
    if !l2Up then Err(Unavailable)
    else
      var keys := set k | k in scanned;
      Ok((|scanned|, c.(l1 := c.l1 - keys, l2 := c.l2 - keys)))
  }

  /** `hits / (hits + misses)`; with no reads at all JavaScript yields NaN, modelled as None. */
  function HitRate(hits: nat, misses: nat): (r: Option<real>)
    ensures r.None? <==> hits + misses == 0
    ensures r.Some? ==> 0.0 <= r.value <= 1.0 && r.value * (hits + misses) as real == hits as real
    ensures r.Some? ==> (r.value == 1.0 <==> misses == 0) && (r.value == 0.0 <==> hits == 0)
  {
    if hits + misses == 0 then None else Some(hits as real / (hits + misses) as real)
  }

  datatype Stats = Stats(hits: nat, misses: nat, keys: nat, hitRate: Option<real>)

  /** `getStats`: the L1 counters, the number of stored keys and the hit rate. The
      awaited `INFO stats` call rejects when Redis is down, and so does `getStats`. */
  function GetStats<V>(c: Cache<V>, l2Up: bool): (r: Result<Stats, L2Error>)
    ensures r.Err? <==> !l2Up
    ensures r.Ok? ==> r.value.hits == c.hits && r.value.misses == c.misses && r.value.keys == |c.l1|
    ensures r.Ok? ==> r.value.hitRate == HitRate(c.hits, c.misses)
  {
    if !l2Up then Err(Unavailable)
    else Ok(Stats(c.hits, c.misses, |c.l1|, HitRate(c.hits, c.misses)))
  }

  /** Options used by `warmDashboardData`. */
  const DashboardL1TTL := 300
  const DashboardL2TTL := 600

  function DashboardKey(tenantId: string, userId: string): Key
  {
    "dashboard:" + tenantId + ":" + userId
  }

  /** `warmDashboardData`: fetch the dashboard and `set` it for five minutes in L1 and ten
      in L2, tagged "dashboard" and "user:<userId>". A failed fetch rejects the task. */
  function WarmDashboard<V>(c: Cache<V>, tenantId: string, userId: string, data: Result<V, string>, now: int, l2Up: bool): (r: Result<Cache<V>, string>)
    ensures data.Err? <==> r.Err?
    ensures data.Ok? ==>
              && r.Ok?
              && DashboardKey(tenantId, userId) in r.value.l1
              && r.value.l1[DashboardKey(tenantId, userId)] == L1Entry(data.value, Until(now + DashboardL1TTL * 1000))
  {
    match data
    case Err(e) => Err(e)
    case Ok(v) =>
      Ok(Set(c, DashboardKey(tenantId, userId), v,
             Options(DashboardL1TTL, DashboardL2TTL, ["dashboard", "user:" + userId]), now, l2Up))
  }

  /** Number of fulfilled outcomes among settled tasks (`filter(fulfilled).length`). */
  function CountFulfilled(settled: seq<bool>): (n: nat)
    ensures n <= |settled|
    ensures n == |settled| <==> forall i :: 0 <= i < |settled| ==> settled[i]
    ensures n == 0 <==> forall i :: 0 <= i < |settled| ==> !settled[i]
  {
    if |settled| == 0 then 0
    else (if settled[|settled| - 1] then 1 else 0) + CountFulfilled(settled[..|settled| - 1])
  }

  datatype WarmReport = WarmReport(successful: nat, total: nat)

  /** `warmCache`: the dashboard task plus three further tasks, whose settled outcomes are
      given, all run to settlement; one task's failure neither cancels nor undoes another. */
  function WarmCache<V>(c: Cache<V>, tenantId: string, userId: string, dashboard: Result<V, string>,
                        others: (bool, bool, bool), now: int, l2Up: bool): (r: (WarmReport, Cache<V>))
    ensures r.0.total == 4 && r.0.successful <= r.0.total
    ensures r.0.successful == 4 <==> dashboard.Ok? && others.0 && others.1 && others.2
    ensures dashboard.Ok? ==> r.1 == WarmDashboard(c, tenantId, userId, dashboard, now, l2Up).value
    ensures dashboard.Err? ==> r.1 == c
  {
    var d := WarmDashboard(c, tenantId, userId, dashboard, now, l2Up);
    var settled := [d.Ok?, others.0, others.1, others.2];
    assert settled[0] == d.Ok? && settled[1] == others.0 && settled[2] == others.1 && settled[3] == others.2;
    var n := CountFulfilled(settled);
    (WarmReport(n, |settled|), if d.Ok? then d.value else c)
  }
}

=== FILE: enterprise_cache_properties.dfy ===
/**
 * Properties of the two-tier cache: what each path of `get` observes and writes,
 * what `set` guarantees about the tag index, what the two bulk invalidations
 * remove and keep, and read-after-write scenarios across several operations.
 */
module EnterpriseCacheProperties {
  import opened Wrappers
  import opened EnterpriseCache
  import Glob

  /** An L1 hit returns the L1 value, never consults L2 or the fetch function, and changes
      nothing but the hit counter. */
  lemma GetL1Hit<V>(c: Cache<V>, key: Key, fetch: Result<V, string>, opts: Options, now: int, l2Up: bool)
    requires L1Live(c, key, now)
    ensures var o := Get(c, key, fetch, opts, now, l2Up);
            && o.result == Ok(c.l1[key].value)
            && o.source == FromL1
            && o.cache == c.(hits := c.hits + 1)
            && forall f :: Get(c, key, f, opts, now, l2Up) == o
  {
  }

  /** An L1 miss with a live L2 string returns the stored value, copies it into L1 under the
      same key with the l1TTL expiry, leaves L2 alone and never calls the fetch function. */
  lemma GetL2Hit<V>(c: Cache<V>, key: Key, fetch: Result<V, string>, opts: Options, now: int)
    requires !L1Live(c, key, now) && HoldsString(c.l2, key, now)
    ensures var o := Get(c, key, fetch, opts, now, true);
            && o.result == Ok(c.l2[key].value)
            && o.source == FromL2
            && o.cache.l1 == c.l1[key := L1Entry(c.l2[key].value, L1Stamp(opts.l1TTL, now))]
            && o.cache.l2 == c.l2
            && o.cache.hits == c.hits && o.cache.misses == c.misses + 1
            && forall f :: Get(c, key, f, opts, now, true) == o
  {
  }

  /** A full miss (including a swallowed L2 read error) calls the fetch function. Its value
      is returned and written through `set` with the same options: to L1, to L2 when Redis
      is up and the l2TTL is positive, and then into every tag's set unless a tag key holds
      a string. Its failure is returned as is and nothing is written to either tier. */
  lemma GetFullMiss<V>(c: Cache<V>, key: Key, fetch: Result<V, string>, opts: Options, now: int, l2Up: bool)
    requires !L1Live(c, key, now) && !(l2Up && HoldsString(c.l2, key, now))
    ensures var o := Get(c, key, fetch, opts, now, l2Up);
            && o.source == FromSource
            && o.result == fetch
            && o.cache.hits == c.hits && o.cache.misses == c.misses + 1
            && (fetch.Ok? ==> o.cache.l1[key] == L1Entry(fetch.value, L1Stamp(opts.l1TTL, now)))
            && (fetch.Ok? && l2Up && opts.l2TTL > 0 ==>
                  key in o.cache.l2 && o.cache.l2[key] == Str(fetch.value, Until(now + opts.l2TTL * 1000)))
            && (fetch.Ok? && l2Up && opts.l2TTL > 0 && NoStringTag(c.l2, opts.tags, now)
                && (forall i :: 0 <= i < |opts.tags| ==> TagKey(opts.tags[i]) != key) ==>
                  Registered(o.cache.l2, opts.tags, key, now))
            && (fetch.Ok? ==> o.cache == Set(c.(l1 := c.l1 - {key}, misses := c.misses + 1), key, fetch.value, opts, now, l2Up))
            && (fetch.Err? ==> o.cache.l2 == c.l2 && o.cache.l1 == c.l1 - {key})
  {
    if fetch.Ok? && l2Up && opts.l2TTL > 0 {
      SetEffects(c.(l1 := c.l1 - {key}, misses := c.misses + 1), key, fetch.value, opts, now);
    }
  }

  /** `get` never fails because of the cache itself: the only error it reports is the fetch
      function's, and only when both tiers missed. With Redis down it still answers. */
  lemma GetErrorsOnlyFromFetch<V>(c: Cache<V>, key: Key, fetch: Result<V, string>, opts: Options, now: int, l2Up: bool)
    ensures var o := Get(c, key, fetch, opts, now, l2Up);
            o.result.Err? ==> o.source == FromSource && o.result == fetch && fetch.Err?
    ensures !l2Up ==> Get(c, key, fetch, opts, now, l2Up).cache.l2 == c.l2
  {
  }

  /** Every `get` performs exactly one L1 read, so exactly one of the counters grows, and
      the hit counter grows exactly when L1 answered. */
  lemma GetCountsOneRead<V>(c: Cache<V>, key: Key, fetch: Result<V, string>, opts: Options, now: int, l2Up: bool)
    ensures var o := Get(c, key, fetch, opts, now, l2Up);
            && o.cache.hits + o.cache.misses == c.hits + c.misses + 1
            && (o.cache.hits == c.hits + 1 <==> o.source == FromL1)
  {
  }

  /** `getStats` counts every read: after one `get` the hits and misses together have
      grown by one, and the hits alone exactly when L1 answered. */
  lemma StatsCountEveryRead<V>(c: Cache<V>, key: Key, fetch: Result<V, string>, opts: Options, now: int)
    ensures var o := Get(c, key, fetch, opts, now, true);
            var before, after := GetStats(c, true).value, GetStats(o.cache, true).value;
            && after.hits + after.misses == before.hits + before.misses + 1
            && (after.hits == before.hits + 1 <==> o.source == FromL1)
            && after.hitRate.Some?
  {
    GetCountsOneRead(c, key, fetch, opts, now, true);
  }

  /** With Redis up and a positive l2TTL, `set` stores the value in L2 with its expiry and,
      when no tag key holds a string (and the key is not itself a tag key), adds the key to
      every tag's set. When the L2 write fails, L2 is untouched: no tag is registered. */
  lemma SetEffects<V>(c: Cache<V>, key: Key, value: V, opts: Options, now: int)
    requires opts.l2TTL > 0
    ensures var r := Set(c, key, value, opts, now, true);
            && key in r.l2 && r.l2[key] == Str(value, Until(now + opts.l2TTL * 1000))
            && ((forall i :: 0 <= i < |opts.tags| ==> !HoldsString(c.l2, TagKey(opts.tags[i]), now) && TagKey(opts.tags[i]) != key) ==>
                  forall i :: 0 <= i < |opts.tags| ==>
                    Visible(r.l2, TagKey(opts.tags[i]), now) && r.l2[TagKey(opts.tags[i])].Members? && key in r.l2[TagKey(opts.tags[i])].keys)
  {
    var l2 := c.l2[key := Str(value, Until(now + opts.l2TTL * 1000))];
    assert HoldsString(l2, key, now);
  }

  /** A `set` whose L2 write fails (Redis down, or a ttl Redis rejects) leaves L2 unchanged. */
  lemma SetL2FailureTouchesNoTag<V>(c: Cache<V>, key: Key, value: V, opts: Options, now: int, l2Up: bool)
    requires !l2Up || opts.l2TTL <= 0
    ensures Set(c, key, value, opts, now, l2Up).l2 == c.l2
  {
  }

  /** A tag whose key holds a string makes SADD throw, and every later tag is skipped: the
      result is what registering only the earlier tags gives. */
  lemma {:induction false} AddTagsStopsAtWrongType<V>(l2: map<Key, L2Slot<V>>, tags: seq<string>, key: Key, now: int, i: nat)
    requires i < |tags| && HoldsString(l2, TagKey(tags[i]), now)
    ensures AddTags(l2, tags, key, now) == AddTags(l2, tags[..i], key, now)
    decreases i
  {
    if i > 0 {
      var tk := TagKey(tags[0]);
      if !HoldsString(l2, tk, now) {
        var l2' := l2[tk := Members(MembersAt(l2, tk, now) + {key})];
        var ti := TagKey(tags[i]);
        assert ti != tk;
        assert l2'[ti] == l2[ti];
        assert tags[1..][i - 1] == tags[i];
        AddTagsStopsAtWrongType(l2', tags[1..], key, now, i - 1);
        assert tags[..i][0] == tags[0];
        assert tags[..i][1..] == tags[1..][..i - 1];
        assert AddTags(l2, tags, key, now) == AddTags(l2', tags[1..], key, now);
        assert AddTags(l2, tags[..i], key, now) == AddTags(l2', tags[..i][1..], key, now);
      }
    }
  }

  /** Read after write: once `set` has run, a `get` of the same key while its L1 entry is
      live returns the written value from L1, whatever the fetch function would do. */
  lemma ReadAfterSet<V>(c: Cache<V>, key: Key, value: V, opts: Options, now: int, l2Up: bool,
                        later: int, fetch: Result<V, string>, opts2: Options, l2Up2: bool)
    requires Live(L1Stamp(opts.l1TTL, now), later)
    ensures var o := Get(Set(c, key, value, opts, now, l2Up), key, fetch, opts2, later, l2Up2);
            o.result == Ok(value) && o.source == FromL1
  {
  }

  /** Read-through after L1 loses the key: the value written by `set` comes back from L2
      (and is promoted to L1) while its L2 entry is live; the fetch function is not called. */
  lemma ReadThroughAfterL1Eviction<V>(c: Cache<V>, key: Key, value: V, opts: Options, now: int,
                                      later: int, fetch: Result<V, string>, opts2: Options)
    requires opts.l2TTL > 0 && later <= now + opts.l2TTL * 1000
    ensures var c2 := Set(c, key, value, opts, now, true);
            var o := Get(c2.(l1 := c2.l1 - {key}), key, fetch, opts2, later, true);
            && o.result == Ok(value) && o.source == FromL2
            && o.cache.l1[key] == L1Entry(value, L1Stamp(opts2.l1TTL, later))
  {
    SetEffects(c, key, value, opts, now);
  }

  /** After `invalidateByTag(tag)` every key of the tag's set is gone from both tiers, the
      set itself is gone, and every other key keeps its entries in both tiers. */
  lemma InvalidateByTagEffects<V>(c: Cache<V>, tag: string, now: int)
    requires !HoldsString(c.l2, TagKey(tag), now)
    ensures var r := InvalidateByTag(c, tag, now, true);
            var ks := MembersAt(c.l2, TagKey(tag), now);
            && r.Ok?
            && (forall k :: k in ks ==> k !in r.value.l1 && k !in r.value.l2)
            && TagKey(tag) !in r.value.l2
            && (forall k :: k !in ks ==> (k in r.value.l1 <==> k in c.l1) && (k in c.l1 ==> r.value.l1[k] == c.l1[k]))
            && (forall k :: k !in ks && k != TagKey(tag) ==>
                  (k in r.value.l2 <==> k in c.l2) && (k in c.l2 ==> r.value.l2[k] == c.l2[k]))
            && r.value.hits == c.hits && r.value.misses == c.misses
  {
  }

  /** An unknown tag deletes nothing except its own (absent or expired) index key. */
  lemma InvalidateUnknownTag<V>(c: Cache<V>, tag: string, now: int)
    requires !Visible(c.l2, TagKey(tag), now)
    ensures InvalidateByTag(c, tag, now, true) == Ok(c.(l2 := c.l2 - {TagKey(tag)}))
  {
    assert c.l1 - {} == c.l1;
    assert c.l2 - {} - {TagKey(tag)} == c.l2 - {TagKey(tag)};
  }

  /** Tag invalidation scenario: two keys `set` under the same tag are both gone after
      `invalidateByTag`, so the next `get` of either calls its fetch function. */
  lemma TagInvalidationForcesRefetch<V>(c: Cache<V>, a: Key, b: Key, va: V, vb: V, tag: string, opts: Options,
                                        now: int, fa: Result<V, string>, fb: Result<V, string>, opts2: Options)
    requires opts.l2TTL > 0 && opts.tags == [tag]
    requires !HoldsString(c.l2, TagKey(tag), now)
    requires a != TagKey(tag) && b != TagKey(tag)
    ensures var c2 := Set(Set(c, a, va, opts, now, true), b, vb, opts, now, true);
            var r := InvalidateByTag(c2, tag, now, true);
            && r.Ok?
            && Get(r.value, a, fa, opts2, now, true).source == FromSource
            && Get(r.value, b, fb, opts2, now, true).source == FromSource
  {
    var c1 := Set(c, a, va, opts, now, true);
    SetEffects(c, a, va, opts, now);
    assert a in MembersAt(c1.l2, TagKey(tag), now);
    var c2 := Set(c1, b, vb, opts, now, true);
    SetEffects(c1, b, vb, opts, now);
    assert a in MembersAt(c2.l2, TagKey(tag), now);
    assert b in MembersAt(c2.l2, TagKey(tag), now);
    InvalidateByTagEffects(c2, tag, now);
  }

  /** A sequence has at most as many distinct elements as entries, and exactly as many
      when no entry repeats. */
  lemma {:induction false} DistinctCount(s: seq<Key>)
    ensures |set k | k in s| <= |s|
    ensures (forall i, j :: 0 <= i < j < |s| ==> s[i] != s[j]) ==> |set k | k in s| == |s|
  {
    if |s| > 0 {
      var t := s[..|s| - 1];
      DistinctCount(t);
      assert (set k | k in s) == (set k | k in t) + {s[|s| - 1]};
      if forall i, j :: 0 <= i < j < |s| ==> s[i] != s[j] {
        assert forall i, j :: 0 <= i < j < |t| ==> t[i] != t[j];
        assert s[|s| - 1] !in t;
      }
    }
  }

  /** Given a SCAN reply, `invalidatePattern` removes every visible matching key from both
      tiers and keeps the rest: non-matching (or expired) L2 keys and keys held only in L1.
      Its count is at least the number of matching keys, and exactly that number when the
      scan reported no key twice. */
  lemma InvalidatePatternEffects<V>(c: Cache<V>, pattern: string, scanned: seq<Key>, now: int)
    requires ScanReply(c.l2, pattern, now, scanned)
    ensures var r := InvalidatePattern(c, pattern, scanned, now, true);
            var ks := Scan(c.l2, pattern, now);
            && r.Ok?
            && r.value.0 >= |ks|
            && ((forall i, j :: 0 <= i < j < |scanned| ==> scanned[i] != scanned[j]) ==> r.value.0 == |ks|)
            && (forall k :: k in ks ==> k !in r.value.1.l1 && k !in r.value.1.l2)
            && (forall k :: k in c.l2 && !(Visible(c.l2, k, now) && Glob.Match(pattern, k)) ==>
                  k in r.value.1.l2 && r.value.1.l2[k] == c.l2[k])
            && (forall k :: k in c.l1 && k !in c.l2 ==> k in r.value.1.l1 && r.value.1.l1[k] == c.l1[k])
            && (forall k :: k in c.l1 && !Glob.Match(pattern, k) ==> k in r.value.1.l1 && r.value.1.l1[k] == c.l1[k])
  {
    var ks := Scan(c.l2, pattern, now);
    assert (set k | k in scanned) == ks;
    DistinctCount(scanned);
  }

  /** Which of the three example keys "user:1:*" matches. */
  lemma UserOnePatternMatches()
    ensures Glob.Match("user:1:*", "user:1:profile")
    ensures Glob.Match("user:1:*", "user:1:settings")
    ensures !Glob.Match("user:1:*", "user:2:profile")
  {
    var pre := "user:1:";
    assert pre + "*" == "user:1:*";
    assert Glob.Literal(pre);
    Glob.PrefixStar(pre, "user:1:profile");
    Glob.PrefixStar(pre, "user:1:settings");
    Glob.PrefixStar(pre, "user:2:profile");
    assert "user:2:profile"[..|pre|][5] != pre[5];
  }

  /** Pattern scenario: with exactly the keys user:1:profile, user:1:settings and
      user:2:profile in Redis, "user:1:*" removes two keys and leaves user:2:profile. */
  lemma PatternInvalidationExample<V>(c: Cache<V>, now: int)
    requires c.l2.Keys == {"user:1:profile", "user:1:settings", "user:2:profile"}
    requires forall k :: k in c.l2 ==> HoldsString(c.l2, k, now)
    ensures ScanReply(c.l2, "user:1:*", now, ["user:1:profile", "user:1:settings"])
    ensures var r := InvalidatePattern(c, "user:1:*", ["user:1:profile", "user:1:settings"], now, true);
            && r.Ok? && r.value.0 == 2
            && "user:2:profile" in r.value.1.l2 && r.value.1.l2["user:2:profile"] == c.l2["user:2:profile"]
            && "user:1:profile" !in r.value.1.l2 && "user:1:settings" !in r.value.1.l2
  {
    UserOnePatternMatches();
    var ks := Scan(c.l2, "user:1:*", now);
    assert ks == {"user:1:profile", "user:1:settings"};
  }

  /** The count is of reported keys, not of deleted ones: a scan that reports user:1:profile
      twice makes the same deletions and returns 3. */
  lemma PatternCountIncludesRepeats<V>(c: Cache<V>, now: int)
    requires c.l2.Keys == {"user:1:profile", "user:1:settings", "user:2:profile"}
    requires forall k :: k in c.l2 ==> HoldsString(c.l2, k, now)
    ensures ScanReply(c.l2, "user:1:*", now, ["user:1:profile", "user:1:settings", "user:1:profile"])
    ensures var r := InvalidatePattern(c, "user:1:*", ["user:1:profile", "user:1:settings", "user:1:profile"], now, true);
            && r.Ok? && r.value.0 == 3
            && r.value.1 == InvalidatePattern(c, "user:1:*", ["user:1:profile", "user:1:settings"], now, true).value.1
  {
    UserOnePatternMatches();
    var ks := Scan(c.l2, "user:1:*", now);
    assert ks == {"user:1:profile", "user:1:settings"};
    assert (set k | k in ["user:1:profile", "user:1:settings", "user:1:profile"]) == (set k | k in ["user:1:profile", "user:1:settings"]);
  }
}

=== FILE: export_controller.dfy ===
/**
 * The export controller of `backend/src/controllers/exportController.js`:
 * `exportData` picks a renderer from the requested format, renders the
 * fetched records, stores the export's metadata and then either queues the
 * export or streams the file. The CSV renderer compresses large files; the
 * Excel renderer adds a filter over the table, freezes the header row and
 * sizes each column to its longest cell.
 *
 * The serialisers (json2csv, gzip, ExcelJS's writer), the record fetch, the
 * request check and the PDF/JSON/OFX/QIF renderers are parameters:
 * `exportController.js` does not define them (the file elides them at line 222).
 */
module ExportController {
  import opened Wrappers
  import opened Bytes
  import Text

  // ---------------------------------------------------------------------------
  // Format dispatch
  // ---------------------------------------------------------------------------

  datatype Renderer = Csv | Excel | Pdf | Json | Ofx | Qif

  /** The `case` labels of the dispatch `switch`. */
  const FormatNames: seq<string> := ["csv", "excel", "xlsx", "pdf", "json", "ofx", "qfx", "qif"]

  function RendererNamed(name: string): (r: Option<Renderer>)
    ensures r.Some? <==> name in FormatNames
  {
    if name == "csv" then Some(Csv)
    else if name == "excel" || name == "xlsx" then Some(Excel)
    else if name == "pdf" then Some(Pdf)
    else if name == "json" then Some(Json)
    else if name == "ofx" || name == "qfx" then Some(Ofx)
    else if name == "qif" then Some(Qif)
    else None
  }

  /** `switch (format.toLowerCase())`: an unknown format throws, naming the format as given. */
  function Dispatch(format: string): (r: Result<Renderer, string>)
    ensures r.Ok? <==> Text.Lower(format) in FormatNames
    ensures r.Err? ==> r.error == "Unsupported export format: " + format
  {
    match RendererNamed(Text.Lower(format))
    case Some(renderer) => Ok(renderer)
    case None => Err("Unsupported export format: " + format)
  }

  lemma LowerOfLowercase(s: string)
    requires forall i :: 0 <= i < |s| ==> 'a' <= s[i] <= 'z'
    ensures Text.Lower(s) == s
  {
  }

  /** `excel` and `xlsx` select the same renderer, as do `ofx` and `qfx`, and the
      comparison ignores case. */
  lemma AliasesShareRenderers()
    ensures Dispatch("excel") == Dispatch("xlsx") == Ok(Excel)
    ensures Dispatch("ofx") == Dispatch("qfx") == Ok(Ofx)
    ensures Dispatch("CSV") == Dispatch("csv") == Ok(Csv)
  {
    LowerOfLowercase("excel");
    LowerOfLowercase("xlsx");
    LowerOfLowercase("ofx");
    LowerOfLowercase("qfx");
    LowerOfLowercase("csv");
    assert Text.Lower("CSV") == "csv";
  }

  // ---------------------------------------------------------------------------
  // Options, rendered files and the headers of a download
  // ---------------------------------------------------------------------------

  /** The members of the body's `options` object the controller reads. `includeHeader`
      is absent, or the boolean given; `withBom` likewise. The members only tested for
      truthiness (`async`, `flatten`, `excelStrings`, `includeSummary`, `includeCharts`)
      are that truth value; `unwind` is absent or the list of paths given. */
  datatype Options = Options(async: bool, includeHeader: Option<bool>, withBom: Option<bool>,
                             flatten: bool, unwind: Option<seq<string>>, excelStrings: bool,
                             includeSummary: bool, includeCharts: bool)

  /** An empty `options` object. */
  const NoOptions: Options := Options(false, None, None, false, None, false, false, false)

  /** What a renderer returns: the file, its size, its content type and its name. */
  datatype Rendered = Rendered(content: seq<Byte>, size: nat, contentType: string, filename: string)

  /** The response headers of a file download. */
  datatype Headers = Headers(contentType: string, disposition: string, contentLength: nat)

  function Disposition(filename: string): string
  {
    "attachment; filename=\"" + filename + "\""
  }

  function HeadersFor(file: Rendered): (h: Headers)
    ensures h.contentType == file.contentType && h.contentLength == file.size
    ensures h.disposition == Disposition(file.filename)
  {
    Headers(file.contentType, Disposition(file.filename), file.size)
  }

  /** `export-<dataType>-<now>.<extension>`. */
  function FileName(dataType: string, now: nat, extension: string): string
  {
    "export-" + dataType + "-" + Text.ShowNat(now) + "." + extension
  }

  predicate EndsWith(s: string, suffix: string)
  {
    |suffix| <= |s| && s[|s| - |suffix|..] == suffix
  }

  // ---------------------------------------------------------------------------
  // CSV
  // ---------------------------------------------------------------------------

  /** Files of more than 1 MiB are gzipped. */
  const CompressThreshold: nat := 1024 * 1024

  /** The json2csv settings the controller derives from the options; `unwind` is
      `None` for json2csv's `null`. */
  datatype CsvSettings = CsvSettings(header: bool, flatten: bool, unwind: Option<seq<string>>,
                                     excelStrings: bool, withBom: bool)

  /** The header row is written unless `includeHeader` is literally `false`; flattening
      and Excel-style strings are on only when asked for, and rows are unwound only
      along paths that were given; the byte-order mark is always written:
      `options.withBOM || true` cannot be false. */
  function CsvSettingsFor(o: Options): (s: CsvSettings)
    ensures s.header <==> o.includeHeader != Some(false)
    ensures s.flatten <==> o.flatten
    ensures s.excelStrings <==> o.excelStrings
    ensures s.unwind.Some? <==> o.unwind.Some?
    ensures s.unwind.Some? ==> s.unwind == o.unwind
    ensures s.withBom
  {
    CsvSettings(o.includeHeader != Some(false), o.flatten || false, if o.unwind.Some? then o.unwind else None,
                o.excelStrings || false, o.withBom.GetOr(false) || true)
  }

  /** Two option objects give the same settings exactly when they agree on the header,
      flattening, unwinding and Excel strings: `withBOM` never matters. */
  lemma SameCsvSettings(o1: Options, o2: Options)
    ensures CsvSettingsFor(o1) == CsvSettingsFor(o2) <==>
              && (o1.includeHeader != Some(false) <==> o2.includeHeader != Some(false))
              && o1.flatten == o2.flatten && o1.unwind == o2.unwind && o1.excelStrings == o2.excelStrings
  {
  }

  /** The CSV depends on the options only through their settings: requests whose
      options give the same settings get the same file. */
  lemma CsvFollowsSettings<R>(data: seq<R>, dataType: string, o1: Options, o2: Options, now: nat,
                              toCsv: (seq<R>, CsvSettings) -> seq<Byte>,
                              gzip: seq<Byte> -> seq<Byte>)
    requires CsvSettingsFor(o1) == CsvSettingsFor(o2)
    ensures ExportToCsv(data, dataType, o1, now, toCsv, gzip) == ExportToCsv(data, dataType, o2, now, toCsv, gzip)
  {
  }

  /** `exportToCSV`: `toCsv` is json2csv followed by UTF-8 encoding, `gzip` the
      compressor. */
  function ExportToCsv<R>(data: seq<R>, dataType: string, o: Options, now: nat,
                          toCsv: (seq<R>, CsvSettings) -> seq<Byte>,
                          gzip: seq<Byte> -> seq<Byte>): (r: Rendered)
    ensures var raw := toCsv(data, CsvSettingsFor(o));
            (r.contentType == "application/gzip" <==> |raw| > CompressThreshold)
            && (r.contentType == "text/csv" <==> |raw| <= CompressThreshold)
            && (r.content == if |raw| > CompressThreshold then gzip(raw) else raw)
    ensures r.size == |r.content|
  {
    var raw := toCsv(data, CsvSettingsFor(o));
    var large := |raw| > CompressThreshold;
    var content := if large then gzip(raw) else raw;
    Rendered(content, |content|, if large then "application/gzip" else "text/csv",
             FileName(dataType, now, if large then "csv.gz" else "csv"))
  }

  /** The name of a CSV export ends in `.csv.gz` exactly when it was compressed, and
      in `.csv` otherwise. */
  lemma CsvNameMatchesCompression<R>(data: seq<R>, dataType: string, o: Options, now: nat,
                                     toCsv: (seq<R>, CsvSettings) -> seq<Byte>,
                                     gzip: seq<Byte> -> seq<Byte>)
    ensures var r := ExportToCsv(data, dataType, o, now, toCsv, gzip);
            (EndsWith(r.filename, ".csv.gz") <==> r.contentType == "application/gzip")
            && (!EndsWith(r.filename, ".csv.gz") ==> EndsWith(r.filename, ".csv"))
  {
    var r := ExportToCsv(data, dataType, o, now, toCsv, gzip);
    var stem := "export-" + dataType + "-" + Text.ShowNat(now);
    if r.contentType == "application/gzip" {
      assert r.filename == stem + "." + "csv.gz";
    } else {
      assert r.filename == stem + "." + "csv";
      assert r.filename[|r.filename| - 4..] == ".csv";
      assert r.filename[|r.filename| - 1] == 'v';
    }
  }

  // ---------------------------------------------------------------------------
  // Excel
  // ---------------------------------------------------------------------------

  const MaxColumnWidth: nat := 50

  /** The length ExcelJS's column pass counts for a cell: the text of a truthy value,
      and 0 for an empty or falsy one (`None`). */
  function CellLength(cell: Option<string>): nat
  {
    if cell.None? then 0 else |cell.value|
  }

  /** `w` is the width the auto-size pass gives a column with these cells: two more
      than the longest cell, but at most 50. */
  predicate FitsColumn(cells: seq<Option<string>>, w: nat)
  {
    2 <= w <= MaxColumnWidth
    && (forall i :: 0 <= i < |cells| ==> CellLength(cells[i]) + 2 <= w || w == MaxColumnWidth)
    && (w == 2 || exists i :: 0 <= i < |cells| && CellLength(cells[i]) + 2 >= w)
  }

  /** The width a column's cells call for is unique. */
  lemma FitsColumnIsUnique(cells: seq<Option<string>>, w1: nat, w2: nat)
    requires FitsColumn(cells, w1) && FitsColumn(cells, w2)
    ensures w1 == w2
  {
  }

  /** The `eachCell` pass over one column: the longest cell, plus two, capped at 50. */
  method ColumnWidth(cells: seq<Option<string>>) returns (width: nat)
    ensures FitsColumn(cells, width)
  {
    var maxLength := 0;
    var i := 0;
    while i < |cells|
      invariant 0 <= i <= |cells|
      invariant forall j :: 0 <= j < i ==> CellLength(cells[j]) <= maxLength
      invariant maxLength == 0 || exists j :: 0 <= j < i && CellLength(cells[j]) == maxLength
    {
      var length := CellLength(cells[i]);
      if length > maxLength {
        maxLength := length;
      }
      i := i + 1;
    }
    width := if maxLength + 2 < MaxColumnWidth then maxLength + 2 else MaxColumnWidth;
  }

  /** Column `c` of the main sheet: its header cell, then that column of every row
      (a row with fewer cells has an empty one there). */
  function ColumnCells(headers: seq<string>, rows: seq<seq<Option<string>>>, c: nat): (cells: seq<Option<string>>)
    requires c < |headers|
    ensures |cells| == |rows| + 1
    ensures cells[0] == (if headers[c] == "" then None else Some(headers[c]))
    ensures forall r :: 0 <= r < |rows| ==> cells[r + 1] == (if c < |rows[r]| then rows[r][c] else None)
  {
    [if headers[c] == "" then None else Some(headers[c])]
    + seq(|rows|, r requires 0 <= r < |rows| => if c < |rows[r]| then rows[r][c] else None)
  }

  datatype CellRef = CellRef(row: nat, column: nat)

  /** A rectangle of cells, corners included. */
  datatype CellRange = CellRange(from: CellRef, to: CellRef)

  predicate InRange(range: CellRange, cell: CellRef)
  {
    range.from.row <= cell.row <= range.to.row && range.from.column <= cell.column <= range.to.column
  }

  /** The main sheet: its name, header row, data rows, filter range, frozen rows and
      column widths. */
  datatype Sheet = Sheet(name: string, headers: seq<string>, rows: seq<seq<Option<string>>>,
                         autoFilter: CellRange, frozenRows: nat, widths: seq<nat>)

  datatype Workbook = Workbook(sheetNames: seq<string>, main: Sheet)

  /** The filter spans the header row and every data row, over every column. */
  function AutoFilter(rowCount: nat, columnCount: nat): (range: CellRange)
    ensures forall r: nat, c: nat :: 1 <= r <= rowCount + 1 && 1 <= c <= columnCount ==> InRange(range, CellRef(r, c))
    ensures forall r: nat, c: nat :: r > rowCount + 1 || c > columnCount || r == 0 || c == 0 ==> !InRange(range, CellRef(r, c))
  {
    CellRange(CellRef(1, 1), CellRef(rowCount + 1, columnCount))
  }

  const XlsxContentType: string := "application/vnd.openxmlformats-officedocument.spreadsheetml.sheet"

  /** `exportToExcel`. `rows` are the records as `formatExcelRow` lays them out,
      `sheetName` and `headers` what `getSheetName` and `getExcelColumns` give for the
      data type, and `writeBuffer` ExcelJS's serialiser. */
  method ExportToExcel(rows: seq<seq<Option<string>>>, dataType: string, o: Options, now: nat,
                       sheetName: string, headers: seq<string>, writeBuffer: Workbook -> seq<Byte>)
    returns (book: Workbook, file: Rendered)
    ensures book.sheetNames == [sheetName] + (if o.includeSummary then ["Summary"] else [])
                                           + (if o.includeCharts then ["Charts"] else [])
    ensures book.main.rows == rows && book.main.headers == headers
    ensures book.main.autoFilter == AutoFilter(|rows|, |headers|)
    ensures book.main.frozenRows == 1
    ensures |book.main.widths| == |headers|
    ensures forall c :: 0 <= c < |headers| ==> FitsColumn(ColumnCells(headers, rows, c), book.main.widths[c])
    ensures file.content == writeBuffer(book) && file.size == |file.content|
    ensures file.contentType == XlsxContentType && file.filename == FileName(dataType, now, "xlsx")
  {
    var names := [sheetName];
    if o.includeSummary {
      names := names + ["Summary"];
    }
    if o.includeCharts {
      names := names + ["Charts"];
    }
    var widths: seq<nat> := [];
    var c := 0;
    while c < |headers|
      invariant 0 <= c <= |headers|
      invariant |widths| == c
      invariant forall k :: 0 <= k < c ==> FitsColumn(ColumnCells(headers, rows, k), widths[k])
    {
      var w := ColumnWidth(ColumnCells(headers, rows, c));
      widths := widths + [w];
      c := c + 1;
    }
    var sheet := Sheet(sheetName, headers, rows, AutoFilter(|rows|, |headers|), 1, widths);
    book := Workbook(names, sheet);
    var content := writeBuffer(book);
    file := Rendered(content, |content|, XlsxContentType, FileName(dataType, now, "xlsx"));
  }

  // ---------------------------------------------------------------------------
  // exportData
  // ---------------------------------------------------------------------------

  /** The fields of the request body the handler destructures. */
  datatype ExportRequest = ExportRequest(format: string, dataType: string, options: Option<Options>)

  /** What `storeExportMetadata` is given. */
  datatype Metadata = Metadata(exportId: string, userId: string, format: string, dataType: string,
                               recordCount: nat, fileSize: nat)

  /** The handler's answer: the async job reply, the streamed file, or the error passed
      to `next`. */
  datatype Response =
    | Queued(exportId: string, status: string, downloadUrl: string, expiresAt: int)
    | Streamed(headers: Headers, content: seq<Byte>)
    | Failed(message: string)

  /** The stored metadata (if the handler got that far) and the answer. */
  datatype ExportResult = ExportResult(stored: Option<Metadata>, response: Response)

  const DayMs: nat := 24 * 60 * 60 * 1000

  function DownloadUrl(exportId: string): string
  {
    "/api/exports/" + exportId + "/download"
  }

  /** `export-<now>-<nonce>`, the nonce being the base-36 digits `Math.random()` gives. */
  function ExportId(now: nat, nonce: string): string
  {
    "export-" + Text.ShowNat(now) + "-" + nonce
  }

  /** The collaborators `exportData` calls that `exportController.js` does not define
      (the file elides them at line 222): `check` is the error `validateExportRequest` throws, `fetched` the records
      `fetchData` returns (or its error), `formatRow` is `formatExcelRow`, and `other`
      renders the PDF, JSON, OFX and QIF formats. */
  datatype Collaborators<!R> = Collaborators(
    check: Option<string>,
    fetched: Result<seq<R>, string>,
    toCsv: (seq<R>, CsvSettings) -> seq<Byte>,
    gzip: seq<Byte> -> seq<Byte>,
    formatRow: R -> seq<Option<string>>,
    sheetName: string,
    headers: seq<string>,
    writeBuffer: Workbook -> seq<Byte>,
    other: (Renderer, seq<R>, string) -> Result<Rendered, string>)

  /** Renders with the chosen renderer and options. */
  method Render<R>(renderer: Renderer, data: seq<R>, dataType: string, o: Options, now: nat,
                   env: Collaborators<R>)
    returns (r: Result<Rendered, string>)
    ensures renderer == Csv ==> r == Ok(ExportToCsv(data, dataType, o, now, env.toCsv, env.gzip))
    ensures renderer == Excel ==> r.Ok? && r.value.contentType == XlsxContentType
                                  && r.value.filename == FileName(dataType, now, "xlsx")
    ensures renderer != Csv && renderer != Excel ==> r == env.other(renderer, data, dataType)
    ensures r.Ok? ==> r.value.size == |r.value.content| || (renderer != Csv && renderer != Excel)
  {
    match renderer
    case Csv =>
      r := Ok(ExportToCsv(data, dataType, o, now, env.toCsv, env.gzip));
    case Excel =>
      var rows := seq(|data|, i requires 0 <= i < |data| => env.formatRow(data[i]));
      var book, file := ExportToExcel(rows, dataType, o, now, env.sheetName, env.headers, env.writeBuffer);
      r := Ok(file);
    case _ =>
      r := env.other(renderer, data, dataType);
  }

  /** `exportData` with the options resolved: everything after the options are known. */
  method ExportWith<R>(req: ExportRequest, o: Options, userId: string, now: nat, nonce: string,
                       env: Collaborators<R>)
    returns (result: ExportResult)
    ensures env.check.Some? ==> result == ExportResult(None, Failed(env.check.value))
    ensures env.check.None? && env.fetched.Err? ==> result == ExportResult(None, Failed(env.fetched.error))
    ensures env.check.None? && env.fetched.Ok? && Dispatch(req.format).Err? ==>
              result == ExportResult(None, Failed("Unsupported export format: " + req.format))
    ensures result.stored.Some? ==>
              env.fetched.Ok? && result.stored.value.recordCount == |env.fetched.value|
              && result.stored.value.exportId == ExportId(now, nonce)
              && result.stored.value.userId == userId
    ensures result.response.Queued? ==>
              o.async && result.stored.Some?
              && result.response == Queued(ExportId(now, nonce), "processing",
                                           DownloadUrl(ExportId(now, nonce)), now + DayMs)
    ensures result.response.Streamed? ==>
              !o.async && result.stored.Some?
              && result.response.headers.contentLength == result.stored.value.fileSize
    ensures env.check.None? && env.fetched.Ok? && Dispatch(req.format) in {Ok(Csv), Ok(Excel)} ==>
              result.stored.Some? && (o.async ==> result.response.Queued?) && (!o.async ==> result.response.Streamed?)
  {
    if env.check.Some? {
      return ExportResult(None, Failed(env.check.value));
    }
    var exportId := ExportId(now, nonce);
    if env.fetched.Err? {
      return ExportResult(None, Failed(env.fetched.error));
    }
    var data := env.fetched.value;
    var renderer := Dispatch(req.format);
    if renderer.Err? {
      return ExportResult(None, Failed(renderer.error));
    }
    var rendered := Render(renderer.value, data, req.dataType, o, now, env);
    if rendered.Err? {
      return ExportResult(None, Failed(rendered.error));
    }
    var file := rendered.value;
    var meta := Metadata(exportId, userId, req.format, req.dataType, |data|, file.size);
    if o.async {
      result := ExportResult(Some(meta), Queued(exportId, "processing", DownloadUrl(exportId), now + DayMs));
    } else {
      result := ExportResult(Some(meta), Streamed(HeadersFor(file), file.content));
    }
  }

  /** `exportData` as written: `options` is optional in the request check, but the
      renderers and the final `options.async` read members of it unconditionally. A
      request without options fails with a TypeError, after the metadata has already
      been stored when a renderer other than CSV and Excel was chosen. */
  method ExportDataAsWritten<R>(req: ExportRequest, userId: string, now: nat, nonce: string,
                                env: Collaborators<R>)
    returns (result: ExportResult)
    ensures req.options.None? ==> result.response.Failed?
    ensures req.options.None? && env.check.None? && env.fetched.Ok? && Dispatch(req.format) == Ok(Csv) ==>
              result == ExportResult(None, Failed(TypeErrorReading("includeHeader")))
    ensures req.options.Some? ==> result.response.Failed? || result.stored.Some?
  {
    if req.options.Some? {
      result := ExportWith(req, req.options.value, userId, now, nonce, env);
      return;
    }
    if env.check.Some? {
      return ExportResult(None, Failed(env.check.value));
    }
    if env.fetched.Err? {
      return ExportResult(None, Failed(env.fetched.error));
    }
    var data := env.fetched.value;
    var renderer := Dispatch(req.format);
    if renderer.Err? {
      return ExportResult(None, Failed(renderer.error));
    }
    match renderer.value
    case Csv =>
      result := ExportResult(None, Failed(TypeErrorReading("includeHeader")));
    case Excel =>
      result := ExportResult(None, Failed(TypeErrorReading("includeSummary")));
    case _ =>
      var rendered := env.other(renderer.value, data, req.dataType);
      if rendered.Err? {
        return ExportResult(None, Failed(rendered.error));
      }
      var meta := Metadata(ExportId(now, nonce), userId, req.format, req.dataType, |data|, rendered.value.size);
      result := ExportResult(Some(meta), Failed(TypeErrorReading("async")));
  }

  function TypeErrorReading(member: string): string
  {
    "TypeError: Cannot read properties of undefined (reading '" + member + "')"
  }

  /** `exportData` with a missing `options` read as the empty object, as the request
      check intends. A CSV request without options then streams its file. */
  method ExportData<R>(req: ExportRequest, userId: string, now: nat, nonce: string, env: Collaborators<R>)
    returns (result: ExportResult)
    ensures req.options.None? && env.check.None? && env.fetched.Ok? && Dispatch(req.format) == Ok(Csv) ==>
              result.stored.Some? && result.response.Streamed?
    ensures req.options.Some? ==> result.response.Failed? || result.stored.Some?
    ensures result.stored.Some? ==> env.fetched.Ok? && result.stored.value.recordCount == |env.fetched.value|
  {
    result := ExportWith(req, req.options.GetOr(NoOptions), userId, now, nonce, env);
  }
}

=== FILE: export_routes.dfy ===
/**
 * The export routes of `backend/src/routes/exports.js`: the request check in
 * front of `exportData`, and the status and download endpoints, which look the
 * export up by id among the caller's own exports.
 */
module ExportRoutes {
  import opened Wrappers
  import Text
  import ExportController

  const AllowedFormats: seq<string> := ["csv", "excel", "xlsx", "pdf", "json", "ofx", "qfx", "qif"]
  const AllowedDataTypes: seq<string> := ["transactions", "budgets", "investments", "categories", "all"]

  // ---------------------------------------------------------------------------
  // POST / : the request check
  // ---------------------------------------------------------------------------

  /** An optional body member: absent, an object, or some other value (`null` included). */
  datatype Presence = Absent | ObjectValue | OtherValue

  datatype ExportBody = ExportBody(format: Option<string>, dataType: Option<string>,
                                   filters: Presence, options: Presence)

  /** The members that fail their check, in the order the checks are declared. A missing
      `format` or `dataType` is read as the empty text and so is not in its list. */
  function BodyErrors(b: ExportBody): (errs: seq<string>)
    ensures "format" in errs <==> b.format.None? || b.format.value !in AllowedFormats
    ensures "dataType" in errs <==> b.dataType.None? || b.dataType.value !in AllowedDataTypes
    ensures "filters" in errs <==> b.filters == OtherValue
    ensures "options" in errs <==> b.options == OtherValue
    ensures forall e :: e in errs ==> e in ["format", "dataType", "filters", "options"]
  {
    (if b.format.None? || b.format.value !in AllowedFormats then ["format"] else [])
    + (if b.dataType.None? || b.dataType.value !in AllowedDataTypes then ["dataType"] else [])
    + (if b.filters == OtherValue then ["filters"] else [])
    + (if b.options == OtherValue then ["options"] else [])
  }

  /** The `validate` middleware: 400 with the errors, or on to the handler. */
  datatype Checked = Rejected(errors: seq<string>) | Accepted

  function Validate(b: ExportBody): (r: Checked)
    ensures r.Accepted? <==> b.format.Some? && b.format.value in AllowedFormats
                             && b.dataType.Some? && b.dataType.value in AllowedDataTypes
                             && b.filters != OtherValue && b.options != OtherValue
    ensures r.Rejected? ==> r.errors == BodyErrors(b) && |r.errors| > 0
  {
    var errs := BodyErrors(b);
    if |errs| > 0 then Rejected(errs)
    else
      assert "format" !in errs && "dataType" !in errs;
      Accepted
  }

  /** Every format the check lets through is one the controller's dispatch handles. */
  lemma AcceptedFormatsDispatch(b: ExportBody)
    requires Validate(b).Accepted?
    ensures ExportController.Dispatch(b.format.value).Ok?
  {
    AllowedFormatsAreLowercase(b.format.value);
  }

  lemma AllowedFormatsAreLowercase(f: string)
    requires f in AllowedFormats
    ensures Text.Lower(f) == f && f in ExportController.FormatNames
  {
    ExportController.LowerOfLowercase(f);
  }

  /** The check leaves `options` optional: a body without it passes. */
  lemma OptionsMayBeOmitted()
    ensures Validate(ExportBody(Some("csv"), Some("transactions"), Absent, Absent)).Accepted?
  {
  }

  // ---------------------------------------------------------------------------
  // GET /:exportId/status and GET /:exportId/download
  // ---------------------------------------------------------------------------

  /** A row of the export log. */
  datatype ExportLog = ExportLog(id: string, userId: string, status: string, progress: int,
                                 expiresAt: int, contentType: string, filename: string, fileSize: nat)

  predicate Matches(log: ExportLog, id: string, userId: string, completedOnly: bool)
  {
    log.id == id && log.userId == userId && (!completedOnly || log.status == "completed")
  }

  /** `ExportLog.findOne({where})`: the first row matching the id and the caller (and,
      for downloads, the completed status). */
  function FindLog(logs: seq<ExportLog>, id: string, userId: string, completedOnly: bool): (r: Option<ExportLog>)
    ensures r.Some? ==> r.value in logs && Matches(r.value, id, userId, completedOnly)
    ensures r.None? <==> forall log :: log in logs ==> !Matches(log, id, userId, completedOnly)
  {
    if |logs| == 0 then None
    else if Matches(logs[0], id, userId, completedOnly) then Some(logs[0])
    else
      var r := FindLog(logs[1..], id, userId, completedOnly);
      assert forall log :: log in logs ==> log == logs[0] || log in logs[1..];
      r
  }

  /** The status endpoint's replies: 404 'Export not found', the status data, or the
      error passed to the error handler. */
  datatype StatusReply =
    | StatusNotFound
    | StatusData(exportId: string, status: string, progress: int, downloadUrl: Option<string>, expiresAt: int)
    | StatusFailed(message: string)

  /** The status endpoint with the export log in scope. */
  function ExportStatus(exportId: string, userId: string, logs: seq<ExportLog>): (r: StatusReply)
    ensures r.StatusNotFound? <==> forall log :: log in logs ==> !Matches(log, exportId, userId, false)
    ensures !r.StatusFailed?
    ensures r.StatusData? ==>
              r.exportId == exportId
              && (r.downloadUrl.Some? <==> r.status == "completed")
              && (r.downloadUrl.Some? ==> r.downloadUrl.value == ExportController.DownloadUrl(exportId))
              && exists log :: log in logs && Matches(log, exportId, userId, false)
                               && log.status == r.status && log.progress == r.progress
                               && log.expiresAt == r.expiresAt
  {
    match FindLog(logs, exportId, userId, false)
    case None => StatusNotFound
    case Some(log) =>
      StatusData(exportId, log.status, log.progress,
                 if log.status == "completed" then Some(ExportController.DownloadUrl(exportId)) else None,
                 log.expiresAt)
  }

  /** The error every status and download request runs into as written: the handlers
      refer to `ExportLog`, which the routes file never imports. */
  const Unbound: string := "ReferenceError: ExportLog is not defined"

  /** The status endpoint as written: the lookup throws before any row is read. */
  function ExportStatusAsWritten(exportId: string, userId: string, logs: seq<ExportLog>): (r: StatusReply)
    ensures r == StatusFailed(Unbound)
  {
    StatusFailed(Unbound)
  }

  /** As written, even the owner of a completed export cannot read its status. */
  lemma AsWrittenStatusNeverAnswers(log: ExportLog)
    ensures ExportStatus(log.id, log.userId, [log]).StatusData?
    ensures ExportStatusAsWritten(log.id, log.userId, [log]).StatusFailed?
  {
    assert Matches(log, log.id, log.userId, false);
  }

  /** The download endpoint's replies: 404 'Export not found or expired', 410 'Export
      has expired', the file with its headers, or the error passed on. */
  datatype DownloadReply =
    | DownloadNotFound
    | Gone
    | Served(exportId: string, headers: ExportController.Headers)
    | DownloadFailed(message: string)

  function DownloadStatus(r: DownloadReply): int
  {
    match r
    case DownloadNotFound => 404
    case Gone => 410
    case Served(_, _) => 200
    case DownloadFailed(_) => 500
  }

  /** The download endpoint with the export log in scope; `now` is `new Date()`. */
  function Download(exportId: string, userId: string, logs: seq<ExportLog>, now: int): (r: DownloadReply)
    ensures r.DownloadNotFound? <==> forall log :: log in logs ==> !Matches(log, exportId, userId, true)
    ensures !r.DownloadFailed?
    ensures var found := FindLog(logs, exportId, userId, true);
            found.Some? ==> (r.Gone? <==> now > found.value.expiresAt)
    ensures r.Served? ==>
              var log := FindLog(logs, exportId, userId, true).value;
              log.status == "completed" && log.userId == userId && now <= log.expiresAt
              && r.headers == ExportController.Headers(log.contentType,
                                                       ExportController.Disposition(log.filename),
                                                       log.fileSize)
  {
    match FindLog(logs, exportId, userId, true)
    case None => DownloadNotFound
    case Some(log) =>
      if now > log.expiresAt then Gone
      else Served(exportId, ExportController.Headers(log.contentType,
                                                      ExportController.Disposition(log.filename),
                                                      log.fileSize))
  }

  /** The download endpoint as written throws at the same lookup. */
  function DownloadAsWritten(exportId: string, userId: string, logs: seq<ExportLog>, now: int): (r: DownloadReply)
    ensures r == DownloadFailed(Unbound)
  {
    DownloadFailed(Unbound)
  }

  /** A completed export is served up to and including its expiry instant and is gone
      one millisecond later; as written, neither request gets past the lookup. */
  lemma ServedUntilExpiry(log: ExportLog)
    requires log.status == "completed"
    ensures Download(log.id, log.userId, [log], log.expiresAt).Served?
    ensures Download(log.id, log.userId, [log], log.expiresAt + 1) == Gone
    ensures DownloadAsWritten(log.id, log.userId, [log], log.expiresAt) == DownloadFailed(Unbound)
  {
    assert Matches(log, log.id, log.userId, true);
  }

  /** Another user's export, and one that is still processing, are both reported as
      not found. */
  lemma OnlyOwnCompletedExports(log: ExportLog, caller: string, now: int)
    requires caller != log.userId
    ensures Download(log.id, caller, [log], now) == DownloadNotFound
    ensures ExportStatus(log.id, caller, [log]) == StatusNotFound
    ensures Download(log.id, log.userId, [log.(status := "processing")], now) == DownloadNotFound
  {
  }
}

=== FILE: glob.dfy ===
/**
 * Redis glob matching as used by `SCAN ... MATCH pattern`, restricted to the
 * two wildcards the cache's callers use: '*' (any run, possibly empty) and
 * '?' (exactly one character). Every other pattern character is literal.
 */
module Glob {

  predicate IsWild(c: char) { c == '*' || c == '?' }

  /** True when the pattern has no wildcard, so it names exactly one key. */
  predicate Literal(p: string) { forall i :: 0 <= i < |p| ==> !IsWild(p[i]) }

  /** True when key `s` matches glob `p`. */
  predicate Match(p: string, s: string)
    decreases |p| + |s|
  {
    if |p| == 0 then |s| == 0
    else if p[0] == '*' then Match(p[1..], s) || (|s| > 0 && Match(p, s[1..]))
    else |s| > 0 && (p[0] == '?' || p[0] == s[0]) && Match(p[1..], s[1..])
  }

  /** The pattern "*" matches every key. */
  lemma {:induction false} StarMatchesAll(s: string)
    ensures Match("*", s)
    decreases |s|
  {
    if |s| > 0 {
      StarMatchesAll(s[1..]);
    }
  }

  /** A pattern without wildcards matches exactly the key it spells. */
  lemma {:induction false} LiteralMatchesOnlyItself(p: string, s: string)
    requires Literal(p)
    ensures Match(p, s) <==> s == p
    decreases |p|
  {
    if |p| > 0 && |s| > 0 {
      LiteralMatchesOnlyItself(p[1..], s[1..]);
      if s == p {
        assert s[1..] == p[1..];
      }
      if s[0] == p[0] && s[1..] == p[1..] {
        assert s == [s[0]] + s[1..] && p == [p[0]] + p[1..];
      }
    }
  }

  /** `pre + "*"` with a literal `pre` matches exactly the keys that start with `pre`. */
  lemma {:induction false} PrefixStar(pre: string, s: string)
    requires Literal(pre)
    ensures Match(pre + "*", s) <==> (|pre| <= |s| && s[..|pre|] == pre)
    decreases |pre|
  {
    if |pre| == 0 {
      assert pre + "*" == "*";
      StarMatchesAll(s);
    } else {
      assert (pre + "*")[0] == pre[0];
      assert (pre + "*")[1..] == pre[1..] + "*";
      if |s| > 0 {
        PrefixStar(pre[1..], s[1..]);
        if |pre| <= |s| && s[..|pre|] == pre {
          assert s[1..][..|pre| - 1] == pre[1..];
        }
        if s[0] == pre[0] && |pre[1..]| <= |s[1..]| && s[1..][..|pre[1..]|] == pre[1..] {
          assert s[..|pre|] == [s[0]] + s[1..][..|pre| - 1];
          assert pre == [pre[0]] + pre[1..];
        }
      }
    }
  }
}

=== FILE: health.dfy ===
/**
 * The health check of `backend/src/controllers/health.js`: the database and
 * Redis are probed one after the other, each probe's failure is caught on its
 * own, and the reply is 200 only when every service is up.
 */
module Health {

  datatype ServiceStatus = Unknown | Up | Down

  datatype Services = Services(database: ServiceStatus, redis: ServiceStatus)

  /** The reply body (the uptime, a float, is left out) and its status code. */
  datatype Report = Report(timestamp: int, services: Services, statusCode: int)

  /** The outcome of one guarded probe: 'up' when it resolves, 'down' when it throws. */
  function Probe(succeeded: bool): (s: ServiceStatus)
    ensures s != Unknown
    ensures s == Up <==> succeeded
  {
    if succeeded then Up else Down
  }

  /** `Object.values(status.services).every(s => s === 'up')`. */
  predicate AllUp(s: Services) { s.database == Up && s.redis == Up }

  /** `checkHealth`: both services start 'unknown'; the database probe and then the
      Redis probe each overwrite their own entry. */
  function CheckHealth(timestamp: int, databaseAnswers: bool, redisAnswers: bool): (r: Report)
    ensures r.services.database != Unknown && r.services.redis != Unknown
    ensures r.services.database == Up <==> databaseAnswers
    ensures r.services.redis == Up <==> redisAnswers
    ensures r.statusCode == 200 <==> databaseAnswers && redisAnswers
    ensures r.statusCode == 200 || r.statusCode == 503
    ensures r.timestamp == timestamp
  {
    var initial := Services(Unknown, Unknown);
    var afterDatabase := initial.(database := Probe(databaseAnswers));
    var afterRedis := afterDatabase.(redis := Probe(redisAnswers));
    Report(timestamp, afterRedis, if AllUp(afterRedis) then 200 else 503)
  }

  /** A failing database does not stop the Redis probe: Redis's entry depends on Redis
      alone, and the database's entry on the database alone. */
  lemma ProbesAreIndependent(t: int, db1: bool, db2: bool, redis1: bool, redis2: bool)
    ensures CheckHealth(t, db1, redis1).services.redis == CheckHealth(t, db2, redis1).services.redis
    ensures CheckHealth(t, db1, redis1).services.database == CheckHealth(t, db1, redis2).services.database
  {
  }
}

=== FILE: merge_extract.dfy ===
/**
 * The file-name recovery of `merge_and_extract.py`: each extracted code block
 * is named from a path comment (or a bare path) on its first line, falling back
 * to the name `indices.json` gives its index; blocks with neither are skipped.
 * Reading and writing files are left out; the loaded index list is a parameter.
 */
module MergeExtract {
  import opened Wrappers
  import opened Text

  // ---------------------------------------------------------------------------
  // get_filename_from_content
  // ---------------------------------------------------------------------------

  /** `content.strip().split('\n')[0].strip()`. */
  function FirstLine(content: string): (r: string)
    ensures '\n' !in r
    ensures |r| > 0 ==> !IsSpace(r[0]) && !IsSpace(r[|r| - 1])
  {
    var first := SplitOn(Strip(content), '\n')[0];
    StripKeepsOut(first, '\n');
    Strip(first)
  }

  /** A character of the class `[a-zA-Z0-9_\-\.\/]`. */
  predicate PathChar(c: char)
  {
    'a' <= c <= 'z' || 'A' <= c <= 'Z' || IsDigit(c) || c == '_' || c == '-' || c == '.' || c == '/'
  }

  /** The end of the run of path characters starting at `i` (the class taken greedily). */
  function PathRunEnd(s: string, i: nat): (j: nat)
    requires i <= |s|
    ensures i <= j <= |s|
    ensures forall m :: i <= m < j ==> PathChar(s[m])
    ensures j == |s| || !PathChar(s[j])
    decreases |s| - i
  {
    if i < |s| && PathChar(s[i]) then PathRunEnd(s, i + 1) else i
  }

  /** The comment markers, in the order the alternation tries them. */
  const Markers: seq<string> := ["//", "#", "<!--"]

  /** `^(\/\/|#|<!--)` on the line: the length of the marker it starts with. */
  function MarkerLength(line: string): (r: Option<nat>)
    ensures r.Some? <==> exists k :: 0 <= k < |Markers| && OccursAt(line, Markers[k], 0)
    ensures r.Some? ==> exists k :: 0 <= k < |Markers| && OccursAt(line, Markers[k], 0) && r.value == |Markers[k]|
  {
    if OccursAt(line, Markers[0], 0) then Some(|Markers[0]|)
    else if OccursAt(line, Markers[1], 0) then Some(|Markers[1]|)
    else if OccursAt(line, Markers[2], 0) then Some(|Markers[2]|)
    else None
  }

  /** The line reads: marker `k`, whitespace up to `j`, then the path `p`, which no
      further path character follows. */
  predicate CommentShape(line: string, k: nat, j: nat, p: string)
  {
    k < |Markers| && OccursAt(line, Markers[k], 0) && |Markers[k]| <= j <= |line|
    && (forall m :: |Markers[k]| <= m < j ==> IsSpace(line[m]))
    && OccursAt(line, p, j) && (j + |p| == |line| || !PathChar(line[j + |p|]))
  }

  /** A path of the comment shape is where the matcher looks: the marker is the one the
      alternation picks, the whitespace ends at `j`, and the path run at `j + |p|`. */
  lemma CommentShapeParts(line: string, k: nat, j: nat, p: string)
    requires |p| > 0 && forall m :: 0 <= m < |p| ==> PathChar(p[m])
    requires CommentShape(line, k, j, p)
    ensures MarkerLength(line) == Some(|Markers[k]|)
    ensures SpaceEnd(line, |Markers[k]|) == j
    ensures PathRunEnd(line, j) == j + |p| && line[j..j + |p|] == p
  {
    assert line[0] == Markers[k][0];
    assert line[j] == p[0];
    var e := PathRunEnd(line, j);
    assert forall m :: j <= m < j + |p| ==> line[m] == p[m - j];
  }

  /** Group 2 of `^(\/\/|#|<!--)\s*([a-zA-Z0-9_\-\.\/]+)`: after the marker and any
      whitespace, the longest run of path characters, which must not be empty. What is
      found has the comment shape; `CommentPathComplete` gives the converse. */
  function CommentPath(line: string): (r: Option<string>)
    ensures r.Some? ==> |r.value| > 0 && forall m :: 0 <= m < |r.value| ==> PathChar(r.value[m])
    ensures r.Some? ==> exists k: nat, j: nat :: CommentShape(line, k, j, r.value)
  {
    match MarkerLength(line)
    case None => None
    case Some(k) =>
      if k > |line| then None
      else
        var j := SpaceEnd(line, k);
        var e := PathRunEnd(line, j);
        if j < e then
          MatchHasShape(line, k);
          Some(line[j..e])
        else None
  }

  /** Every line of the comment shape yields its path: a marker, whitespace, then a
      non-empty run of path characters that no further path character follows. */
  lemma CommentPathComplete(line: string, k: nat, j: nat, p: string)
    requires |p| > 0 && forall m :: 0 <= m < |p| ==> PathChar(p[m])
    requires CommentShape(line, k, j, p)
    ensures CommentPath(line) == Some(p)
  {
    CommentShapeParts(line, k, j, p);
  }

  /** What the matcher takes after a marker has the comment shape. */
  lemma MatchHasShape(line: string, k: nat)
    requires MarkerLength(line) == Some(k) && k <= |line|
    requires SpaceEnd(line, k) < PathRunEnd(line, SpaceEnd(line, k))
    ensures var j := SpaceEnd(line, k);
            exists km: nat :: CommentShape(line, km, j, line[j..PathRunEnd(line, j)])
  {
    var j := SpaceEnd(line, k);
    var km: nat :| km < |Markers| && OccursAt(line, Markers[km], 0) && k == |Markers[km]|;
    assert CommentShape(line, km, j, line[j..PathRunEnd(line, j)]);
  }

  /** The path character class has no `>`, so the `-->` clean-up never finds anything
      to remove. */
  lemma CommentCleanupNeverApplies(line: string)
    requires CommentPath(line).Some?
    ensures !Contains(CommentPath(line).value, "-->")
  {
    AbsentChar(CommentPath(line).value, "-->", 2);
  }

  /** The comment's path, kept only when it holds a `/` or a `.`. */
  function CommentName(line: string): (r: Option<string>)
    ensures r.Some? <==> CommentPath(line).Some? && ('/' in CommentPath(line).value || '.' in CommentPath(line).value)
    ensures r.Some? ==> r == CommentPath(line)
  {
    match CommentPath(line)
    case None => None
    case Some(p) =>
      CommentCleanupNeverApplies(line);
      if '/' in p || '.' in p then Some(p) else None
  }

  /** `get_filename_from_content` on its first line: the comment's path when it holds a
      `/` or a `.`; else the whole line when it holds both and is shorter than 100
      characters. */
  function NameFromLine(line: string): (r: Option<string>)
    ensures CommentName(line).Some? ==> r == CommentName(line)
    ensures CommentName(line).None? ==>
              (r.Some? <==> '/' in line && '.' in line && |line| < 100) && (r.Some? ==> r.value == line)
    ensures r.Some? ==> r.value != "" && ('/' in r.value || '.' in r.value)
    ensures r.Some? && '\n' !in line ==> '\n' !in r.value
  {
    match CommentName(line)
    case Some(p) =>
      var k: nat, j: nat :| CommentShape(line, k, j, p);
      assert forall m :: 0 <= m < |p| ==> p[m] == line[j + m];
      Some(p)
    case None =>
      if '/' in line && '.' in line && |line| < 100 then Some(line) else None
  }

  /** `get_filename_from_content`. */
  function FileNameFromContent(content: string): (r: Option<string>)
    ensures r.Some? ==> r.value != "" && '\n' !in r.value && ('/' in r.value || '.' in r.value)
  {
    NameFromLine(FirstLine(content))
  }

  /** `strip()` is a no-op on a line that is already stripped. */
  lemma StrippedIsFixed(s: string)
    requires |s| > 0 ==> !IsSpace(s[0]) && !IsSpace(s[|s| - 1])
    ensures Strip(s) == s
  {
  }

  /** A stripped line is its own first line. */
  lemma OneLine(line: string)
    requires '\n' !in line && |line| > 0 && !IsSpace(line[0]) && !IsSpace(line[|line| - 1])
    ensures FirstLine(line) == line
  {
    StrippedIsFixed(line);
    ContainsChar(line, '\n');
  }

  /** Only the first line is read: what follows the first line feed never changes the
      name, as long as the content does not begin or end with whitespace. */
  lemma OnlyFirstLineMatters(a: string, b: string)
    requires '\n' !in a && |a| > 0 && !IsSpace(a[0]) && !IsSpace(a[|a| - 1])
    requires |b| > 0 && !IsSpace(b[|b| - 1])
    ensures FirstLine(a + "\n" + b) == a
    ensures FileNameFromContent(a + "\n" + b) == FileNameFromContent(a)
  {
    var s := a + "\n" + b;
    StrippedIsFixed(s);
    FirstSeparator(a, b, '\n');
    assert SplitOn(s, '\n')[0] == a;
    OneLine(a);
  }

  /** A first line of the comment shape whose path holds a `/` or a `.` is named by
      that path. */
  lemma CommentShapeNamesFile(line: string, k: nat, j: nat, p: string)
    requires |p| > 0 && forall m :: 0 <= m < |p| ==> PathChar(p[m])
    requires CommentShape(line, k, j, p)
    requires '/' in p || '.' in p
    ensures NameFromLine(line) == Some(p)
  {
    CommentPathComplete(line, k, j, p);
  }

  /** A path comment names the block. */
  lemma SlashCommentNamesFile()
    ensures NameFromLine("// src/app.js") == Some("src/app.js")
  {
    SlashCommentPath();
    assert "src/app.js"[3] == '/';
  }

  lemma SlashCommentPath()
    ensures CommentPath("// src/app.js") == Some("src/app.js")
  {
    var line := "// src/app.js";
    SlashCommentSpans();
    assert line[3..13] == "src/app.js";
  }

  /** Where the marker, the spaces and the path of '// src/app.js' end. */
  lemma SlashCommentSpans()
    ensures MarkerLength("// src/app.js") == Some(2)
    ensures SpaceEnd("// src/app.js", 2) == 3
    ensures PathRunEnd("// src/app.js", 3) == 13
  {
    var line := "// src/app.js";
    assert OccursAt(line, Markers[0], 0);
    assert !IsSpace(line[3]);
    assert forall m :: 3 <= m < 13 ==> PathChar(line[m]);
  }

  /** The bare-path fallback also accepts a comment sentence: the marker `//` supplies
      the slash, so a first line such as `// Go on.`, whose first word holds neither a
      slash nor a point, is taken whole as the file name. */
  lemma CommentSentenceTakenAsName()
    ensures NameFromLine("// Go on.") == Some("// Go on.")
  {
    var line := "// Go on.";
    assert MarkerLength(line) == Some(2);
    assert SpaceEnd(line, 2) == 3;
    assert PathRunEnd(line, 3) == 5;
    assert CommentPath(line) == Some(line[3..5]);
    assert line[3..5] == "Go";
    assert '/' !in "Go" && '.' !in "Go";
    assert line[1] == '/' && line[8] == '.';
  }

  // ---------------------------------------------------------------------------
  // main: resolving each block's file name
  // ---------------------------------------------------------------------------

  /** One entry of `indices.json`. */
  datatype IndexItem<K> = IndexItem(index: K, filename: string)

  /** `{item['index']: item['filename'] for item in indices_list}`: a later entry for the
      same index replaces an earlier one. */
  function IndicesMap<K(==, !new)>(items: seq<IndexItem<K>>): (m: map<K, string>)
    ensures forall k :: k in m <==> exists i :: 0 <= i < |items| && items[i].index == k
    decreases |items|
  {
    if |items| == 0 then map[]
    else
      var last := items[|items| - 1];
      var m := IndicesMap(items[..|items| - 1]);
      assert forall i :: 0 <= i < |items| - 1 ==> items[..|items| - 1][i] == items[i];
      m[last.index := last.filename]
  }

  /** An index maps to the file name of its last entry. */
  lemma {:induction false} LastEntryWins<K(!new)>(items: seq<IndexItem<K>>, i: nat)
    requires i < |items|
    requires forall j :: i < j < |items| ==> items[j].index != items[i].index
    ensures items[i].index in IndicesMap(items) && IndicesMap(items)[items[i].index] == items[i].filename
    decreases |items|
  {
    if i < |items| - 1 {
      var front := items[..|items| - 1];
      assert front[i] == items[i];
      assert forall j :: i < j < |front| ==> front[j] == items[j];
      LastEntryWins(front, i);
    }
  }

  /** The index list as loaded: a failure to read or parse `indices.json` leaves the
      fallback empty. */
  function LoadIndices<K(==, !new)>(loaded: Result<seq<IndexItem<K>>, string>): (m: map<K, string>)
    ensures loaded.Err? ==> m == map[]
    ensures loaded.Ok? ==> m == IndicesMap(loaded.value)
  {
    match loaded
    case Ok(items) => IndicesMap(items)
    case Err(_) => map[]
  }

  /** A code block from a batch file: `block.get('index')` and `block.get('content', '')`. */
  datatype Block<K> = Block(index: K, content: Option<string>)

  /** What `main` does with a block: skip it, or write its content under a name. */
  datatype Outcome = Skipped | Written(filename: string, content: string)

  /** The name `main` settles on before cleaning it: the content's own name, else the
      index's name; an empty name counts as none. */
  function ChosenName<K(==, !new)>(b: Block<K>, indices: map<K, string>): (r: Option<string>)
    ensures var own := FileNameFromContent(b.content.GetOr(""));
            own.Some? ==> r == own
    ensures var own := FileNameFromContent(b.content.GetOr(""));
            own.None? ==> (r.Some? <==> b.index in indices && indices[b.index] != "")
                          && (r.Some? ==> r.value == indices[b.index])
  {
    var own := FileNameFromContent(b.content.GetOr(""));
    if own.Some? then own
    else if b.index in indices && indices[b.index] != "" then Some(indices[b.index])
    else None
  }

  /** One block: skipped when no name is found, else written under the name with its
      leading slashes removed. */
  function ResolveBlock<K(==, !new)>(b: Block<K>, indices: map<K, string>): (r: Outcome)
    ensures r.Skipped? <==> ChosenName(b, indices).None?
    ensures r.Written? ==> r.filename == DropLeading(ChosenName(b, indices).value, '/')
                           && r.content == b.content.GetOr("")
    ensures r.Written? && |r.filename| > 0 ==> r.filename[0] != '/'
  {
    match ChosenName(b, indices)
    case None => Skipped
    case Some(name) => Written(DropLeading(name, '/'), b.content.GetOr(""))
  }

  /** `main`'s extraction loop over all blocks, in order. */
  function Extract<K(==, !new)>(blocks: seq<Block<K>>, indices: map<K, string>): (r: seq<Outcome>)
    ensures |r| == |blocks|
    ensures forall i :: 0 <= i < |blocks| ==> r[i] == ResolveBlock(blocks[i], indices)
  {
    seq(|blocks|, i requires 0 <= i < |blocks| => ResolveBlock(blocks[i], indices))
  }

  /** A name found in the content beats the index file, whatever it maps the block's
      index to. */
  lemma ContentNameBeatsIndex<K(!new)>(b: Block<K>, indices: map<K, string>, other: string)
    requires FileNameFromContent(b.content.GetOr("")).Some?
    ensures ResolveBlock(b, indices) == ResolveBlock(b, indices[b.index := other])
    ensures ResolveBlock(b, indices).Written?
  {
  }

  /** An absolute path in a comment is taken as it stands. */
  lemma AbsoluteCommentName()
    ensures NameFromLine("// /a.c") == Some("/a.c")
  {
    var line := "// /a.c";
    assert MarkerLength(line) == Some(2);
    assert SpaceEnd(line, 2) == 3;
    assert PathRunEnd(line, 3) == 7;
    assert CommentPath(line) == Some(line[3..7]);
    assert line[3..7] == "/a.c";
    assert '/' in line[3..7];
  }

  /** The content's own name is chosen for a block with a path comment. */
  lemma AbsoluteNameChosen()
    ensures ChosenName(Block(0, Some("// /a.c")), map[]) == Some("/a.c")
  {
    OneLine("// /a.c");
    AbsoluteCommentName();
  }

  /** An absolute path from a comment is written relative to the working directory. */
  lemma AbsolutePathMadeRelative()
    ensures ResolveBlock(Block(0, Some("// /a.c")), map[]) == Written("a.c", "// /a.c")
  {
    AbsoluteNameChosen();
    assert DropLeading("a.c", '/') == "a.c";
    assert "/a.c"[1..] == "a.c";
  }
}

=== FILE: ocr_engine.dfy ===
/**
 * The receipt endpoint of `ai-engine/app.py`: the preprocessed image's OCR text
 * is searched for an amount (which may be absent) and classified by three
 * keywords; the reply carries a fixed confidence. Image preprocessing and OCR
 * are a parameter.
 */
module OcrEngine {
  import opened Wrappers
  import opened Text
  import opened ReceiptScan
  import ReceiptEngine

  // ---------------------------------------------------------------------------
  // extract_amount
  // ---------------------------------------------------------------------------

  /** `(?:Total|Amount)` at `i`, letters compared without regard to case: the index
      just after the word. */
  function LabelAt(s: string, i: nat): Option<nat>
  {
    if i + 5 <= |s| && Lower(s[i..i + 5]) == "total" then Some(i + 5)
    else if i + 6 <= |s| && Lower(s[i..i + 6]) == "amount" then Some(i + 6)
    else None
  }

  /** `.*?\$?\s*(\d+\.\d{2})` from `p`: the lazy `.*?` skips as few characters as it can,
      but never a line feed; the index of the group. */
  function LazyGroupFrom(s: string, p: nat): (r: Option<nat>)
    ensures r.Some? ==> p <= r.value && AmountAt(s, r.value)
    decreases |s| - p
  {
    if p >= |s| then None
    else match DollarSpaceGroupAt(s, p)
      case Some(g) =>
        PrefixFacts(s, p);
        Some(g)
      case None => if s[p] != '\n' then LazyGroupFrom(s, p + 1) else None
  }

  /** `(?:Total|Amount).*?\$?\s*(\d+\.\d{2})` at `i`: the index of the group. */
  function LabelledAt(s: string, i: nat): (r: Option<nat>)
    ensures r.Some? ==> AmountAt(s, r.value)
  {
    match LabelAt(s, i)
    case Some(p) => LazyGroupFrom(s, p)
    case None => None
  }

  function Labelled(s: string): nat -> Option<nat>
  {
    i => LabelledAt(s, i)
  }

  /** The labelled pattern is never consulted to any effect: whatever it would find is an
      amount, so the first pattern has already matched. */
  lemma LabelledPatternIsDead(s: string)
    ensures FirstMatch(s, 0, Labelled(s)).Some? ==> FirstMatch(s, 0, DollarSpace(s)).Some?
  {
    PrefixKeepsFirstAmount(s);
    var r := FirstMatch(s, 0, Labelled(s));
    if r.Some? {
      assert AmountAt(s, r.value.end);
    }
  }

  /** `extract_amount`: the group of the first pattern's first match (`findall(...)[0]`),
      else of the second's, else `None`. Case-insensitivity changes nothing for `$`,
      digits and whitespace. */
  function ExtractAmount(text: string): (r: Option<real>)
    ensures r.None? <==> FirstAmount(text).None?
    ensures r.Some? ==> r.value == ReceiptEngine.AmountValue(text, FirstAmount(text).value.start)
  {
    PrefixKeepsFirstAmount(text);
    LabelledPatternIsDead(text);
    match FirstMatch(text, 0, DollarSpace(text))
    case Some(m) => Some(ReceiptEngine.AmountValue(text, m.end))
    case None =>
      match FirstMatch(text, 0, Labelled(text))
      case Some(m) => assert false; None
      case None => None
  }

  /** The two engines read the same amount; where there is none, this one answers `None`
      and the other 0.0. */
  lemma EnginesAgreeOnAmount(text: string)
    ensures ExtractAmount(text).Some? ==> ExtractAmount(text).value == ReceiptEngine.ExtractAmount(text)
    ensures ExtractAmount(text).None? ==> ReceiptEngine.ExtractAmount(text) == 0.0
  {
  }

  // ---------------------------------------------------------------------------
  // predict_category
  // ---------------------------------------------------------------------------

  /** `predict_category`: the keywords are tried in the dictionary's order, grocery,
      restaurant, gas, on the lower-cased text. */
  function PredictCategory(text: string): (r: string)
    ensures r in {"groceries", "dining", "transportation", "other"}
    ensures r == "groceries" <==> Contains(Lower(text), "grocery")
    ensures r == "dining" <==> !Contains(Lower(text), "grocery") && Contains(Lower(text), "restaurant")
    ensures r == "transportation" <==> !Contains(Lower(text), "grocery") && !Contains(Lower(text), "restaurant")
                                       && Contains(Lower(text), "gas")
  {
    var t := Lower(text);
    if Contains(t, "grocery") then "groceries"
    else if Contains(t, "restaurant") then "dining"
    else if Contains(t, "gas") then "transportation"
    else "other"
  }

  /** Classification ignores case. */
  lemma CategoryIgnoresCase(text: string)
    ensures PredictCategory(Lower(text)) == PredictCategory(text)
  {
    ReceiptEngine.LowerIdempotent(text);
  }

  /** The two engines know different keywords: a fuel receipt is transportation to one
      and other to this one. */
  lemma EnginesDisagreeOnFuel()
    ensures ReceiptEngine.PredictCategory("fuel") == "Transportation"
    ensures PredictCategory("fuel") == "other"
  {
    assert Lower("fuel") == "fuel";
    AbsentChar("fuel", "gas", 0);
    AbsentChar("fuel", "grocery", 0);
    AbsentChar("fuel", "restaurant", 0);
    AbsentChar("fuel", "supermarket", 0);
    assert OccursAt("fuel", "fuel", 0);
    assert Contains("fuel", ReceiptEngine.TransportWords[1]);
  }

  /** Where they agree, the two engines still spell the category differently. */
  lemma EnginesSpellCategoriesDifferently()
    ensures ReceiptEngine.PredictCategory("gas") == "Transportation"
    ensures PredictCategory("gas") == "transportation"
  {
    assert Lower("gas") == "gas";
    AbsentChar("gas", "restaurant", 0);
    AbsentChar("gas", "food", 0);
    assert OccursAt("gas", "gas", 0);
    assert Contains("gas", ReceiptEngine.TransportWords[0]);
  }

  // ---------------------------------------------------------------------------
  // extract_receipt
  // ---------------------------------------------------------------------------

  const Confidence: real := 0.7

  /** The `OCRResult` reply model; `data` holds the amount and the category. */
  datatype OcrResult = OcrResult(success: bool, amount: Option<real>, category: string,
                                 confidence: real, requiresConfirmation: bool)

  /** `extract_receipt`: `ocr` is the recognised text, or the message of the exception
      reading, preprocessing or recognising the upload raised. Nothing is caught, so an
      exception surfaces as the framework's 500. */
  function ExtractReceipt(ocr: Result<string, string>): (r: Result<OcrResult, int>)
    ensures r.Ok? <==> ocr.Ok?
    ensures r.Err? ==> r.error == 500
    ensures r.Ok? ==> r.value.success && r.value.requiresConfirmation && r.value.confidence == Confidence
    ensures r.Ok? ==> (r.value.amount.None? <==> FirstAmount(ocr.value).None?)
                      && r.value.category in {"groceries", "dining", "transportation", "other"}
    ensures r.Ok? ==> r.value.amount == ExtractAmount(ocr.value) && r.value.category == PredictCategory(ocr.value)
  {
    match ocr
    case Err(_) => Err(500)
    case Ok(text) => Ok(OcrResult(true, ExtractAmount(text), PredictCategory(text), Confidence, true))
  }
}

=== FILE: ordering.dfy ===
/**
 * The row order the queries ask the database for: descending by a date and then
 * by a secondary integer. Sorting is insertion sort on sequences, proved to
 * produce a permutation of its input in that order.
 */
module Ordering {
  import opened Calendar

  /** The sort key of a row: its date, then a tie-breaker (a creation time, or 0). */
  datatype Rank = Rank(date: Date, minor: int)

  /** `a` may come before `b` in a descending listing. */
  predicate RankGe(a: Rank, b: Rank)
  {
    Before(b.date, a.date) || (a.date == b.date && a.minor >= b.minor)
  }

  ghost predicate SortedDesc<T>(s: seq<T>, key: T -> Rank)
  {
    forall i, j :: 0 <= i < j < |s| ==> RankGe(key(s[i]), key(s[j]))
  }

  function Insert<T>(x: T, s: seq<T>, key: T -> Rank): (r: seq<T>)
    requires SortedDesc(s, key)
    ensures SortedDesc(r, key)
    ensures multiset(r) == multiset(s) + multiset{x}
    ensures forall e :: e in r ==> e == x || e in s
  {
    if |s| == 0 then [x]
    else if RankGe(key(x), key(s[0])) then [x] + s
    else
      var t := Insert(x, s[1..], key);
      assert s == [s[0]] + s[1..];
      assert forall e :: e in t ==> RankGe(key(s[0]), key(e));
      [s[0]] + t
  }

  /** The rows in descending order of `key`. */
  function SortDesc<T(!new)>(s: seq<T>, key: T -> Rank): (r: seq<T>)
    ensures SortedDesc(r, key)
    ensures multiset(r) == multiset(s)
    ensures |r| == |s|
    ensures forall x :: x in r <==> x in s
  {
    if |s| == 0 then []
    else
      var init, last := s[..|s| - 1], s[|s| - 1];
      assert s == init + [last];
      assert multiset(s) == multiset(init) + multiset{last};
      var r := Insert(last, SortDesc(init, key), key);
      assert forall x :: x in r <==> x in multiset(r);
      r
  }

  /** `s[from..from + count]` with both ends clamped to the sequence, as SQL `OFFSET`/`LIMIT` do. */
  function Window<T(!new)>(s: seq<T>, from: nat, count: nat): (r: seq<T>)
    ensures |r| <= count
    ensures forall x :: x in r ==> x in s
    ensures from <= |s| ==> |r| == (if |s| - from < count then |s| - from else count)
    ensures forall i :: 0 <= i < |r| ==> from + i < |s| && r[i] == s[from + i]
  {
    if from >= |s| then []
    else if from + count >= |s| then s[from..]
    else s[from..from + count]
  }

  /** A contiguous part of a sorted sequence is sorted. */
  lemma WindowOfSorted<T(!new)>(s: seq<T>, key: T -> Rank, from: nat, count: nat)
    requires SortedDesc(s, key)
    ensures SortedDesc(Window(s, from, count), key)
  {
    var w := Window(s, from, count);
    forall i, j | 0 <= i < j < |w| ensures RankGe(key(w[i]), key(w[j])) {
      assert w[i] == s[from + i] && w[j] == s[from + j];
    }
  }

  /** In a sorted sequence, everything in one window ranks at least as high as everything
      in the window that follows it. */
  lemma NextWindowRanksLower<T(!new)>(s: seq<T>, key: T -> Rank, from: nat, count: nat)
    requires SortedDesc(s, key)
    ensures forall x, y :: x in Window(s, from, count) && y in Window(s, from + count, count) ==>
              RankGe(key(x), key(y))
  {
    var a, b := Window(s, from, count), Window(s, from + count, count);
    forall x, y | x in a && y in b ensures RankGe(key(x), key(y)) {
      var i :| 0 <= i < |a| && a[i] == x;
      var j :| 0 <= j < |b| && b[j] == y;
      assert a[i] == s[from + i] && b[j] == s[from + count + j];
    }
  }

  /** Every element lies in one of the windows of `count` elements that start at the
      multiples of `count`: the element at place `k` in window `k / count`. */
  lemma InSomeWindow<T(!new)>(s: seq<T>, count: nat, x: T) returns (m: nat)
    requires count >= 1 && x in s
    ensures x in Window(s, m * count, count)
  {
    var k :| 0 <= k < |s| && s[k] == x;
    m := k / count;
    var from := m * count;
    assert k == from + k % count;
    var w := Window(s, from, count);
    assert w[k - from] == s[k];
  }

  /** The elements of `s` that satisfy `keep`, in their original order (a SQL `WHERE`). */
  function Filter<T(!new)>(s: seq<T>, keep: T -> bool): (r: seq<T>)
    ensures |r| <= |s|
    ensures forall x :: x in r <==> x in s && keep(x)
    ensures multiset(r) <= multiset(s)
  {
    if |s| == 0 then []
    else
      var rest := Filter(s[1..], keep);
      assert s == [s[0]] + s[1..];
      if keep(s[0]) then [s[0]] + rest else rest
  }
}

=== FILE: receipt_engine.dfy ===
/**
 * The receipt endpoint of `ai_engine/app.py`: the OCR text of an uploaded image
 * is searched for an amount, a date and a merchant, and classified by
 * keywords. Image decoding and OCR are a parameter (the text, or the exception
 * they raise).
 */
module ReceiptEngine {
  import opened Wrappers
  import opened Text
  import opened ReceiptScan
  import Calendar

  // ---------------------------------------------------------------------------
  // extract_amount
  // ---------------------------------------------------------------------------

  /** `(\d+\.\d{2})\s*(?:USD|BDT|EUR)` at `i`: the amount must be followed, after
      optional whitespace, by one of the three currency codes. */
  function CurrencyAt(s: string, i: nat): Option<nat>
  {
    if !AmountAt(s, i) then None
    else
      var j := SpaceEnd(s, AmountEnd(s, i));
      if OccursAt(s, "USD", j) || OccursAt(s, "BDT", j) || OccursAt(s, "EUR", j) then Some(j + 3) else None
  }

  function Currency(s: string): nat -> Option<nat>
  {
    i => CurrencyAt(s, i)
  }

  /** The second pattern is never consulted to any effect: wherever it matches, an
      amount starts, so the first pattern has already matched. */
  lemma CurrencyPatternIsDead(s: string)
    ensures FirstMatch(s, 0, Currency(s)).Some? ==> FirstMatch(s, 0, Dollar(s)).Some?
  {
    PrefixKeepsFirstAmount(s);
    var r := FirstMatch(s, 0, Currency(s));
    if r.Some? {
      assert AmountAt(s, r.value.start);
    }
  }

  /** The number `float()` reads from the matched group, as an exact decimal. */
  function AmountValue(s: string, g: nat): (v: real)
    requires AmountAt(s, g)
    ensures v >= 0.0
  {
    (AmountCents(s, g) as real) / 100.0
  }

  /** `extract_amount`: the first pattern's group, else the second's, else 0.0. */
  function ExtractAmount(text: string): (r: real)
    ensures r >= 0.0
    ensures FirstAmount(text).None? ==> r == 0.0
    ensures FirstAmount(text).Some? ==> r == AmountValue(text, FirstAmount(text).value.start)
  {
    PrefixKeepsFirstAmount(text);
    CurrencyPatternIsDead(text);
    match FirstMatch(text, 0, Dollar(text))
    case Some(m) => AmountValue(text, m.end)
    case None =>
      match FirstMatch(text, 0, Currency(text))
      case Some(m) => assert false; 0.0
      case None => 0.0
  }

  // ---------------------------------------------------------------------------
  // extract_date
  // ---------------------------------------------------------------------------

  ghost predicate HasDayFirst(s: string) { exists i, e :: DayFirstDateAt(s, i, e) }

  ghost predicate HasYearFirst(s: string) { exists i, e :: YearFirstDateAt(s, i, e) }

  /** A day-first date spans `s[i..e]` and none starts further left. */
  ghost predicate LeftmostDayFirst(s: string, i: nat, e: nat)
  {
    DayFirstDateAt(s, i, e) && forall j, e' :: 0 <= j < i ==> !DayFirstDateAt(s, j, e')
  }

  /** A year-first date spans `s[i..e]`, none starts further left, and none starting at
      `i` runs past `e`: the one- or two-digit day is read greedily. */
  ghost predicate LeftmostYearFirst(s: string, i: nat, e: nat)
  {
    && YearFirstDateAt(s, i, e)
    && (forall j, e' :: 0 <= j < i ==> !YearFirstDateAt(s, j, e'))
    && (forall e': nat :: YearFirstDateAt(s, i, e') ==> e' <= e)
  }

  /** The search for day-first dates finds the leftmost one, and finds none only when
      there is none. */
  lemma DayFirstSearch(s: string)
    ensures FirstMatch(s, 0, DayFirst(s)).None? <==> !HasDayFirst(s)
    ensures FirstMatch(s, 0, DayFirst(s)).Some? ==>
              var m := FirstMatch(s, 0, DayFirst(s)).value;
              LeftmostDayFirst(s, m.start, m.end)
  {
    var r := FirstMatch(s, 0, DayFirst(s));
    if r.Some? {
      var m := r.value;
      DayFirstMatcher(s, m.start);
      forall j: nat, e: nat | j < m.start
        ensures !DayFirstDateAt(s, j, e)
      {
        assert DayFirst(s)(j).None?;
        DayFirstMatcher(s, j);
      }
    } else {
      forall i: nat, e: nat
        ensures !DayFirstDateAt(s, i, e)
      {
        DayFirstMatcher(s, i);
        if i < |s| {
          assert DayFirst(s)(i).None?;
        }
      }
    }
  }

  lemma YearFirstSearch(s: string)
    ensures FirstMatch(s, 0, YearFirst(s)).None? <==> !HasYearFirst(s)
    ensures FirstMatch(s, 0, YearFirst(s)).Some? ==>
              var m := FirstMatch(s, 0, YearFirst(s)).value;
              LeftmostYearFirst(s, m.start, m.end)
  {
    var r := FirstMatch(s, 0, YearFirst(s));
    if r.Some? {
      var m := r.value;
      YearFirstMatcher(s, m.start);
      forall j: nat, e: nat | j < m.start
        ensures !YearFirstDateAt(s, j, e)
      {
        assert YearFirst(s)(j).None?;
        YearFirstMatcher(s, j);
      }
    } else {
      forall i: nat, e: nat
        ensures !YearFirstDateAt(s, i, e)
      {
        YearFirstMatcher(s, i);
        if i < |s| {
          assert YearFirst(s)(i).None?;
        }
      }
    }
  }

  /** `extract_date`: the leftmost day-first date, else the leftmost year-first date,
      verbatim; else today's date, `today` standing for `datetime.now()`. */
  function ExtractDate(text: string, today: Calendar.Date): (r: string)
    requires Calendar.Valid(today) && today.year >= 1
    ensures HasDayFirst(text) ==> exists i: nat, e: nat :: LeftmostDayFirst(text, i, e) && r == text[i..e]
    ensures !HasDayFirst(text) && HasYearFirst(text) ==>
              exists i: nat, e: nat :: LeftmostYearFirst(text, i, e) && r == text[i..e]
    ensures !HasDayFirst(text) && !HasYearFirst(text) ==> r == Calendar.IsoDate(today)
  {
    DayFirstSearch(text);
    YearFirstSearch(text);
    match FirstMatch(text, 0, DayFirst(text))
    case Some(m) => text[m.start..m.end]
    case None =>
      match FirstMatch(text, 0, YearFirst(text))
      case Some(m) => text[m.start..m.end]
      case None => Calendar.IsoDate(today)
  }

  /** A one-digit month with a two-digit day is taken whole: "2020-1-15", not "2020-1-1". */
  lemma GreedyDayTaken(today: Calendar.Date)
    requires Calendar.Valid(today) && today.year >= 1
    ensures LeftmostYearFirst("2020-1-15", 0, 9)
    ensures !LeftmostYearFirst("2020-1-15", 0, 8)
    ensures ExtractDate("2020-1-15", today) == "2020-1-15"
  {
    var t := "2020-1-15";
    assert YearFirstWith(t[0..9], 1, 2);
    forall i: nat, e: nat ensures !DayFirstDateAt(t, i, e) {
      DayFirstMatcher(t, i);
      if i < 2 {
        assert !DigitsAt(t, i + 4, 4);
      }
    }
    assert !HasDayFirst(t);
  }

  /** Whatever `extract_date` takes from the text has one of the two date shapes; its
      fields are not checked as a calendar date. */
  lemma DateFromTextHasDateShape(text: string, today: Calendar.Date)
    requires Calendar.Valid(today) && today.year >= 1
    requires HasDayFirst(text) || HasYearFirst(text)
    ensures DayFirstShape(ExtractDate(text, today)) || YearFirstShape(ExtractDate(text, today))
  {
  }

  /** Today's date as the fallback writes it has the year-first shape, so whatever
      `extract_date` returns has one of the two date shapes. */
  lemma ExtractDateAlwaysHasDateShape(text: string, today: Calendar.Date)
    requires Calendar.Valid(today) && 1 <= today.year < 10000
    ensures YearFirstShape(Calendar.IsoDate(today))
    ensures DayFirstShape(ExtractDate(text, today)) || YearFirstShape(ExtractDate(text, today))
  {
    var s := Calendar.IsoDate(today);
    assert YearFirstWith(s, 2, 2);
  }

  /** A day-first date anywhere in the text wins, even over a year-first date further
      left, and it is the leftmost day-first date that is returned. */
  lemma DayFirstWins(text: string, today: Calendar.Date, i: nat, e: nat)
    requires Calendar.Valid(today) && today.year >= 1
    requires DayFirstDateAt(text, i, e)
    ensures DayFirstShape(ExtractDate(text, today))
    ensures exists k: nat, f: nat :: k <= i && DayFirstDateAt(text, k, f) && ExtractDate(text, today) == text[k..f]
  {
    var r := ExtractDate(text, today);
    var k: nat, f: nat :| LeftmostDayFirst(text, k, f) && r == text[k..f];
    assert k <= i;
  }

  // ---------------------------------------------------------------------------
  // extract_merchant
  // ---------------------------------------------------------------------------

  /** The index of the first string at or after `from` that is not empty. */
  function FirstNonEmpty(ts: seq<string>, from: nat): (r: Option<nat>)
    ensures r.Some? ==> from <= r.value < |ts| && ts[r.value] != ""
                        && forall m :: from <= m < r.value ==> ts[m] == ""
    ensures r.None? ==> forall m :: from <= m < |ts| ==> ts[m] == ""
    decreases |ts| - from
  {
    if from >= |ts| then None
    else if ts[from] != "" then Some(from)
    else FirstNonEmpty(ts, from + 1)
  }

  /** Every line stripped, in order. */
  function StripAll(lines: seq<string>): (r: seq<string>)
    ensures |r| == |lines|
  {
    seq(|lines|, j requires 0 <= j < |lines| => Strip(lines[j]))
  }

  /** `extract_merchant`: the first line that is not blank, stripped; "Unknown" when
      every line is blank. The merchant is one line of the text, never empty, with no
      whitespace at either end. */
  function ExtractMerchant(text: string): (r: string)
    ensures var lines := SplitOn(text, '\n');
            (forall j :: 0 <= j < |lines| ==> Strip(lines[j]) == "") ==> r == "Unknown"
    ensures var lines := SplitOn(text, '\n');
            (exists j :: 0 <= j < |lines| && Strip(lines[j]) != "") ==>
              exists j :: 0 <= j < |lines| && r == Strip(lines[j]) && r != ""
                          && forall m :: 0 <= m < j ==> Strip(lines[m]) == ""
    ensures '\n' !in r
    ensures |r| > 0 && !IsSpace(r[0]) && !IsSpace(r[|r| - 1])
  {
    var lines := SplitOn(text, '\n');
    var stripped := StripAll(lines);
    assert forall j :: 0 <= j < |lines| ==> stripped[j] == Strip(lines[j]);
    match FirstNonEmpty(stripped, 0)
    case Some(j) =>
      assert Strip(lines[j]) != "";
      StripKeepsOut(lines[j], '\n');
      Strip(lines[j])
    case None => "Unknown"
  }

  // ---------------------------------------------------------------------------
  // predict_category
  // ---------------------------------------------------------------------------

  const GroceryWords: seq<string> := ["grocery", "supermarket", "food"]
  const TransportWords: seq<string> := ["gas", "fuel", "transport"]
  const DiningWords: seq<string> := ["restaurant", "cafe", "dining"]

  /** `any(word in text for word in words)`. */
  predicate AnyIn(text: string, words: seq<string>)
  {
    exists k :: 0 <= k < |words| && Contains(text, words[k])
  }

  /** `predict_category`: the first of the three keyword groups found in the lower-cased
      text decides; groceries before transportation before dining. */
  function PredictCategory(text: string): (r: string)
    ensures r in {"Groceries", "Transportation", "Dining Out", "Other"}
    ensures r == "Groceries" <==> AnyIn(Lower(text), GroceryWords)
    ensures r == "Transportation" <==> !AnyIn(Lower(text), GroceryWords) && AnyIn(Lower(text), TransportWords)
    ensures r == "Dining Out" <==> !AnyIn(Lower(text), GroceryWords) && !AnyIn(Lower(text), TransportWords)
                                   && AnyIn(Lower(text), DiningWords)
  {
    var t := Lower(text);
    if AnyIn(t, GroceryWords) then "Groceries"
    else if AnyIn(t, TransportWords) then "Transportation"
    else if AnyIn(t, DiningWords) then "Dining Out"
    else "Other"
  }

  lemma LowerIdempotent(s: string)
    ensures Lower(Lower(s)) == Lower(s)
  {
  }

  /** Classification ignores case. */
  lemma CategoryIgnoresCase(text: string)
    ensures PredictCategory(Lower(text)) == PredictCategory(text)
  {
    LowerIdempotent(text);
  }

  /** A supermarket receipt that also sells fuel is filed under groceries. */
  lemma GroceriesComeFirst()
    ensures PredictCategory("SUPERMARKET FUEL") == "Groceries"
  {
    var t := Lower("SUPERMARKET FUEL");
    assert t == "supermarket fuel";
    assert OccursAt(t, "supermarket", 0);
    assert Contains(t, GroceryWords[1]);
  }

  // ---------------------------------------------------------------------------
  // extract_receipt
  // ---------------------------------------------------------------------------

  datatype Extracted = Extracted(amount: real, date: string, merchant: string, category: string, rawText: string)

  datatype Reply = Reply(success: bool, data: Extracted, requiresConfirmation: bool)

  /** The `HTTPException` raised when reading or recognising the image fails. */
  datatype HttpError = HttpError(statusCode: int, detail: string)

  /** `extract_receipt`: `ocr` is the recognised text, or the message of the exception
      that opening or recognising the upload raised. */
  function ExtractReceipt(ocr: Result<string, string>, today: Calendar.Date): (r: Result<Reply, HttpError>)
    requires Calendar.Valid(today) && today.year >= 1
    ensures r.Ok? <==> ocr.Ok?
    ensures r.Err? ==> r.error == HttpError(500, ocr.error)
    ensures r.Ok? ==> r.value.success && r.value.requiresConfirmation && r.value.data.rawText == ocr.value
    ensures r.Ok? ==> var d := r.value.data;
              d.amount == ExtractAmount(ocr.value) && d.date == ExtractDate(ocr.value, today)
              && d.merchant == ExtractMerchant(ocr.value) && d.category == PredictCategory(ocr.value)
  {
    match ocr
    case Err(message) => Err(HttpError(500, message))
    case Ok(text) =>
      Ok(Reply(true, Extracted(ExtractAmount(text), ExtractDate(text, today), ExtractMerchant(text),
                               PredictCategory(text), text), true))
  }

  /** A reply's amount is 0.0 both for a receipt without an amount and for one whose first
      amount reads 0.00: the caller cannot tell the two apart. */
  lemma ZeroAmountIsAmbiguous()
    ensures ExtractAmount("no total") == 0.0
    ensures ExtractAmount("0.00") == 0.0
    ensures FirstAmount("0.00").Some? && FirstAmount("no total").None?
  {
    var s := "0.00";
    assert RunEnd(s, 0) == 1;
    assert AmountAt(s, 0);
    assert DigitsValue(s[0..1]) == 0;
    forall i | 0 <= i < |"no total"| ensures !AmountAt("no total", i) {
    }
  }
}

=== FILE: receipt_scan.dfy ===
/**
 * The regular expressions the receipt parsers search OCR text with, written
 * out as matchers: each `...At(s, i)` says whether the pattern matches at
 * index `i` (as Python's backtracking engine tries it) and where the match or
 * its group lies; `FirstMatch` is the leftmost-match search of `re.search`.
 * `\d` is an ASCII digit and `\s` a character `Text.IsSpace` accepts.
 */
module ReceiptScan {
  import opened Wrappers
  import opened Text

  /** A match: where it (or the group of interest) starts, and where it ends. */
  datatype Span = Span(start: nat, end: nat)

  /** The leftmost index at or after `from` where `at` reports a match. */
  function FirstMatch(s: string, from: nat, at: nat -> Option<nat>): (r: Option<Span>)
    ensures r.Some? ==> from <= r.value.start < |s| && at(r.value.start) == Some(r.value.end)
    ensures r.Some? ==> forall i :: from <= i < r.value.start ==> at(i).None?
    ensures r.None? ==> forall i :: from <= i < |s| ==> at(i).None?
    decreases |s| - from
  {
    if from >= |s| then None
    else match at(from)
      case Some(e) => Some(Span(from, e))
      case None => FirstMatch(s, from + 1, at)
  }

  /** Two searches that agree on every index from `from` on find the same match. */
  lemma {:induction false} FirstMatchAgrees(s: string, from: nat, f: nat -> Option<nat>, g: nat -> Option<nat>)
    requires forall i :: from <= i < |s| ==> f(i) == g(i)
    ensures FirstMatch(s, from, f) == FirstMatch(s, from, g)
    decreases |s| - from
  {
    if from < |s| {
      FirstMatchAgrees(s, from + 1, f, g);
    }
  }

  /** Indexes where nothing matches are passed over. */
  lemma {:induction false} FirstMatchSkips(s: string, from: nat, to: nat, at: nat -> Option<nat>)
    requires from <= to <= |s|
    requires forall i :: from <= i < to ==> at(i).None?
    ensures FirstMatch(s, from, at) == FirstMatch(s, to, at)
    decreases (to as int) - (from as int)
  {
    if from < to {
      FirstMatchSkips(s, from + 1, to, at);
    }
  }

  // ---------------------------------------------------------------------------
  // Digit runs and the amount `\d+\.\d{2}`
  // ---------------------------------------------------------------------------

  /** `n` digits start at `i`. */
  predicate DigitsAt(s: string, i: nat, n: nat)
  {
    i + n <= |s| && forall m :: i <= m < i + n ==> IsDigit(s[m])
  }

  /** The end of the run of digits starting at `i` (`\d+` taken greedily). */
  function RunEnd(s: string, i: nat): (j: nat)
    requires i <= |s|
    ensures i <= j <= |s|
    ensures forall m :: i <= m < j ==> IsDigit(s[m])
    ensures j == |s| || !IsDigit(s[j])
    decreases |s| - i
  {
    if i < |s| && IsDigit(s[i]) then RunEnd(s, i + 1) else i
  }

  /** The regular expression's own reading of `\d+\.\d{2}` at `i`, with `\d+` covering
      `s[i..k]`. */
  predicate AmountWith(s: string, i: nat, k: nat)
  {
    i < k && DigitsAt(s, i, k - i) && k + 3 <= |s| && s[k] == '.' && IsDigit(s[k + 1]) && IsDigit(s[k + 2])
  }

  /** `\d+\.\d{2}` matches at `i`: the run of digits from `i` is followed by a point and
      two digits. */
  predicate AmountAt(s: string, i: nat)
  {
    i < |s| && IsDigit(s[i])
    && var k := RunEnd(s, i);
       k + 3 <= |s| && s[k] == '.' && IsDigit(s[k + 1]) && IsDigit(s[k + 2])
  }

  /** The integer part a match can take is forced: `\d+` must stop where the digits stop,
      since a point has to follow. So the regular expression matches at `i` exactly when
      `AmountAt` holds, and only with the whole run. */
  lemma AmountWithIsAmountAt(s: string, i: nat, k: nat)
    requires i <= |s|
    ensures AmountWith(s, i, k) <==> AmountAt(s, i) && k == RunEnd(s, i)
  {
    if AmountWith(s, i, k) {
      RunEndOfDigits(s, i, k);
    }
  }

  /** A run of digits that stops at `k` is the run `RunEnd` finds. */
  lemma {:induction false} RunEndOfDigits(s: string, i: nat, k: nat)
    requires i <= k <= |s| && DigitsAt(s, i, k - i)
    requires k == |s| || !IsDigit(s[k])
    ensures RunEnd(s, i) == k
    decreases k - i
  {
    if i < k {
      RunEndOfDigits(s, i + 1, k);
    }
  }

  /** The matched amount, in cents. */
  function AmountCents(s: string, i: nat): nat
    requires AmountAt(s, i)
  {
    var k := RunEnd(s, i);
    DigitsValue(s[i..k]) * 100 + DigitValue(s[k + 1]) * 10 + DigitValue(s[k + 2])
  }

  /** The matched text `s[i..k+3]`. */
  function AmountText(s: string, i: nat): (t: string)
    requires AmountAt(s, i)
    ensures |t| >= 4 && t[|t| - 3] == '.'
  {
    s[i..RunEnd(s, i) + 3]
  }

  function AmountEnd(s: string, i: nat): nat
  {
    if AmountAt(s, i) then RunEnd(s, i) + 3 else 0
  }

  /** `\d+\.\d{2}` as a search matcher (the match starts where the group starts). */
  function PlainAmount(s: string): nat -> Option<nat>
  {
    i => if AmountAt(s, i) then Some(AmountEnd(s, i)) else None
  }

  /** The leftmost amount in `s`. */
  function FirstAmount(s: string): (r: Option<Span>)
    ensures r.Some? ==> AmountAt(s, r.value.start) && forall i :: 0 <= i < r.value.start ==> !AmountAt(s, i)
    ensures r.None? <==> forall i :: 0 <= i < |s| ==> !AmountAt(s, i)
  {
    var r := FirstMatch(s, 0, PlainAmount(s));
    assert forall i :: PlainAmount(s)(i).None? <==> !AmountAt(s, i);
    if r.None? then r
    else
      assert PlainAmount(s)(r.value.start).Some?;
      r
  }

  // ---------------------------------------------------------------------------
  // Optional prefixes before the amount group
  // ---------------------------------------------------------------------------

  /** `\$?(\d+\.\d{2})` at `i`: the index of the group. The engine first tries to take
      the dollar sign; without it the group would have to start on the `$` itself. */
  function DollarGroupAt(s: string, i: nat): Option<nat>
  {
    if i < |s| && s[i] == '$' && AmountAt(s, i + 1) then Some(i + 1)
    else if AmountAt(s, i) then Some(i)
    else None
  }

  /** `\$?\s*(\d+\.\d{2})` at `i`: the index of the group. Fewer spaces than the greedy
      `\s*` takes would leave a space where the first digit must be. */
  function DollarSpaceGroupAt(s: string, i: nat): Option<nat>
  {
    if i >= |s| then None
    else
      var j := if s[i] == '$' then SpaceEnd(s, i + 1) else SpaceEnd(s, i);
      if AmountAt(s, j) then Some(j) else None
  }

  /** Both prefixed patterns, as search matchers reporting the group's start. */
  function Dollar(s: string): nat -> Option<nat>
  {
    i => DollarGroupAt(s, i)
  }

  function DollarSpace(s: string): nat -> Option<nat>
  {
    i => DollarSpaceGroupAt(s, i)
  }

  lemma SpaceIsNoDigit(c: char)
    ensures IsSpace(c) ==> !IsDigit(c)
  {
  }

  /** Where the group of either prefixed pattern lies, and what a prefix may hold. */
  lemma PrefixFacts(s: string, i: nat)
    ensures DollarGroupAt(s, i).Some? ==>
              var g := DollarGroupAt(s, i).value;
              i <= g && AmountAt(s, g) && forall m :: i <= m < g ==> !IsDigit(s[m])
    ensures DollarSpaceGroupAt(s, i).Some? ==>
              var g := DollarSpaceGroupAt(s, i).value;
              i <= g && AmountAt(s, g) && forall m :: i <= m < g ==> !IsDigit(s[m])
    ensures AmountAt(s, i) ==> DollarGroupAt(s, i) == Some(i) && DollarSpaceGroupAt(s, i) == Some(i)
  {
    if AmountAt(s, i) {
      assert SpaceEnd(s, i) == i;
    }
    forall c: char ensures IsSpace(c) ==> !IsDigit(c) {
      SpaceIsNoDigit(c);
    }
  }

  /** The leftmost amount at or after `from`. */
  lemma {:induction false} GroupSearchFindsFirstAmount(s: string, from: nat, at: nat -> Option<nat>)
    requires forall i :: at(i) == DollarGroupAt(s, i) || at(i) == DollarSpaceGroupAt(s, i)
    requires forall i :: 0 <= i < from ==> !AmountAt(s, i)
    ensures FirstMatch(s, from, at).Some? <==> FirstAmount(s).Some?
    ensures FirstMatch(s, from, at).Some? ==> at(FirstMatch(s, from, at).value.start).value == FirstAmount(s).value.start
    decreases |s| - from
  {
    if from >= |s| {
      assert forall i :: 0 <= i < |s| ==> !AmountAt(s, i);
    } else {
      PrefixFacts(s, from);
      match at(from)
      case Some(g) =>
        assert AmountAt(s, g) && forall m :: from <= m < g ==> !IsDigit(s[m]);
        assert forall m :: 0 <= m < g ==> !AmountAt(s, m);
        assert FirstAmount(s).Some?;
      case None =>
        assert !AmountAt(s, from);
        GroupSearchFindsFirstAmount(s, from + 1, at);
    }
  }

  /** The `$` in front of the amount never moves the group: the leftmost match of
      `\$?(\d+\.\d{2})`, and of `\$?\s*(\d+\.\d{2})`, has its group at the leftmost
      `\d+\.\d{2}`; and neither matches where there is no amount. */
  lemma PrefixKeepsFirstAmount(s: string)
    ensures (FirstMatch(s, 0, Dollar(s)).Some? <==> FirstAmount(s).Some?)
            && (FirstMatch(s, 0, DollarSpace(s)).Some? <==> FirstAmount(s).Some?)
    ensures FirstMatch(s, 0, Dollar(s)).Some? ==>
              FirstMatch(s, 0, Dollar(s)).value.end == FirstAmount(s).value.start
    ensures FirstMatch(s, 0, DollarSpace(s)).Some? ==>
              FirstMatch(s, 0, DollarSpace(s)).value.end == FirstAmount(s).value.start
  {
    GroupSearchFindsFirstAmount(s, 0, Dollar(s));
    GroupSearchFindsFirstAmount(s, 0, DollarSpace(s));
  }

  // ---------------------------------------------------------------------------
  // Dates
  // ---------------------------------------------------------------------------

  predicate SepAt(s: string, i: nat)
  {
    i < |s| && (s[i] == '/' || s[i] == '-')
  }

  /** `\d{1,2}[/-]\d{1,2}[/-]\d{4}` after the first separator (at `j`): the engine tries
      two digits before one. */
  function DayMonthTail(s: string, j: nat): Option<nat>
  {
    if DigitsAt(s, j, 2) && SepAt(s, j + 2) && DigitsAt(s, j + 3, 4) then Some(j + 7)
    else if DigitsAt(s, j, 1) && SepAt(s, j + 1) && DigitsAt(s, j + 2, 4) then Some(j + 6)
    else None
  }

  /** `\d{1,2}[/-]\d{1,2}[/-]\d{4}` at `i`: the end of the match. */
  function DmyAt(s: string, i: nat): (r: Option<nat>)
    ensures r.Some? ==> i + 8 <= r.value <= i + 10 && r.value <= |s| && DigitsAt(s, r.value - 4, 4)
  {
    var two := if DigitsAt(s, i, 2) && SepAt(s, i + 2) then DayMonthTail(s, i + 3) else None;
    if two.Some? then two
    else if DigitsAt(s, i, 1) && SepAt(s, i + 1) then DayMonthTail(s, i + 2)
    else None
  }

  /** `\d{1,2}` then `[/-]` then `\d{1,2}` (each tried with two digits first), as the
      end of a `\d{4}[/-]\d{1,2}[/-]\d{1,2}` match whose year ends at `j`. */
  function MonthDayTail(s: string, j: nat): Option<nat>
  {
    if DigitsAt(s, j, 2) && SepAt(s, j + 2) then
      (if DigitsAt(s, j + 3, 2) then Some(j + 5) else if DigitsAt(s, j + 3, 1) then Some(j + 4) else None)
    else if DigitsAt(s, j, 1) && SepAt(s, j + 1) then
      (if DigitsAt(s, j + 2, 2) then Some(j + 4) else if DigitsAt(s, j + 2, 1) then Some(j + 3) else None)
    else None
  }

  /** `\d{4}[/-]\d{1,2}[/-]\d{1,2}` at `i`: the end of the match. */
  function YmdAt(s: string, i: nat): (r: Option<nat>)
    ensures r.Some? ==> i + 8 <= r.value <= i + 10 && r.value <= |s| && DigitsAt(s, i, 4)
  {
    if DigitsAt(s, i, 4) && SepAt(s, i + 4) then MonthDayTail(s, i + 5) else None
  }

  function DayFirst(s: string): nat -> Option<nat>
  {
    i => DmyAt(s, i)
  }

  function YearFirst(s: string): nat -> Option<nat>
  {
    i => YmdAt(s, i)
  }

  // ---------------------------------------------------------------------------
  // Date shapes, independently of the matchers
  // ---------------------------------------------------------------------------

  /** `t` is a day-first date with an `a`-digit first field and a `b`-digit second one:
      `D[D]/M[M]/YYYY`, each separator a slash or a hyphen. */
  predicate DayFirstWith(t: string, a: nat, b: nat)
  {
    |t| == a + b + 6 && DigitsAt(t, 0, a) && SepAt(t, a) && DigitsAt(t, a + 1, b)
    && SepAt(t, a + b + 1) && DigitsAt(t, a + b + 2, 4)
  }

  predicate DayFirstShape(t: string)
  {
    DayFirstWith(t, 1, 1) || DayFirstWith(t, 1, 2) || DayFirstWith(t, 2, 1) || DayFirstWith(t, 2, 2)
  }

  /** `t` is a year-first date `YYYY/M[M]/D[D]` with a `b`-digit and a `c`-digit field. */
  predicate YearFirstWith(t: string, b: nat, c: nat)
  {
    |t| == b + c + 6 && DigitsAt(t, 0, 4) && SepAt(t, 4) && DigitsAt(t, 5, b)
    && SepAt(t, b + 5) && DigitsAt(t, b + 6, c)
  }

  predicate YearFirstShape(t: string)
  {
    YearFirstWith(t, 1, 1) || YearFirstWith(t, 1, 2) || YearFirstWith(t, 2, 1) || YearFirstWith(t, 2, 2)
  }

  /** A date of the shape starts at `i` of `s` and ends at `e`. */
  predicate DayFirstDateAt(s: string, i: nat, e: nat)
  {
    i <= e <= |s| && DayFirstShape(s[i..e])
  }

  predicate YearFirstDateAt(s: string, i: nat, e: nat)
  {
    i <= e <= |s| && YearFirstShape(s[i..e])
  }

  /** Digits and separators read the same in a slice as in the whole. */
  lemma SliceReads(s: string, i: nat, e: nat)
    requires i <= e <= |s|
    ensures forall m: nat, n: nat :: DigitsAt(s[i..e], m, n) <==> m + n <= e - i && DigitsAt(s, i + m, n)
    ensures forall m: nat :: SepAt(s[i..e], m) <==> m < e - i && SepAt(s, i + m)
  {
    forall m: nat, n: nat ensures DigitsAt(s[i..e], m, n) <==> m + n <= e - i && DigitsAt(s, i + m, n) {
      if m + n <= e - i {
        assert forall k :: m <= k < m + n ==> s[i..e][k] == s[i + k];
      }
    }
  }

  /** The day-first matcher matches exactly where a day-first date starts, and what it
      matches is one. */
  lemma DayFirstMatcher(s: string, i: nat)
    ensures DmyAt(s, i).Some? ==> DayFirstDateAt(s, i, DmyAt(s, i).value)
    ensures (exists e :: DayFirstDateAt(s, i, e)) ==> DmyAt(s, i).Some?
  {
    if DmyAt(s, i).Some? {
      SliceReads(s, i, DmyAt(s, i).value);
    }
    if e :| DayFirstDateAt(s, i, e) {
      SliceReads(s, i, e);
    }
  }

  /** The year-first matcher matches exactly where a year-first date starts, and what it
      matches is one. */
  lemma YearFirstMatcher(s: string, i: nat)
    ensures YmdAt(s, i).Some? ==> YearFirstDateAt(s, i, YmdAt(s, i).value)
    ensures (exists e :: YearFirstDateAt(s, i, e)) ==> YmdAt(s, i).Some?
    ensures YmdAt(s, i).Some? ==> forall e: nat :: YearFirstDateAt(s, i, e) ==> e <= YmdAt(s, i).value
  {
    if YmdAt(s, i).Some? {
      SliceReads(s, i, YmdAt(s, i).value);
      forall e: nat | YearFirstDateAt(s, i, e)
        ensures e <= YmdAt(s, i).value
      {
        YearFirstLongest(s, i, e);
      }
    }
    if e :| YearFirstDateAt(s, i, e) {
      SliceReads(s, i, e);
    }
  }

  /** The greedy `\d{1,2}` fields: no year-first date starting at `i` ends after the
      one the matcher takes. */
  lemma YearFirstLongest(s: string, i: nat, e: nat)
    requires YearFirstDateAt(s, i, e)
    ensures YmdAt(s, i).Some? && e <= YmdAt(s, i).value
  {
    SliceReads(s, i, e);
  }
}

=== FILE: response_cache.dfy ===
/**
 * The response-cache middleware of `backend/src/middleware/cache.js`: a
 * request whose URL has a cached body is answered from Redis without reaching
 * the route; on a miss, `res.json` is wrapped so that the body the route sends
 * is also stored under the URL's key for `duration` seconds. Errors while
 * reading the cache let the request through uncached.
 */
module ResponseCache {
  import opened Wrappers

  const KeyPrefix: string := "__expres__"

  /** The Redis key of a request: the prefix followed by `req.originalUrl`. */
  function CacheKey(originalUrl: string): (k: string)
    ensures |k| == |KeyPrefix| + |originalUrl|
    ensures k[..|KeyPrefix|] == KeyPrefix && k[|KeyPrefix|..] == originalUrl
  {
    KeyPrefix + originalUrl
  }

  /** Distinct URLs never share a key. */
  lemma CacheKeyInjective(a: string, b: string)
    requires CacheKey(a) == CacheKey(b)
    ensures a == b
  {
    assert a == CacheKey(a)[|KeyPrefix|..];
  }

  /** A Redis string value with its expiry instant (milliseconds). */
  datatype Entry = Entry(value: string, expiresAt: int)

  type Store = map<string, Entry>

  /** `GET key` at time `now`: a key is gone once its expiry instant has passed. */
  function Get(store: Store, key: string, now: int): (r: Option<string>)
    ensures r.Some? <==> key in store && now <= store[key].expiresAt
    ensures r.Some? ==> r.value == store[key].value
  {
    if key in store && now <= store[key].expiresAt then Some(store[key].value) else None
  }

  /** `SETEX key seconds value`: Redis refuses a non-positive expiry, and the middleware
      does not await the call, so the refusal leaves the store as it was. */
  function SetEx(store: Store, key: string, seconds: int, value: string, now: int): (r: Store)
    ensures seconds > 0 ==> r == store[key := Entry(value, now + seconds * 1000)]
    ensures seconds <= 0 ==> r == store
  {
    if seconds > 0 then store[key := Entry(value, now + seconds * 1000)] else store
  }

  /** What the middleware does with a request. `Hit` answers with the parsed cached body
      and does not call `next`; `Miss` wraps `res.json` and calls `next`; `PassThrough`
      calls `next` with `res.json` untouched. */
  datatype Step<J> = Hit(body: J) | Miss | PassThrough

  /** One request. `store` is Redis, or the error `GET` fails with; `parse` is
      `JSON.parse`, which yields nothing where it would throw. */
  function Middleware<J>(originalUrl: string, store: Result<Store, string>, now: int,
                         parse: string -> Option<J>): (r: Step<J>)
    ensures store.Err? ==> r.PassThrough?
    ensures store.Ok? ==>
              var cached := Get(store.value, CacheKey(originalUrl), now);
              (r.Miss? <==> cached.None? || cached.value == "")
              && (r.Hit? <==> cached.Some? && cached.value != "" && parse(cached.value).Some?)
              && (r.Hit? ==> r.body == parse(cached.value).value)
  {
    match store
    case Err(_) => PassThrough
    case Ok(s) =>
      match Get(s, CacheKey(originalUrl), now)
      case None => Miss
      case Some(cached) =>
        if cached == "" then Miss
        else
          match parse(cached)
          case Some(body) => Hit(body)
          case None => PassThrough
  }

  /** The wrapped `res.json(body)` after a miss: the serialised body is written with
      `SETEX`, and the body itself is what the client receives. */
  function Respond<J>(originalUrl: string, duration: int, body: J, serialize: J -> string,
                      store: Store, now: int): (r: (Store, J))
    ensures r.1 == body
    ensures duration > 0 ==> Get(r.0, CacheKey(originalUrl), now) == Some(serialize(body))
    ensures forall k :: k != CacheKey(originalUrl) ==> (k in r.0 <==> k in store)
    ensures forall k :: k != CacheKey(originalUrl) && k in store ==> r.0[k] == store[k]
  {
    (SetEx(store, CacheKey(originalUrl), duration, serialize(body), now), body)
  }

  /** A body sent after a miss answers every later request for the same URL within
      `duration` seconds, provided parsing undoes serialising (as `JSON.parse` does for
      `JSON.stringify` on plain data); `JSON.stringify` never yields the empty text. */
  lemma MissThenHit<J>(url: string, duration: int, body: J, serialize: J -> string,
                       parse: string -> Option<J>, store: Store, now: int, later: int)
    requires duration > 0
    requires Middleware(url, Ok(store), now, parse).Miss?
    requires serialize(body) != "" && parse(serialize(body)) == Some(body)
    requires now <= later <= now + duration * 1000
    ensures Middleware(url, Ok(Respond(url, duration, body, serialize, store, now).0), later, parse) == Hit(body)
  {
    var s := Respond(url, duration, body, serialize, store, now).0;
    assert s[CacheKey(url)] == Entry(serialize(body), now + duration * 1000);
  }

  /** Once the stored body has expired, the next request misses again. */
  lemma ExpiredMisses<J>(url: string, duration: int, body: J, serialize: J -> string,
                         parse: string -> Option<J>, store: Store, now: int, later: int)
    requires duration > 0
    requires later > now + duration * 1000
    ensures Middleware(url, Ok(Respond(url, duration, body, serialize, store, now).0), later, parse) == Miss
  {
    var s := Respond(url, duration, body, serialize, store, now).0;
    assert s[CacheKey(url)] == Entry(serialize(body), now + duration * 1000);
  }
}

=== FILE: server_config.dfy ===
/**
 * The security configuration of `backend/src/config/server.js`: the two rate
 * limiters `securityMiddleware` installs (every `/api/` route, and the
 * stricter one on login and registration) and the exported `errorHandler`.
 */
module ServerConfig {
  import opened Wrappers
  import AppErrors

  // ---------------------------------------------------------------------------
  // errorHandler
  // ---------------------------------------------------------------------------

  /** An error reaching the handler: its `name`, `message` and `details`. */
  datatype ErrorInfo = ErrorInfo(name: string, message: string, details: Option<string>)

  /** The JSON reply `{success: false, error[, details]}` and its status. */
  datatype ErrorReply = ErrorReply(status: int, error: string, details: Option<string>)

  function ErrorHandler(err: ErrorInfo, nodeEnv: Option<string>): (r: ErrorReply)
    ensures err.name == "ValidationError" ==> r == ErrorReply(400, "Validation Error", err.details)
    ensures err.name == "UnauthorizedError" ==> r == ErrorReply(401, "Unauthorized", None)
    ensures r.status == 500 <==> err.name != "ValidationError" && err.name != "UnauthorizedError"
    ensures r.status == 500 ==>
              r.details.None?
              && (r.error == "Internal Server Error" <==> nodeEnv == Some("production") || err.message == "Internal Server Error")
              && (nodeEnv != Some("production") ==> r.error == err.message)
  {
    if err.name == "ValidationError" then ErrorReply(400, "Validation Error", err.details)
    else if err.name == "UnauthorizedError" then ErrorReply(401, "Unauthorized", None)
    else ErrorReply(500, if nodeEnv == Some("production") then "Internal Server Error" else err.message, None)
  }

  /** This handler hides messages only in production, while the one `app.js` installs
      shows them only in development: under any other NODE_ENV (a test run, say) the
      same plain error is reported with its message here and without it there. */
  lemma HandlersDisagreeOutsideBothModes(message: string, nodeEnv: Option<string>)
    requires nodeEnv != Some("production") && nodeEnv != Some("development")
    requires message != "Internal Server Error"
    ensures ErrorHandler(ErrorInfo("Error", message, None), nodeEnv).error == message
    ensures AppErrors.HandleError(AppErrors.ErrorValue("Error", message, None, []), nodeEnv)
            == AppErrors.Reply(500, "Internal Server Error")
  {
  }

  // ---------------------------------------------------------------------------
  // Rate limiting
  // ---------------------------------------------------------------------------

  /** The options given to `express-rate-limit`. */
  datatype LimiterConfig = LimiterConfig(windowMs: nat, max: nat, message: string, skipSuccessfulRequests: bool)

  const FifteenMinutes: nat := 15 * 60 * 1000

  /** Installed on every `/api/` route. */
  const ApiLimiter: LimiterConfig :=
    LimiterConfig(FifteenMinutes, 100, "Too many requests from this IP, please try again later.", false)

  /** Installed on `/api/auth/login` and `/api/auth/register`. */
  const AuthLimiter: LimiterConfig :=
    LimiterConfig(FifteenMinutes, 5, "Too many authentication attempts, please try again later.", true)

  /** The memory store's record for one client: hits counted in the current window and
      the instant the window resets. */
  datatype Counter = Counter(hits: nat, resetAt: int)

  type Counters = map<string, Counter>

  /** The client's counter as the next request finds it: a window that has reached its
      reset instant starts afresh. */
  function Current(cfg: LimiterConfig, counters: Counters, client: string, now: int): (c: Counter)
    ensures client in counters && now < counters[client].resetAt ==> c == counters[client]
    ensures !(client in counters && now < counters[client].resetAt) ==> c == Counter(0, now + cfg.windowMs)
  {
    if client in counters && now < counters[client].resetAt then counters[client]
    else Counter(0, now + cfg.windowMs)
  }

  /** One request: it is counted first; once the count exceeds `max` the limiter answers
      429 with its message and the route never runs. Otherwise the route answers
      `routeStatus`, and a successful (< 400) answer is uncounted again when the limiter
      skips successful requests. */
  function Request(cfg: LimiterConfig, counters: Counters, client: string, now: int, routeStatus: int)
    : (r: (Counters, int))
    ensures var c := Current(cfg, counters, client, now);
            (r.1 == 429 <==> c.hits + 1 > cfg.max || routeStatus == 429)
            && (c.hits + 1 > cfg.max ==> r.1 == 429)
            && (c.hits + 1 <= cfg.max ==> r.1 == routeStatus)
    ensures var c := Current(cfg, counters, client, now);
            client in r.0 && r.0[client].resetAt == c.resetAt
            && r.0[client].hits == (if c.hits + 1 <= cfg.max && cfg.skipSuccessfulRequests && routeStatus < 400
                                    then c.hits else c.hits + 1)
    ensures forall other :: other != client ==> (other in r.0 <==> other in counters)
    ensures forall other :: other != client && other in counters ==> r.0[other] == counters[other]
  {
    var c := Current(cfg, counters, client, now);
    var counted := Counter(c.hits + 1, c.resetAt);
    if counted.hits > cfg.max then (counters[client := counted], 429)
    else if cfg.skipSuccessfulRequests && routeStatus < 400 then (counters[client := c], routeStatus)
    else (counters[client := counted], routeStatus)
  }

  /** The limiter's reply body for a refused request. */
  function LimitedReply(cfg: LimiterConfig): (r: ErrorReply)
    ensures r.status == 429 && r.error == cfg.message
  {
    ErrorReply(429, cfg.message, None)
  }

  /** A request reaching the limiter at `at`, and the status the route would answer. */
  datatype Attempt = Attempt(at: int, routeStatus: int)

  /** A sequence of requests from one client, in order; the statuses the client sees. */
  function Run(cfg: LimiterConfig, counters: Counters, client: string, attempts: seq<Attempt>)
    : (r: (Counters, seq<int>))
    ensures |r.1| == |attempts|
    decreases |attempts|
  {
    if |attempts| == 0 then (counters, [])
    else
      var (next, status) := Request(cfg, counters, client, attempts[0].at, attempts[0].routeStatus);
      var (final, rest) := Run(cfg, next, client, attempts[1..]);
      (final, [status] + rest)
  }

  /** Failed requests inside one window each add a hit; every one is answered by the
      route until the count passes `max`, and by 429 from then on. */
  lemma {:induction false} FailuresAccumulate(cfg: LimiterConfig, counters: Counters, client: string,
                                              attempts: seq<Attempt>)
    requires client in counters
    requires forall i :: 0 <= i < |attempts| ==>
               attempts[i].at < counters[client].resetAt && 400 <= attempts[i].routeStatus
    ensures var r := Run(cfg, counters, client, attempts);
            client in r.0 && r.0[client] == Counter(counters[client].hits + |attempts|, counters[client].resetAt)
    ensures var r := Run(cfg, counters, client, attempts);
            forall i :: 0 <= i < |attempts| ==>
              r.1[i] == (if counters[client].hits + i + 1 > cfg.max then 429 else attempts[i].routeStatus)
    decreases |attempts|
  {
    if |attempts| > 0 {
      var c := counters[client];
      var step := Request(cfg, counters, client, attempts[0].at, attempts[0].routeStatus);
      assert step.0[client] == Counter(c.hits + 1, c.resetAt);
      FailuresAccumulate(cfg, step.0, client, attempts[1..]);
      var rest := Run(cfg, step.0, client, attempts[1..]);
      assert Run(cfg, counters, client, attempts) == (rest.0, [step.1] + rest.1);
      forall i | 1 <= i < |attempts|
        ensures (([step.1] + rest.1)[i])
                == (if c.hits + i + 1 > cfg.max then 429 else attempts[i].routeStatus)
      {
        assert ([step.1] + rest.1)[i] == rest.1[i - 1];
        assert attempts[1..][i - 1] == attempts[i];
      }
    }
  }

  /** Six wrong passwords from one client within fifteen minutes: the first five reach
      the login route and get its 401, the sixth gets 429. */
  lemma SixthFailedLoginIsLimited(counters: Counters, client: string, attempts: seq<Attempt>)
    requires client !in counters
    requires |attempts| == 6
    requires forall i :: 0 <= i < 6 ==>
               attempts[0].at <= attempts[i].at < attempts[0].at + FifteenMinutes
               && attempts[i].routeStatus == 401
    ensures Run(AuthLimiter, counters, client, attempts).1 == [401, 401, 401, 401, 401, 429]
  {
    var first := Request(AuthLimiter, counters, client, attempts[0].at, 401);
    assert first.0[client] == Counter(1, attempts[0].at + FifteenMinutes);
    assert first.1 == 401;
    FailuresAccumulate(AuthLimiter, first.0, client, attempts[1..]);
    var rest := Run(AuthLimiter, first.0, client, attempts[1..]);
    assert rest.1 == [401, 401, 401, 401, 429] by {
      assert attempts[1..][0].routeStatus == 401;
      assert attempts[1..][1].routeStatus == 401;
      assert attempts[1..][2].routeStatus == 401;
      assert attempts[1..][3].routeStatus == 401;
    }
  }

  /** A successful login inside a live window leaves the client's count where it was. */
  lemma SuccessIsNotCounted(counters: Counters, client: string, now: int, routeStatus: int)
    requires client in counters && now < counters[client].resetAt
    requires counters[client].hits < AuthLimiter.max
    requires routeStatus < 400
    ensures Request(AuthLimiter, counters, client, now, routeStatus).0[client] == counters[client]
    ensures Request(AuthLimiter, counters, client, now, routeStatus).1 == routeStatus
  {
  }
}

=== FILE: tenant.dfy ===
/**
 * The `resolveTenant` middleware of `backend/src/middleware/tenant.js`: the
 * tenant is named by the `x-tenant-id` header, or failing that by the
 * `tenant` query parameter; only an active tenant with that id is attached to
 * the request.
 */
module Tenant {
  import opened Wrappers

  datatype TenantRow = TenantRow(id: string, isActive: bool)

  /** The replies: 400 without an identifier, 404 for an unknown or inactive tenant,
      500 when the lookup throws; `Resolved` sets `req.tenant` and calls `next`. */
  datatype Resolution = Rejected(status: int, error: string) | Resolved(tenant: TenantRow)

  predicate Truthy(v: Option<string>) { v.Some? && v.value != "" }

  /** `req.headers['x-tenant-id'] || req.query.tenant`. */
  function Identifier(header: Option<string>, query: Option<string>): (r: Option<string>)
    ensures Truthy(header) ==> r == header
    ensures !Truthy(header) ==> r == query
    ensures Truthy(r) <==> Truthy(header) || Truthy(query)
  {
    if Truthy(header) then header else query
  }

  /** `Tenant.findOne({where: {id, isActive: true}})` over the table `rows`. */
  function FindActive(rows: seq<TenantRow>, id: string): (r: Option<TenantRow>)
    ensures r.Some? ==> r.value in rows && r.value.id == id && r.value.isActive
    ensures r.None? <==> forall t :: t in rows && t.id == id ==> !t.isActive
  {
    if |rows| == 0 then None
    else if rows[0].id == id && rows[0].isActive then Some(rows[0])
    else
      var r := FindActive(rows[1..], id);
      assert forall t :: t in rows ==> t == rows[0] || t in rows[1..];
      r
  }

  /** The middleware; `table` is the tenant table, or the error the lookup throws. */
  function ResolveTenant(header: Option<string>, query: Option<string>,
                         table: Result<seq<TenantRow>, string>): (r: Resolution)
    ensures r == Rejected(400, "Tenant required") <==> !Truthy(header) && !Truthy(query)
    ensures Truthy(Identifier(header, query)) && table.Err? ==>
              r == Rejected(500, "Tenant resolution failed")
    ensures Truthy(Identifier(header, query)) && table.Ok? ==>
              (r == Rejected(404, "Tenant not found") <==>
                 forall t :: t in table.value && t.id == Identifier(header, query).value ==> !t.isActive)
    ensures r.Resolved? ==> table.Ok? && r.tenant in table.value && r.tenant.isActive
                            && Some(r.tenant.id) == Identifier(header, query)
  {
    var id := Identifier(header, query);
    if !Truthy(id) then Rejected(400, "Tenant required")
    else
      match table
      case Err(_) => Rejected(500, "Tenant resolution failed")
      case Ok(rows) =>
        match FindActive(rows, id.value)
        case None => Rejected(404, "Tenant not found")
        case Some(t) => Resolved(t)
  }

  /** A non-empty header decides the tenant; the query parameter is then ignored. */
  lemma HeaderTakesPrecedence(header: string, q1: Option<string>, q2: Option<string>,
                              table: Result<seq<TenantRow>, string>)
    requires header != ""
    ensures ResolveTenant(Some(header), q1, table) == ResolveTenant(Some(header), q2, table)
  {
  }

  /** An inactive tenant is reported exactly like a missing one. */
  lemma InactiveIsNotFound(id: string, rows: seq<TenantRow>)
    requires id != ""
    requires forall t :: t in rows && t.id == id ==> !t.isActive
    ensures ResolveTenant(Some(id), None, Ok(rows)) == Rejected(404, "Tenant not found")
    ensures ResolveTenant(Some(id), None, Ok(rows + [TenantRow(id, false)])) == Rejected(404, "Tenant not found")
  {
    var rows' := rows + [TenantRow(id, false)];
    assert forall t :: t in rows' ==> t in rows || t == TenantRow(id, false);
  }
}

=== FILE: text.dfy ===
/**
 * Character and string helpers shared by the parsers: ASCII digits and
 * whitespace, decimal rendering and reading, substring search, first-occurrence
 * replacement, splitting on one character and joining.
 */
module Text {
  import opened Wrappers

  predicate IsDigit(c: char) { '0' <= c <= '9' }

  predicate AllDigits(s: string) { forall i :: 0 <= i < |s| ==> IsDigit(s[i]) }

  /** Whitespace as Python's `str.isspace` reports it for ASCII: tab, line feed,
      vertical tab, form feed, carriage return, the four separators 0x1C-0x1F and space. */
  predicate IsSpace(c: char)
  {
    var k := c as int;
    k == 32 || 9 <= k <= 13 || 28 <= k <= 31
  }

  function DigitValue(c: char): (d: nat)
    requires IsDigit(c)
    ensures d < 10
  {
    c as int - '0' as int
  }

  function DigitChar(d: nat): (c: char)
    requires d < 10
    ensures IsDigit(c) && DigitValue(c) == d
  {
    ('0' as int + d) as char
  }

  /** The decimal rendering of `n`, without leading zeros. */
  function ShowNat(n: nat): (s: string)
    ensures 0 < |s| && AllDigits(s)
    ensures n < 10 <==> |s| == 1
    ensures n < 100 ==> |s| <= 2
    ensures 100 <= n ==> 3 <= |s|
    ensures 1000 <= n ==> 4 <= |s|
    ensures n < 1000 ==> |s| <= 3
    ensures n < 10000 ==> |s| <= 4
  {
    if n < 10 then [DigitChar(n)] else ShowNat(n / 10) + [DigitChar(n % 10)]
  }

  /** The value of a run of decimal digits, most significant first; the empty run is 0. */
  function DigitsValue(s: string): nat
    requires AllDigits(s)
  {
    if |s| == 0 then 0 else DigitsValue(s[..|s| - 1]) * 10 + DigitValue(s[|s| - 1])
  }

  /** Reading back a rendered number gives the number. */
  lemma {:induction false} ShowNatRoundTrip(n: nat)
    ensures DigitsValue(ShowNat(n)) == n
  {
    if n >= 10 {
      ShowNatRoundTrip(n / 10);
      var s := ShowNat(n);
      assert s[..|s| - 1] == ShowNat(n / 10);
    }
  }

  /** Rendering is injective: two numbers with the same rendering are equal. */
  lemma ShowNatInjective(a: nat, b: nat)
    requires ShowNat(a) == ShowNat(b)
    ensures a == b
  {
    ShowNatRoundTrip(a);
    ShowNatRoundTrip(b);
  }

  /** The decimal rendering of an integer, with a leading '-' when negative. */
  function ShowInt(n: int): (s: string)
    ensures 0 < |s|
  {
    if n < 0 then "-" + ShowNat(-n) else ShowNat(n)
  }

  /** An integer written `[-+]?[0-9]+`, leading zeros allowed, as `isInt` accepts it
      and `parseInt` then reads it. */
  function ParseInt(s: string): (r: Option<int>)
    ensures r.Some? ==> 0 < |s|
  {
    if |s| > 0 && (s[0] == '-' || s[0] == '+') then
      if |s| > 1 && AllDigits(s[1..]) then
        var v: int := DigitsValue(s[1..]);
        Some(if s[0] == '-' then -v else v)
      else None
    else if |s| > 0 && AllDigits(s) then Some(DigitsValue(s))
    else None
  }

  /** Reading back a rendered integer gives the integer. */
  lemma ParseShowInt(n: int)
    ensures ParseInt(ShowInt(n)) == Some(n)
  {
    if n < 0 {
      ParseShowNegative(-n);
    } else {
      ShowNatRoundTrip(n);
    }
  }

  lemma ParseShowNegative(n: nat)
    requires n > 0
    ensures ParseInt("-" + ShowNat(n)) == Some(-(n as int))
  {
    ShowNatRoundTrip(n);
    assert ("-" + ShowNat(n))[1..] == ShowNat(n);
  }

  /** `n` rendered with at least two digits, zero-padded on the left. */
  function Pad2(n: nat): (s: string)
    ensures 2 <= |s| && AllDigits(s)
  {
    if n < 10 then "0" + ShowNat(n) else ShowNat(n)
  }

  /** A leading zero does not change the value of a digit run. */
  lemma {:induction false} LeadingZero(s: string)
    requires AllDigits(s)
    ensures DigitsValue("0" + s) == DigitsValue(s)
    decreases |s|
  {
    if |s| > 0 {
      LeadingZero(s[..|s| - 1]);
      assert ("0" + s)[..|s|] == "0" + s[..|s| - 1];
    }
  }

  /** Below 100, the padded rendering is exactly two digits and reads back as `n`. */
  lemma Pad2RoundTrip(n: nat)
    requires n < 100
    ensures |Pad2(n)| == 2 && DigitsValue(Pad2(n)) == n
  {
    ShowNatRoundTrip(n);
    if n < 10 {
      LeadingZero(ShowNat(n));
    }
  }

  /** `n` rendered with at least four digits, zero-padded on the left. */
  function Pad4(n: nat): (s: string)
    ensures 4 <= |s| && AllDigits(s)
  {
    if n < 10 then "000" + ShowNat(n)
    else if n < 100 then "00" + ShowNat(n)
    else if n < 1000 then "0" + ShowNat(n)
    else ShowNat(n)
  }

  /** Below 10000, the padded rendering is exactly four digits and reads back as `n`. */
  lemma Pad4RoundTrip(n: nat)
    requires n < 10000
    ensures |Pad4(n)| == 4 && DigitsValue(Pad4(n)) == n
  {
    var s := ShowNat(n);
    ShowNatRoundTrip(n);
    if n < 1000 {
      LeadingZero(s);
    }
    if n < 100 {
      LeadingZero("0" + s);
      assert "00" + s == "0" + ("0" + s);
    }
    if n < 10 {
      LeadingZero("00" + s);
      assert "000" + s == "0" + ("00" + s);
    }
  }

  /** True when `p` occurs in `s` starting at index `i`. */
  predicate OccursAt(s: string, p: string, i: nat)
  {
    i + |p| <= |s| && s[i..i + |p|] == p
  }

  /** The first index at or after `k` where `p` occurs in `s`. */
  function IndexOfFrom(s: string, p: string, k: nat): (r: Option<nat>)
    ensures r.Some? ==> k <= r.value && OccursAt(s, p, r.value)
    ensures r.Some? ==> forall j: nat :: k <= j < r.value ==> !OccursAt(s, p, j)
    ensures r.None? ==> forall j: nat :: k <= j ==> !OccursAt(s, p, j)
    decreases |s| - k
  {
    if k + |p| > |s| then None
    else if s[k..k + |p|] == p then Some(k)
    else IndexOfFrom(s, p, k + 1)
  }

  /** The first index where `p` occurs in `s` (JavaScript `indexOf`, Python `find`). */
  function IndexOf(s: string, p: string): (r: Option<nat>)
    ensures r.Some? ==> OccursAt(s, p, r.value) && forall j: nat :: j < r.value ==> !OccursAt(s, p, j)
    ensures r.None? ==> forall j: nat :: !OccursAt(s, p, j)
  {
    IndexOfFrom(s, p, 0)
  }

  /** Substring test (Python `p in s`, JavaScript `s.includes(p)`). */
  predicate Contains(s: string, p: string)
  {
    IndexOf(s, p).Some?
  }

  lemma ContainsIff(s: string, p: string)
    ensures Contains(s, p) <==> exists i :: OccursAt(s, p, i)
  {
  }

  /** A single character occurs in `s` exactly when it is an element of `s`. */
  lemma ContainsChar(s: string, c: char)
    ensures Contains(s, [c]) <==> c in s
  {
    if c in s {
      var i :| 0 <= i < |s| && s[i] == c;
      assert OccursAt(s, [c], i);
    }
    if Contains(s, [c]) {
      var i := IndexOf(s, [c]).value;
      assert s[i..i + 1] == [c];
      assert s[i] == c;
    }
  }

  /** A pattern with a character that does not occur in `s` does not occur in `s`. */
  lemma AbsentChar(s: string, p: string, k: nat)
    requires k < |p| && p[k] !in s
    ensures !Contains(s, p)
  {
    forall j: nat | j + |p| <= |s|
      ensures !OccursAt(s, p, j)
    {
      assert s[j..j + |p|][k] == s[j + k];
    }
  }

  /** JavaScript `s.replace(p, repl)` with a string pattern: only the first occurrence is replaced. */
  function ReplaceFirst(s: string, p: string, repl: string): (r: string)
    ensures IndexOf(s, p).None? ==> r == s
    ensures IndexOf(s, p).Some? ==>
              var i := IndexOf(s, p).value; r == s[..i] + repl + s[i + |p|..]
  {
    match IndexOf(s, p)
    case None => s
    case Some(i) => s[..i] + repl + s[i + |p|..]
  }

  /** The end of the run of whitespace starting at `i` (`\s*` taken greedily). */
  function SpaceEnd(s: string, i: nat): (j: nat)
    requires i <= |s|
    ensures i <= j <= |s|
    ensures forall m :: i <= m < j ==> IsSpace(s[m])
    ensures j == |s| || !IsSpace(s[j])
    decreases |s| - i
  {
    if i < |s| && IsSpace(s[i]) then SpaceEnd(s, i + 1) else i
  }

  /** Python `str.lstrip()`: drop leading whitespace. */
  function TrimStart(s: string): (r: string)
    ensures |r| <= |s| && r == s[|s| - |r|..]
    ensures forall i :: 0 <= i < |s| - |r| ==> IsSpace(s[i])
    ensures |r| > 0 ==> !IsSpace(r[0])
  {
    if |s| > 0 && IsSpace(s[0]) then TrimStart(s[1..]) else s
  }

  /** Python `str.rstrip()`: drop trailing whitespace. */
  function TrimEnd(s: string): (r: string)
    ensures |r| <= |s| && r == s[..|r|]
    ensures forall i :: |r| <= i < |s| ==> IsSpace(s[i])
    ensures |r| > 0 ==> !IsSpace(r[|r| - 1])
  {
    if |s| > 0 && IsSpace(s[|s| - 1]) then TrimEnd(s[..|s| - 1]) else s
  }

  /** Python `str.strip()`: the slice of `s` left after dropping whitespace at both ends. */
  function Strip(s: string): (r: string)
    ensures |r| > 0 ==> !IsSpace(r[0]) && !IsSpace(r[|r| - 1])
    ensures exists i: nat :: OccursAt(s, r, i)
  {
    var t := TrimStart(s);
    var r := TrimEnd(t);
    assert OccursAt(s, r, |s| - |t|);
    r
  }

  /** Stripping removes characters and adds none. */
  lemma StripKeepsOut(s: string, c: char)
    requires c !in s
    ensures c !in Strip(s)
  {
    var t := TrimStart(s);
    assert forall k :: 0 <= k < |t| ==> t[k] == s[|s| - |t| + k];
    var r := TrimEnd(t);
    assert forall k :: 0 <= k < |r| ==> r[k] == t[k];
  }

  /** A string with no whitespace at its ends is its own strip. */
  lemma StripIdempotent(s: string)
    ensures Strip(Strip(s)) == Strip(s)
  {
  }

  /** Python `str.lstrip(c)` for one character `c`. */
  function DropLeading(s: string, c: char): (r: string)
    ensures |r| <= |s| && r == s[|s| - |r|..]
    ensures forall i :: 0 <= i < |s| - |r| ==> s[i] == c
    ensures |r| > 0 ==> r[0] != c
  {
    if |s| > 0 && s[0] == c then DropLeading(s[1..], c) else s
  }

  function LowerChar(c: char): char
  {
    if 'A' <= c <= 'Z' then (c as int + 32) as char else c
  }

  /** ASCII lower-casing (`toLowerCase`/`lower` restricted to ASCII letters). */
  function Lower(s: string): (r: string)
    ensures |r| == |s| && forall i :: 0 <= i < |s| ==> r[i] == LowerChar(s[i])
  {
    seq(|s|, i requires 0 <= i < |s| => LowerChar(s[i]))
  }

  /** JavaScript `s.split(c)` for a one-character separator. */
  function SplitOn(s: string, c: char): (parts: seq<string>)
    ensures 0 < |parts|
    ensures forall i :: 0 <= i < |parts| ==> c !in parts[i]
    decreases |s|
  {
    match IndexOf(s, [c])
    case None =>
      ContainsChar(s, c);
      [s]
    case Some(i) =>
      FirstOccurrencePrefix(s, c, i);
      [s[..i]] + SplitOn(s[i + 1..], c)
  }

  /** The part before the first occurrence of `c` does not contain `c`. */
  lemma FirstOccurrencePrefix(s: string, c: char, i: nat)
    requires IndexOf(s, [c]) == Some(i)
    ensures c !in s[..i]
  {
    if c in s[..i] {
      var j :| 0 <= j < i && s[..i][j] == c;
      assert OccursAt(s, [c], j);
    }
  }

  /** The parts joined with the separator `sep` between consecutive parts (JavaScript `join`). */
  function JoinWith(parts: seq<string>, sep: string): string
  {
    if |parts| == 0 then ""
    else if |parts| == 1 then parts[0]
    else parts[0] + sep + JoinWith(parts[1..], sep)
  }

  /** The first `c` in `p0 + [c] + rest` is the one after `p0` when `p0` has none. */
  lemma FirstSeparator(p0: string, rest: string, c: char)
    requires c !in p0
    ensures IndexOf(p0 + [c] + rest, [c]) == Some(|p0|)
  {
    var s := p0 + [c] + rest;
    assert OccursAt(s, [c], |p0|) by {
      assert s[|p0|..|p0| + 1] == [c];
    }
    forall j: nat | j < |p0|
      ensures !OccursAt(s, [c], j)
    {
      assert s[j] == p0[j];
      assert s[j..j + 1][0] == s[j];
    }
  }

  /** Splitting undoes joining when no part contains the separator. */
  lemma {:induction false} SplitJoin(parts: seq<string>, c: char)
    requires 0 < |parts|
    requires forall i :: 0 <= i < |parts| ==> c !in parts[i]
    ensures SplitOn(JoinWith(parts, [c]), c) == parts
    decreases |parts|
  {
    var s := JoinWith(parts, [c]);
    if |parts| == 1 {
      ContainsChar(s, c);
    } else {
      var p0 := parts[0];
      var rest := JoinWith(parts[1..], [c]);
      assert s == p0 + [c] + rest;
      assert OccursAt(s, [c], |p0|) by {
        assert s[|p0|..|p0| + 1] == [c];
      }
      FirstSeparator(p0, rest, c);
      var i := |p0|;
      assert s[..i] == p0;
      assert s[i + 1..] == rest;
      SplitJoin(parts[1..], c);
    }
  }

  /** Splitting `a`, `c`, `b` on `c` gives back the two sides when neither contains `c`. */
  lemma SplitTwo(a: string, b: string, c: char)
    requires c !in a && c !in b
    ensures SplitOn(a + [c] + b, c) == [a, b]
  {
    assert JoinWith([a, b], [c]) == a + [c] + b;
    SplitJoin([a, b], c);
  }

  /** The same for three parts. */
  lemma SplitThree(a: string, b: string, d: string, c: char)
    requires c !in a && c !in b && c !in d
    ensures SplitOn(a + [c] + b + [c] + d, c) == [a, b, d]
  {
    var parts := [a, b, d];
    assert parts[1..] == [b, d];
    assert JoinWith([b, d], [c]) == b + [c] + d;
    assert JoinWith(parts, [c]) == a + [c] + (b + [c] + d);
    assert a + [c] + (b + [c] + d) == a + [c] + b + [c] + d;
    SplitJoin(parts, c);
  }

  /** A run of digits contains no non-digit character. */
  lemma NoneInDigits(s: string, c: char)
    requires AllDigits(s) && !IsDigit(c)
    ensures c !in s
  {
  }

  /** Joining undoes splitting. */
  lemma {:induction false} JoinSplit(s: string, c: char)
    ensures JoinWith(SplitOn(s, c), [c]) == s
    decreases |s|
  {
    match IndexOf(s, [c])
    case None =>
    case Some(i) =>
      JoinSplit(s[i + 1..], c);
      assert s[i..i + 1] == [c];
      assert s == s[..i] + [c] + s[i + 1..];
  }
}

=== FILE: transaction_controller.dfy ===
/**
 * The transaction controller: `createTransaction`, which checks that the category
 * belongs to the caller before creating the row, and `getTransactions`, which lists
 * the caller's rows newest first, at most 1000 of them.
 */
module TransactionController {
  import opened Wrappers
  import opened Calendar
  import opened TransactionModel
  import opened Ordering
  import AppErrors

  /** The body fields the controller reads. */
  datatype CreateBody = CreateBody(
    categoryId: Option<int>,
    txType: Option<TxType>,
    amountCents: Option<int>,
    description: Option<string>,
    transactionDate: Option<Date>,
    receiptImageUrl: Option<string>)

  /** The replies of `createTransaction`. */
  datatype CreateOutcome =
    | CategoryRejected                 // 400 {error: 'Invalid category'}
    | Created(record: Transaction)     // 201 {success: true, data}
    | Forwarded(err: AppErrors.ErrorValue)

  /** The category lookup `where: {id, user_id}`: a category with that id owned by the caller. */
  predicate OwnsCategory(categories: seq<Category>, id: int, userId: string)
  {
    exists c :: c in categories && c.id == id && c.userId == userId
  }

  /** The error a `where` on an undefined id raises. */
  const UndefinedIdError := AppErrors.ErrorValue("Error", "WHERE parameter \"id\" has invalid \"undefined\" value", None, [])

  /** The controller as written. It passes `user_id`, `category_id`, `transaction_date` and
      `receipt_image_url` to `Transaction.create`. The model's attributes are camelCase, so
      Sequelize drops those four keys. Only type, amount and description arrive. */
  function CreateAsWritten(b: CreateBody, userId: string, categories: seq<Category>,
                           id: string, now: int, today: Date, isUrl: UrlCheck): (r: CreateOutcome)
    ensures r.CategoryRejected? <==> b.categoryId.Some? && !OwnsCategory(categories, b.categoryId.value, userId)
  {
    if b.categoryId.None? then Forwarded(UndefinedIdError)
    else if !OwnsCategory(categories, b.categoryId.value, userId) then CategoryRejected
    else
      var n := NewTransaction(None, None, b.txType, b.amountCents, b.description, None, None,
                              None, None, None, None, None, None, None, None);
      match Create(n, id, now, today, isUrl)
      case Ok(t) => Created(t)
      case Err(vs) => Forwarded(ValidationError(vs))
  }

  /** As written, no request ever creates a row. With an owned category the reply is the
      400 for the missing transaction date, whatever the body holds. */
  lemma AsWrittenNeverCreates(b: CreateBody, userId: string, categories: seq<Category>,
                              id: string, now: int, today: Date, isUrl: UrlCheck)
    ensures !CreateAsWritten(b, userId, categories, id, now, today, isUrl).Created?
    ensures b.categoryId.Some? && OwnsCategory(categories, b.categoryId.value, userId) ==>
              var r := CreateAsWritten(b, userId, categories, id, now, today, isUrl);
              && r.Forwarded?
              && "Transaction.transactionDate cannot be null" in r.err.entries
  {
    var n := NewTransaction(None, None, b.txType, b.amountCents, b.description, None, None,
                            None, None, None, None, None, None, None, None);
    var vs, nv := Violations(n, today, isUrl), NullViolations(n);
    var k := |nv| - 1;
    assert nv[k] == NotNull("transactionDate");
    assert vs[k] == nv[k];
    assert Message(vs[k]) == "Transaction.transactionDate cannot be null";
  }

  /** A concrete request: a valid expense in an owned category is answered with 400. */
  lemma AsWrittenRejectsValidExpense(isUrl: UrlCheck)
    ensures var r := CreateAsWritten(SampleExpense(), "u1", [Category(7, "u1")], "id-1", 0, Date(2026, 1, 12), isUrl);
            r.Forwarded? && AppErrors.HandleError(r.err, None) == AppErrors.Reply(400, "Transaction.transactionDate cannot be null")
  {
    SampleExpenseForwarded(isUrl);
    var e := ValidationError([NotNull("transactionDate")]);
    assert AppErrors.IsSequelizeValidation(e) && |e.entries| == 1;
    NullDateMessage();
    assert e.entries[0] == Message(NotNull("transactionDate"));
  }

  lemma NullDateMessage()
    ensures Message(NotNull("transactionDate")) == "Transaction.transactionDate cannot be null"
  {
    var head := "Transaction." + "transactionDate";
    assert head == "Transaction.transactionDate";
  }

  lemma SampleExpenseForwarded(isUrl: UrlCheck)
    ensures CreateAsWritten(SampleExpense(), "u1", [Category(7, "u1")], "id-1", 0, Date(2026, 1, 12), isUrl)
            == Forwarded(ValidationError([NotNull("transactionDate")]))
  {
    var today := Date(2026, 1, 12);
    assert OwnsCategory([Category(7, "u1")], 7, "u1") by {
      assert Category(7, "u1") in [Category(7, "u1")];
    }
    var n := NewTransaction(None, None, Some(Expense), Some(9999), Some("Groceries"), None, None,
                            None, None, None, None, None, None, None, None);
    SampleExpenseLosesDate(today, isUrl);
    assert Create(n, "id-1", 0, today, isUrl) == Err([NotNull("transactionDate")]);
  }

  function SampleExpense(): CreateBody
  {
    CreateBody(Some(7), Some(Expense), Some(9999), Some("Groceries"), Some(Date(2026, 1, 12)), None)
  }

  lemma SampleExpenseLosesDate(today: Date, isUrl: UrlCheck)
    ensures Violations(NewTransaction(None, None, Some(Expense), Some(9999), Some("Groceries"), None, None,
                                      None, None, None, None, None, None, None, None), today, isUrl)
            == [NotNull("transactionDate")]
  {
  }

  /** The attributes the controller means to pass, under the model's attribute names. */
  function NewFromBody(b: CreateBody, userId: string): (n: NewTransaction)
    ensures n.userId == Some(userId)
  {
    NewTransaction(Some(userId), b.categoryId, b.txType, b.amountCents, b.description, b.transactionDate,
                   b.receiptImageUrl, None, None, None, None, None, None, None, None)
  }

  /** `createTransaction` with the attribute names corrected. The AI insight
      recomputation it then starts is not awaited and its failure is only logged, so it
      plays no part in the reply and is left out. */
  function CreateTransaction(b: CreateBody, userId: string, categories: seq<Category>,
                             id: string, now: int, today: Date, isUrl: UrlCheck): (r: CreateOutcome)
    ensures r.CategoryRejected? <==> b.categoryId.Some? && !OwnsCategory(categories, b.categoryId.value, userId)
    ensures r.Created? <==> b.categoryId.Some? && OwnsCategory(categories, b.categoryId.value, userId)
                            && Acceptable(NewFromBody(b, userId), today, isUrl)
    ensures r.Created? ==> && r.record.userId == Some(userId)
                           && r.record.categoryId == b.categoryId
                           && Some(r.record.txType) == b.txType
                           && Some(r.record.amountCents) == b.amountCents
                           && Some(r.record.transactionDate) == b.transactionDate
                           && r.record.receiptImageUrl == b.receiptImageUrl
  {
    if b.categoryId.None? then Forwarded(UndefinedIdError)
    else if !OwnsCategory(categories, b.categoryId.value, userId) then CategoryRejected
    else
      CreateAcceptsExactly(NewFromBody(b, userId), id, now, today, isUrl);
      match Create(NewFromBody(b, userId), id, now, today, isUrl)
      case Ok(t) => Created(t)
      case Err(vs) => Forwarded(ValidationError(vs))
  }

  /** A category of another user is rejected like a missing one, and nothing is created. */
  lemma ForeignCategoryRejected(b: CreateBody, userId: string, other: string, id: string, now: int, today: Date, isUrl: UrlCheck)
    requires b.categoryId.Some? && other != userId
    ensures CreateTransaction(b, userId, [Category(b.categoryId.value, other)], id, now, today, isUrl) == CategoryRejected
  {
  }

  /** The owner of a created row is the caller, whichever categories exist. */
  lemma OwnerIsCaller(b: CreateBody, userId: string, categories: seq<Category>, id: string, now: int, today: Date, isUrl: UrlCheck)
    requires CreateTransaction(b, userId, categories, id, now, today, isUrl).Created?
    ensures CreateTransaction(b, userId, categories, id, now, today, isUrl).record.userId == Some(userId)
  {
  }

  // ---------------------------------------------------------------------------
  // getTransactions

  /** The query parameters; `None` is a parameter that is absent or empty (falsy). */
  datatype ListQuery = ListQuery(startDate: Option<Date>, endDate: Option<Date>, categoryId: Option<int>, txType: Option<TxType>)

  const MaxRows := 1000

  /** The `where` clause: the caller's rows, in the date range when both ends are given,
      and of the category and type when given. */
  predicate Matches(q: ListQuery, userId: string, t: Transaction)
  {
    && t.userId == Some(userId)
    && (q.startDate.Some? && q.endDate.Some? ==>
          NotAfter(q.startDate.value, t.transactionDate) && NotAfter(t.transactionDate, q.endDate.value))
    && (q.categoryId.Some? ==> t.categoryId == q.categoryId)
    && (q.txType.Some? ==> t.txType == q.txType.value)
  }

  function Selected(rows: seq<Transaction>, q: ListQuery, userId: string): (r: seq<Transaction>)
    ensures |r| <= |rows|
    ensures forall t :: t in r <==> t in rows && Matches(q, userId, t)
  {
    if |rows| == 0 then []
    else
      assert rows == [rows[0]] + rows[1..];
      (if Matches(q, userId, rows[0]) then [rows[0]] else []) + Selected(rows[1..], q, userId)
  }

  /** Order by transaction date only. */
  function DateRank(t: Transaction): Rank { Rank(t.transactionDate, 0) }

  /** The replies of `getTransactions`: 200 with the rows, or the query's error passed to `next`. */
  datatype Listing = Listed(data: seq<Transaction>) | ListForwarded(err: AppErrors.ErrorValue)

  /** `getTransactions` over the table `db`, or the error the query raises: distinct
      matching rows, newest date first, at most 1000, and no matching row left out is
      dated after one that is listed. */
  function GetTransactions(q: ListQuery, userId: string, db: Result<seq<Transaction>, string>): (r: Listing)
    ensures r.ListForwarded? <==> db.Err?
    ensures r.ListForwarded? ==> r.err.message == db.error
    ensures r.Listed? ==> forall t :: t in r.data ==> t in db.value && Matches(q, userId, t)
    ensures r.Listed? ==> multiset(r.data) <= multiset(Selected(db.value, q, userId))
    ensures r.Listed? ==>
              |r.data| == if |Selected(db.value, q, userId)| < MaxRows then |Selected(db.value, q, userId)| else MaxRows
    ensures r.Listed? ==> forall i, j :: 0 <= i < j < |r.data| ==> NotAfter(r.data[j].transactionDate, r.data[i].transactionDate)
    ensures r.Listed? ==>
              forall t, i :: t in Selected(db.value, q, userId) && t !in r.data && 0 <= i < |r.data| ==>
                NotAfter(t.transactionDate, r.data[i].transactionDate)
  {
    match db
    case Err(e) => ListForwarded(AppErrors.ErrorValue("Error", e, None, []))
    case Ok(rows) =>
      var sel := Selected(rows, q, userId);
      NewestWindowRows(sel);
      NewestWindowOrder(sel);
      Listed(Window(SortDesc(sel, DateRank), 0, MaxRows))
  }

  /** The first 1000 of the selected rows, newest first, are selected rows, each at most
      as often as it is selected, and there are min(|sel|, 1000) of them. */
  lemma NewestWindowRows(sel: seq<Transaction>)
    ensures var w := Window(SortDesc(sel, DateRank), 0, MaxRows);
            && (forall t :: t in w ==> t in sel)
            && multiset(w) <= multiset(sel)
            && |w| == (if |sel| < MaxRows then |sel| else MaxRows)
  {
    var ordered := SortDesc(sel, DateRank);
    PrefixSubMultiset(ordered, Window(ordered, 0, MaxRows));
  }

  /** The first 1000 of the selected rows, newest first, are in date order, and no
      selected row left out is newer than one kept. */
  lemma NewestWindowOrder(sel: seq<Transaction>)
    ensures var w := Window(SortDesc(sel, DateRank), 0, MaxRows);
            && (forall i, j :: 0 <= i < j < |w| ==> NotAfter(w[j].transactionDate, w[i].transactionDate))
            && (forall t, i :: t in sel && t !in w && 0 <= i < |w| ==> NotAfter(t.transactionDate, w[i].transactionDate))
  {
    var ordered := SortDesc(sel, DateRank);
    WindowOfSorted(ordered, DateRank, 0, MaxRows);
    var w := Window(ordered, 0, MaxRows);
    assert forall i, j :: 0 <= i < j < |w| ==> RankGe(DateRank(w[i]), DateRank(w[j]));
    NewestKept(ordered, w);
  }

  /** A prefix of a list holds each element at most as often as the list does. */
  lemma PrefixSubMultiset(s: seq<Transaction>, w: seq<Transaction>)
    requires |w| <= |s| && forall i :: 0 <= i < |w| ==> w[i] == s[i]
    ensures multiset(w) <= multiset(s)
  {
    assert w == s[..|w|];
    assert s == w + s[|w|..];
  }

  /** The first rows of a list sorted newest first are at least as new as every row after them. */
  lemma NewestKept(ordered: seq<Transaction>, w: seq<Transaction>)
    requires SortedDesc(ordered, DateRank)
    requires |w| <= |ordered| && forall i :: 0 <= i < |w| ==> w[i] == ordered[i]
    ensures forall t, i :: t in ordered && t !in w && 0 <= i < |w| ==> NotAfter(t.transactionDate, w[i].transactionDate)
  {
    forall t, i | t in ordered && t !in w && 0 <= i < |w|
      ensures NotAfter(t.transactionDate, w[i].transactionDate)
    {
      var j :| 0 <= j < |ordered| && ordered[j] == t;
      if j < |w| {
        assert false;
      }
      assert RankGe(DateRank(ordered[i]), DateRank(ordered[j]));
    }
  }

  /** With at most 1000 matching rows, every one of them is listed. */
  lemma SmallResultsAreComplete(q: ListQuery, userId: string, rows: seq<Transaction>, t: Transaction)
    requires |Selected(rows, q, userId)| <= MaxRows
    requires t in rows && Matches(q, userId, t)
    ensures t in GetTransactions(q, userId, Ok(rows)).data
  {
    var sel := Selected(rows, q, userId);
    var ordered := SortDesc(sel, DateRank);
    assert Window(ordered, 0, MaxRows) == ordered;
  }
}

=== FILE: transaction_model.dfy ===
/**
 * The Transaction model: its attributes, the defaults and validation rules applied
 * when a record is created, the formatted amount, and the per-type totals that
 * the monthly summary and the listing's summary compute. Amounts are integer cents.
 */
module TransactionModel {
  import opened Wrappers
  import opened Calendar
  import Text
  import AppErrors

  datatype TxType = Income | Expense

  function TxTypeName(t: TxType): string
  {
    match t
    case Income => "income"
    case Expense => "expense"
  }

  /** The ENUM('income', 'expense') column read from text. */
  function ParseTxType(s: string): (r: Option<TxType>)
    ensures r.Some? ==> TxTypeName(r.value) == s
  {
    if s == "income" then Some(Income) else if s == "expense" then Some(Expense) else None
  }

  lemma TxTypeNameParses(t: TxType, s: string)
    ensures ParseTxType(s) == Some(t) <==> s == TxTypeName(t)
  {
  }

  datatype RecurringPattern = Daily | Weekly | Monthly | Yearly

  function PatternName(p: RecurringPattern): string
  {
    match p
    case Daily => "daily"
    case Weekly => "weekly"
    case Monthly => "monthly"
    case Yearly => "yearly"
  }

  /** The ENUM('daily', 'weekly', 'monthly', 'yearly') column read from text. */
  function ParsePattern(s: string): (r: Option<RecurringPattern>)
    ensures r.Some? ==> PatternName(r.value) == s
    ensures r.None? ==> s !in {"daily", "weekly", "monthly", "yearly"}
  {
    if s == "daily" then Some(Daily)
    else if s == "weekly" then Some(Weekly)
    else if s == "monthly" then Some(Monthly)
    else if s == "yearly" then Some(Yearly)
    else None
  }

  /** `amount` is DECIMAL(12, 2) with `min: 0.01` and `max: 999999.99`. */
  const MinAmountCents := 1
  const MaxAmountCents := 99999999
  /** `description` has `len: [0, 500]`. */
  const MaxDescriptionLength := 500
  /** `ocrConfidence` is DECIMAL(3, 2) in [0, 1], held here in hundredths. */
  const MaxOcrConfidence := 100

  /** The attribute values handed to `Transaction.create`; `None` is an attribute left
      undefined. JSON columns hold opaque JSON texts. */
  datatype NewTransaction = NewTransaction(
    userId: Option<string>,
    categoryId: Option<int>,
    txType: Option<TxType>,
    amountCents: Option<int>,
    description: Option<string>,
    transactionDate: Option<Date>,
    receiptImageUrl: Option<string>,
    isOcrProcessed: Option<bool>,
    ocrConfidence: Option<int>,
    tags: Option<seq<string>>,
    isRecurring: Option<bool>,
    recurringPattern: Option<RecurringPattern>,
    recurringEndDate: Option<Date>,
    splitTransactions: Option<seq<string>>,
    metadata: Option<map<string, string>>)

  /** A stored transaction row. */
  datatype Transaction = Transaction(
    id: string,
    userId: Option<string>,
    categoryId: Option<int>,
    txType: TxType,
    amountCents: int,
    description: Option<string>,
    transactionDate: Date,
    receiptImageUrl: Option<string>,
    isOcrProcessed: bool,
    ocrConfidence: Option<int>,
    tags: seq<string>,
    isRecurring: bool,
    recurringPattern: Option<RecurringPattern>,
    recurringEndDate: Option<Date>,
    splitTransactions: seq<string>,
    metadata: map<string, string>,
    createdAt: int)

  /** A category row: its id and owner. */
  datatype Category = Category(id: int, userId: string)

  /** One entry of a Sequelize validation error. */
  datatype Violation =
    | NotNull(field: string)          // an `allowNull: false` attribute left undefined
    | Rule(rule: string, field: string) // a built-in validator that rejected the value
    | NotFuture                       // the custom `isNotFuture` validator

  function Message(v: Violation): (m: string)
    ensures v.NotFuture? ==> m == "Transaction date cannot be in the future"
  {
    match v
    case NotNull(f) => "Transaction." + f + " cannot be null"
    case Rule(r, f) => "Validation " + r + " on " + f + " failed"
    case NotFuture => "Transaction date cannot be in the future"
  }

  /** The Sequelize validation error that `create` rejects with. */
  function ValidationError(vs: seq<Violation>): (e: AppErrors.ErrorValue)
    ensures e.name == "SequelizeValidationError" && |e.entries| == |vs|
    ensures forall i :: 0 <= i < |vs| ==> e.entries[i] == Message(vs[i])
  {
    AppErrors.ErrorValue("SequelizeValidationError", "Validation error", None, seq(|vs|, i requires 0 <= i < |vs| => Message(vs[i])))
  }

  /** The `allowNull: false` checks, in attribute order. */
  function NullViolations(n: NewTransaction): seq<Violation>
  {
    (if n.txType.None? then [NotNull("type")] else [])
    + (if n.amountCents.None? then [NotNull("amount")] else [])
    + (if n.transactionDate.None? then [NotNull("transactionDate")] else [])
  }

  /** `receiptImageUrl`'s `isUrl` check, validator.js's URL test, which is not modelled. */
  type UrlCheck = string -> bool

  /** The attribute validators, in attribute order; an undefined value is not validated.
      `isDate` rejects a date that is not on the calendar. A date is after `today` when
      `new Date(value) > new Date()`, which for a date-only value means a later UTC
      calendar day; an invalid date compares false, so it is reported by `isDate` alone. */
  function RuleViolations(n: NewTransaction, today: Date, isUrl: UrlCheck): seq<Violation>
  {
    (if n.amountCents.Some? && n.amountCents.value < MinAmountCents then [Rule("min", "amount")] else [])
    + (if n.amountCents.Some? && n.amountCents.value > MaxAmountCents then [Rule("max", "amount")] else [])
    + (if n.description.Some? && |n.description.value| > MaxDescriptionLength then [Rule("len", "description")] else [])
    + (if n.transactionDate.Some? && !Valid(n.transactionDate.value) then [Rule("isDate", "transactionDate")] else [])
    + (if n.transactionDate.Some? && Valid(n.transactionDate.value) && Before(today, n.transactionDate.value) then [NotFuture] else [])
    + (if n.receiptImageUrl.Some? && !isUrl(n.receiptImageUrl.value) then [Rule("isUrl", "receiptImageUrl")] else [])
    + (if n.ocrConfidence.Some? && n.ocrConfidence.value < 0 then [Rule("min", "ocrConfidence")] else [])
    + (if n.ocrConfidence.Some? && n.ocrConfidence.value > MaxOcrConfidence then [Rule("max", "ocrConfidence")] else [])
  }

  /** Sequelize reports the null checks first, then the validators. */
  function Violations(n: NewTransaction, today: Date, isUrl: UrlCheck): seq<Violation>
  {
    NullViolations(n) + RuleViolations(n, today, isUrl)
  }

  /** What the model demands of a new row, stated field by field. */
  predicate Acceptable(n: NewTransaction, today: Date, isUrl: UrlCheck)
  {
    && n.txType.Some?
    && n.amountCents.Some? && MinAmountCents <= n.amountCents.value <= MaxAmountCents
    && (n.description.Some? ==> |n.description.value| <= MaxDescriptionLength)
    && n.transactionDate.Some? && Valid(n.transactionDate.value) && NotAfter(n.transactionDate.value, today)
    && (n.receiptImageUrl.Some? ==> isUrl(n.receiptImageUrl.value))
    && (n.ocrConfidence.Some? ==> 0 <= n.ocrConfidence.value <= MaxOcrConfidence)
  }

  /** `Transaction.create`: validate, then fill the defaults. `id` is the generated
      UUID and `now` the creation time. */
  function Create(n: NewTransaction, id: string, now: int, today: Date, isUrl: UrlCheck): (r: Result<Transaction, seq<Violation>>)
    ensures r.Err? <==> |Violations(n, today, isUrl)| > 0
    ensures r.Err? ==> r.error == Violations(n, today, isUrl)
    ensures r.Ok? ==> && r.value.id == id && r.value.createdAt == now
                      && r.value.userId == n.userId && r.value.categoryId == n.categoryId
                      && Some(r.value.txType) == n.txType
                      && Some(r.value.amountCents) == n.amountCents
                      && Some(r.value.transactionDate) == n.transactionDate
                      && r.value.description == n.description
                      && r.value.receiptImageUrl == n.receiptImageUrl
                      && r.value.isOcrProcessed == n.isOcrProcessed.GetOr(false)
                      && r.value.tags == n.tags.GetOr([])
                      && r.value.isRecurring == n.isRecurring.GetOr(false)
                      && r.value.splitTransactions == n.splitTransactions.GetOr([])
                      && r.value.metadata == n.metadata.GetOr(map[])
  {
    var vs := Violations(n, today, isUrl);
    if |vs| > 0 then Err(vs)
    else
      Ok(Transaction(id, n.userId, n.categoryId, n.txType.value, n.amountCents.value, n.description,
                     n.transactionDate.value, n.receiptImageUrl, n.isOcrProcessed.GetOr(false),
                     n.ocrConfidence, n.tags.GetOr([]), n.isRecurring.GetOr(false), n.recurringPattern,
                     n.recurringEndDate, n.splitTransactions.GetOr([]), n.metadata.GetOr(map[]), now))
  }

  /** Creation succeeds exactly for the rows the field rules accept. */
  lemma CreateAcceptsExactly(n: NewTransaction, id: string, now: int, today: Date, isUrl: UrlCheck)
    ensures Create(n, id, now, today, isUrl).Ok? <==> Acceptable(n, today, isUrl)
  {
  }

  /** A row that was created satisfies every field rule. */
  predicate ValidRow(t: Transaction, today: Date, isUrl: UrlCheck)
  {
    && MinAmountCents <= t.amountCents <= MaxAmountCents
    && (t.description.Some? ==> |t.description.value| <= MaxDescriptionLength)
    && Valid(t.transactionDate) && NotAfter(t.transactionDate, today)
    && (t.receiptImageUrl.Some? ==> isUrl(t.receiptImageUrl.value))
    && (t.ocrConfidence.Some? ==> 0 <= t.ocrConfidence.value <= MaxOcrConfidence)
  }

  lemma CreatedRowIsValid(n: NewTransaction, id: string, now: int, today: Date, isUrl: UrlCheck)
    requires Create(n, id, now, today, isUrl).Ok?
    ensures ValidRow(Create(n, id, now, today, isUrl).value, today, isUrl)
  {
  }

  /** A date one day after `today` is rejected with the custom message. */
  lemma TomorrowIsRejected(n: NewTransaction, id: string, now: int, today: Date, isUrl: UrlCheck)
    requires Valid(today) && n.transactionDate == Some(NextDay(today))
    ensures Create(n, id, now, today, isUrl).Err?
    ensures NotFuture in Create(n, id, now, today, isUrl).error
  {
  }

  /** A date off the calendar, such as February 30th, is rejected by `isDate` and not
      reported as a future date, however late it is. */
  lemma OffCalendarDateRejected(n: NewTransaction, id: string, now: int, today: Date, isUrl: UrlCheck)
    requires n.transactionDate.Some? && !Valid(n.transactionDate.value)
    ensures Create(n, id, now, today, isUrl).Err?
    ensures Rule("isDate", "transactionDate") in Create(n, id, now, today, isUrl).error
    ensures NotFuture !in Create(n, id, now, today, isUrl).error
  {
  }

  /** A receipt link the URL check refuses is rejected, and nothing else about the link is. */
  lemma BadReceiptUrlRejected(n: NewTransaction, id: string, now: int, today: Date, isUrl: UrlCheck)
    ensures n.receiptImageUrl.Some? && !isUrl(n.receiptImageUrl.value) <==>
              Rule("isUrl", "receiptImageUrl") in Violations(n, today, isUrl)
  {
  }

  /** A zero or negative amount is rejected by the `min` rule, and a missing type by the null check. */
  lemma AmountAndTypeRules(n: NewTransaction, id: string, now: int, today: Date, isUrl: UrlCheck)
    ensures n.amountCents.Some? && n.amountCents.value <= 0 ==> Rule("min", "amount") in Violations(n, today, isUrl)
    ensures n.amountCents.Some? && n.amountCents.value > MaxAmountCents ==> Rule("max", "amount") in Violations(n, today, isUrl)
    ensures n.txType.None? ==> Violations(n, today, isUrl)[0] == NotNull("type")
  {
  }

  /** Leaving every optional attribute undefined gives the declared defaults. */
  lemma CreateDefaults(n: NewTransaction, id: string, now: int, today: Date, isUrl: UrlCheck)
    requires Acceptable(n, today, isUrl)
    requires n.isOcrProcessed.None? && n.tags.None? && n.isRecurring.None?
    requires n.splitTransactions.None? && n.metadata.None?
    ensures var t := Create(n, id, now, today, isUrl).value;
            && !t.isOcrProcessed && t.tags == [] && !t.isRecurring
            && t.splitTransactions == [] && t.metadata == map[]
  {
  }

  // ---------------------------------------------------------------------------
  // getFormattedAmount

  /** `x.toFixed(2)` for an amount of `cents` hundredths. */
  function Fixed2(cents: int): (s: string)
  {
    var a := if cents < 0 then -cents else cents;
    (if cents < 0 then "-" else "") + Text.ShowNat(a / 100) + "." + Text.Pad2(a % 100)
  }

  /** An expense is shown as "-$" and its absolute amount, income as "$" and its amount. */
  function FormattedAmount(t: TxType, cents: int): (s: string)
    ensures t == Expense ==> |s| >= 2 && s[..2] == "-$"
    ensures t == Income ==> |s| >= 1 && s[0] == '$'
  {
    match t
    case Expense => "-$" + Fixed2(if cents < 0 then -cents else cents)
    case Income => "$" + Fixed2(cents)
  }

  /** Reads "D.DD" back into hundredths. */
  function ParseFixed2(s: string): Option<nat>
  {
    var parts := Text.SplitOn(s, '.');
    if |parts| == 2 && |parts[0]| > 0 && Text.AllDigits(parts[0]) && |parts[1]| == 2 && Text.AllDigits(parts[1])
    then Some(Text.DigitsValue(parts[0]) * 100 + Text.DigitsValue(parts[1]))
    else None
  }

  /** Reads a formatted amount back into its type and cents. */
  function ParseFormatted(s: string): Option<(TxType, nat)>
  {
    if |s| >= 2 && s[..2] == "-$" then
      match ParseFixed2(s[2..])
      case Some(c) => Some((Expense, c))
      case None => None
    else if |s| >= 1 && s[0] == '$' then
      match ParseFixed2(s[1..])
      case Some(c) => Some((Income, c))
      case None => None
    else None
  }

  lemma Fixed2RoundTrip(cents: nat)
    ensures ParseFixed2(Fixed2(cents)) == Some(cents)
  {
    var whole, frac := Text.ShowNat(cents / 100), Text.Pad2(cents % 100);
    Text.Pad2RoundTrip(cents % 100);
    Text.ShowNatRoundTrip(cents / 100);
    Text.NoneInDigits(whole, '.');
    Text.NoneInDigits(frac, '.');
    assert Fixed2(cents) == whole + ['.'] + frac;
    Text.SplitTwo(whole, frac, '.');
  }

  /** The formatted amount of a non-negative amount determines the type and the amount. */
  lemma FormattedAmountRoundTrip(t: TxType, cents: nat)
    ensures ParseFormatted(FormattedAmount(t, cents)) == Some((t, cents))
  {
    Fixed2RoundTrip(cents);
    var s := FormattedAmount(t, cents);
    match t
    case Expense =>
      assert s[2..] == Fixed2(cents);
    case Income =>
      assert s[1..] == Fixed2(cents);
      var f := Fixed2(cents);
      assert f[0] == Text.ShowNat(cents / 100)[0];
      assert s[1] != '$' by { assert Text.IsDigit(Text.ShowNat(cents / 100)[0]); }
      assert s[..2] != "-$" by { assert s[0] == '$'; }
  }

  /** An expense is shown with its absolute value. */
  lemma ExpenseSignIgnored(cents: int)
    ensures FormattedAmount(Expense, cents) == FormattedAmount(Expense, -cents)
  {
  }

  // ---------------------------------------------------------------------------
  // Per-type totals (SUM, COUNT and AVG grouped by type)

  /** The number of rows of type `t`. */
  function CountOf(rows: seq<Transaction>, t: TxType): (n: nat)
    ensures n <= |rows|
    ensures n > 0 <==> exists i :: 0 <= i < |rows| && rows[i].txType == t
  {
    if |rows| == 0 then 0
    else
      var rest := CountOf(rows[1..], t);
      assert forall i :: 0 < i < |rows| ==> rows[i] == rows[1..][i - 1];
      (if rows[0].txType == t then 1 else 0) + rest
  }

  /** The summed amount of the rows of type `t`. */
  function SumOf(rows: seq<Transaction>, t: TxType): int
  {
    if |rows| == 0 then 0
    else (if rows[0].txType == t then rows[0].amountCents else 0) + SumOf(rows[1..], t)
  }

  /** One group of the summary: SUM(amount), COUNT(id), and AVG(amount) = total / count. */
  datatype Stat = Stat(totalCents: int, count: nat)
  {
    function Average(): real requires count > 0 { totalCents as real / count as real }
  }

  /** GROUP BY type: one entry per type that has at least one row. */
  function Totals(rows: seq<Transaction>): (m: map<TxType, Stat>)
    ensures forall t :: t in m <==> CountOf(rows, t) > 0
    ensures forall t :: t in m ==> m[t].count > 0 && m[t].count == CountOf(rows, t) && m[t].totalCents == SumOf(rows, t)
  {
    map t | t in {Income, Expense} && CountOf(rows, t) > 0 :: Stat(SumOf(rows, t), CountOf(rows, t))
  }

  /** Every row is counted under exactly one type. */
  lemma {:induction false} CountsCoverRows(rows: seq<Transaction>)
    ensures CountOf(rows, Income) + CountOf(rows, Expense) == |rows|
  {
    if |rows| > 0 {
      CountsCoverRows(rows[1..]);
    }
  }

  /** Totals over two batches of rows add up. */
  lemma {:induction false} SumOfAppend(a: seq<Transaction>, b: seq<Transaction>, t: TxType)
    ensures SumOf(a + b, t) == SumOf(a, t) + SumOf(b, t)
    ensures CountOf(a + b, t) == CountOf(a, t) + CountOf(b, t)
  {
    if |a| > 0 {
      assert (a + b)[1..] == a[1..] + b;
      SumOfAppend(a[1..], b, t);
    } else {
      assert a + b == b;
    }
  }

  /** With every amount in the model's bounds, a group's total lies between its count
      times the smallest and the largest allowed amount, so its average does too. */
  lemma {:induction false} TotalsBounded(rows: seq<Transaction>, t: TxType)
    requires forall i :: 0 <= i < |rows| ==> MinAmountCents <= rows[i].amountCents <= MaxAmountCents
    ensures CountOf(rows, t) * MinAmountCents <= SumOf(rows, t) <= CountOf(rows, t) * MaxAmountCents
  {
    if |rows| > 0 {
      assert forall i :: 0 <= i < |rows[1..]| ==> rows[1..][i] == rows[i + 1];
      TotalsBounded(rows[1..], t);
    }
  }

  /** `getMonthlySummary`: the caller's rows dated within the month, totalled per type. */
  function MonthlySummary(rows: seq<Transaction>, userId: string, year: int, month: int): (m: map<TxType, Stat>)
    ensures forall t :: t in m ==> m[t].count > 0
    ensures var (from, to) := MonthRange(year, month);
            forall t :: t in m <==> exists x :: x in rows && x.userId == Some(userId) && x.txType == t
                                               && NotAfter(from, x.transactionDate) && NotAfter(x.transactionDate, to)
    ensures var (from, to) := MonthRange(year, month);
            forall t :: t in m ==> && m[t].count == CountOf(InMonth(rows, userId, from, to), t)
                                   && m[t].totalCents == SumOf(InMonth(rows, userId, from, to), t)
  {
    var (from, to) := MonthRange(year, month);
    var sel := InMonth(rows, userId, from, to);
    CountOfPositive(sel, Income);
    CountOfPositive(sel, Expense);
    Totals(sel)
  }

  /** The two groups of the monthly summary together count every row of the month once. */
  lemma MonthlySummaryCoversMonth(rows: seq<Transaction>, userId: string, year: int, month: int)
    ensures var m := MonthlySummary(rows, userId, year, month);
            var (from, to) := MonthRange(year, month);
            (if Income in m then m[Income].count else 0) + (if Expense in m then m[Expense].count else 0)
              == |InMonth(rows, userId, from, to)|
  {
    var (from, to) := MonthRange(year, month);
    var sel := InMonth(rows, userId, from, to);
    CountsCoverRows(sel);
  }

  /** A type has a positive count exactly when some row has that type. */
  lemma {:induction false} CountOfPositive(rows: seq<Transaction>, t: TxType)
    ensures CountOf(rows, t) > 0 <==> exists x :: x in rows && x.txType == t
  {
    if |rows| > 0 {
      CountOfPositive(rows[1..], t);
      assert forall x :: x in rows <==> x == rows[0] || x in rows[1..];
    }
  }

  /** The rows of `userId` whose date lies between `from` and `to` inclusive, in order. */
  function InMonth(rows: seq<Transaction>, userId: string, from: Date, to: Date): (r: seq<Transaction>)
    ensures |r| <= |rows|
    ensures forall x :: x in r <==> x in rows && x.userId == Some(userId)
                                    && NotAfter(from, x.transactionDate) && NotAfter(x.transactionDate, to)
  {
    if |rows| == 0 then []
    else
      var x := rows[0];
      var rest := InMonth(rows[1..], userId, from, to);
      assert rows == [x] + rows[1..];
      if x.userId == Some(userId) && NotAfter(from, x.transactionDate) && NotAfter(x.transactionDate, to)
      then [x] + rest else rest
  }

  /** Every row the monthly summary counts lies in the requested calendar month. */
  lemma MonthlySummaryRowsInMonth(rows: seq<Transaction>, userId: string, year: int, month: int, x: Transaction)
    requires x in InMonth(rows, userId, MonthRange(year, month).0, MonthRange(year, month).1)
    ensures x.transactionDate.year == MonthRange(year, month).0.year
    ensures x.transactionDate.month == MonthRange(year, month).0.month
  {
    MonthRangeMembers(year, month, x.transactionDate);
  }
}

=== FILE: transaction_routes.dfy ===
/**
 * The `/api/transactions` router: the query and body validators, the list
 * handler (filter, order, page, summary) and the create handler with its
 * category check. The database is a sequence of rows passed in, or an error.
 */
module TransactionRoutes {
  import opened Wrappers
  import opened Calendar
  import opened TransactionModel
  import opened Ordering
  import AppErrors
  import Text

  /** A request parameter whose format is checked by a validator: absent, present
      but rejected by the format check, or present and read as `value`. */
  datatype Field<T> = Absent | Malformed | Given(value: T)

  /** The query string of `GET /`. Page, limit and category id are kept as text;
      dates and amounts (in cents) are already read by their format check. */
  datatype ListQuery = ListQuery(
    page: Option<string>,
    limit: Option<string>,
    startDate: Field<Date>,
    endDate: Field<Date>,
    categoryId: Option<string>,
    txType: Option<string>,
    minAmount: Field<int>,
    maxAmount: Field<int>)

  const DefaultPage := 1
  const DefaultLimit := 20
  const MaxLimit := 100

  predicate IntAtLeast(s: string, lo: int) { Text.ParseInt(s).Some? && Text.ParseInt(s).value >= lo }

  predicate NonNegative(f: Field<int>) { f.Given? ==> f.value >= 0 }

  /** The names of the query parameters the validators reject, in declaration order. */
  function QueryErrors(q: ListQuery): (errs: seq<string>)
  {
    (if q.page.Some? && !IntAtLeast(q.page.value, 1) then ["page"] else [])
    + (if q.limit.Some? && !(IntAtLeast(q.limit.value, 1) && Text.ParseInt(q.limit.value).value <= MaxLimit) then ["limit"] else [])
    + (if q.startDate.Malformed? then ["startDate"] else [])
    + (if q.endDate.Malformed? then ["endDate"] else [])
    + (if q.categoryId.Some? && Text.ParseInt(q.categoryId.value).None? then ["categoryId"] else [])
    + (if q.txType.Some? && ParseTxType(q.txType.value).None? then ["type"] else [])
    + (if q.minAmount.Malformed? || !NonNegative(q.minAmount) then ["minAmount"] else [])
    + (if q.maxAmount.Malformed? || !NonNegative(q.maxAmount) then ["maxAmount"] else [])
  }

  /** A query passes validation exactly when page >= 1, 1 <= limit <= 100, the
      dates and category are well formed, the type is income or expense and
      both amount bounds are non-negative numbers. */
  lemma QueryAccepted(q: ListQuery)
    ensures |QueryErrors(q)| == 0 <==>
              && (q.page.Some? ==> IntAtLeast(q.page.value, 1))
              && (q.limit.Some? ==> IntAtLeast(q.limit.value, 1) && Text.ParseInt(q.limit.value).value <= MaxLimit)
              && !q.startDate.Malformed? && !q.endDate.Malformed?
              && (q.categoryId.Some? ==> Text.ParseInt(q.categoryId.value).Some?)
              && (q.txType.Some? ==> q.txType.value in {"income", "expense"})
              && !q.minAmount.Malformed? && NonNegative(q.minAmount)
              && !q.maxAmount.Malformed? && NonNegative(q.maxAmount)
  {
  }

  /** `parseInt(text) || fallback`: NaN and 0 are falsy. */
  function IntOr(text: Option<string>, fallback: int): (n: int)
    ensures text.None? ==> n == fallback
    ensures n != 0
    requires fallback != 0
  {
    if text.Some? && Text.ParseInt(text.value).Some? && Text.ParseInt(text.value).value != 0
    then Text.ParseInt(text.value).value
    else fallback
  }

  function PageOf(q: ListQuery): int { IntOr(q.page, DefaultPage) }
  function LimitOf(q: ListQuery): int { IntOr(q.limit, DefaultLimit) }

  /** In a validated query the page and limit are the given numbers or 1 and 20. */
  lemma PageAndLimit(q: ListQuery)
    requires |QueryErrors(q)| == 0
    ensures PageOf(q) >= 1 && 1 <= LimitOf(q) <= MaxLimit
    ensures q.page.None? ==> PageOf(q) == DefaultPage
    ensures q.limit.None? ==> LimitOf(q) == DefaultLimit
    ensures q.page.Some? ==> PageOf(q) == Text.ParseInt(q.page.value).value
    ensures q.limit.Some? ==> LimitOf(q) == Text.ParseInt(q.limit.value).value
  {
  }

  /** The `where` clause of the list query. Each optional part is `None` when absent. */
  datatype Where = Where(
    userId: string,
    dates: Option<(Date, Date)>,
    categoryId: Option<int>,
    txType: Option<TxType>,
    minCents: Option<int>,
    maxCents: Option<int>)

  /** The clause built from a query: always the caller's id; the date range only when both
      dates are given; category, type and each amount bound on their own. A category or
      type the validators let through is always in the clause. */
  function BuildFilter(q: ListQuery, userId: string): (f: Where)
    ensures f.userId == userId
    ensures f.dates.Some? <==> q.startDate.Given? && q.endDate.Given?
    ensures f.dates.Some? ==> f.dates.value == (q.startDate.value, q.endDate.value)
    ensures f.categoryId.Some? ==> q.categoryId.Some? && Text.ParseInt(q.categoryId.value) == f.categoryId
    ensures f.txType.Some? ==> q.txType == Some(TxTypeName(f.txType.value))
    ensures |QueryErrors(q)| == 0 ==>
              && (f.categoryId.Some? <==> q.categoryId.Some?)
              && (f.txType.Some? <==> q.txType.Some?)
    ensures f.minCents.Some? <==> q.minAmount.Given?
    ensures f.maxCents.Some? <==> q.maxAmount.Given?
    ensures f.minCents.Some? ==> f.minCents.value == q.minAmount.value
    ensures f.maxCents.Some? ==> f.maxCents.value == q.maxAmount.value
  {
    Where(
      userId,
      if q.startDate.Given? && q.endDate.Given? then Some((q.startDate.value, q.endDate.value)) else None,
      if q.categoryId.Some? then Text.ParseInt(q.categoryId.value) else None,
      if q.txType.Some? then ParseTxType(q.txType.value) else None,
      if q.minAmount.Given? then Some(q.minAmount.value) else None,
      if q.maxAmount.Given? then Some(q.maxAmount.value) else None)
  }

  /** A row satisfies every part of the clause (`BETWEEN` is inclusive at both ends). */
  predicate Matches(f: Where, t: Transaction)
  {
    && t.userId == Some(f.userId)
    && (f.dates.Some? ==> NotAfter(f.dates.value.0, t.transactionDate) && NotAfter(t.transactionDate, f.dates.value.1))
    && (f.categoryId.Some? ==> t.categoryId == f.categoryId)
    && (f.txType.Some? ==> t.txType == f.txType.value)
    && (f.minCents.Some? ==> t.amountCents >= f.minCents.value)
    && (f.maxCents.Some? ==> t.amountCents <= f.maxCents.value)
  }

  /** For a validated query, a row is selected exactly when it is the caller's, lies in the
      date range when both ends are given, and has the given category id, type and amount
      bounds. Each filter is stated on the query's own fields. */
  lemma FilterSelects(q: ListQuery, userId: string, t: Transaction)
    requires |QueryErrors(q)| == 0
    ensures Matches(BuildFilter(q, userId), t) <==>
              && t.userId == Some(userId)
              && (q.startDate.Given? && q.endDate.Given? ==>
                    NotAfter(q.startDate.value, t.transactionDate) && NotAfter(t.transactionDate, q.endDate.value))
              && (q.categoryId.Some? ==> t.categoryId == Text.ParseInt(q.categoryId.value))
              && (q.txType.Some? ==> TxTypeName(t.txType) == q.txType.value)
              && (q.minAmount.Given? ==> t.amountCents >= q.minAmount.value)
              && (q.maxAmount.Given? ==> t.amountCents <= q.maxAmount.value)
  {
    if q.txType.Some? {
      TxTypeNameParses(t.txType, q.txType.value);
    }
  }

  /** The rows the clause selects, in table order. */
  function Selected(rows: seq<Transaction>, f: Where): (r: seq<Transaction>)
    ensures |r| <= |rows|
    ensures forall t :: t in r <==> t in rows && Matches(f, t)
  {
    if |rows| == 0 then []
    else
      assert rows == [rows[0]] + rows[1..];
      (if Matches(f, rows[0]) then [rows[0]] else []) + Selected(rows[1..], f)
  }

  /** Order by transactionDate DESC, then createdAt DESC. */
  function ListRank(t: Transaction): Rank { Rank(t.transactionDate, t.createdAt) }

  /** `Math.ceil(total / limit)`. */
  function PageCount(total: nat, limit: int): (pages: nat)
    requires limit >= 1
    ensures pages * limit >= total
    ensures pages > 0 ==> (pages - 1) * limit < total
  {
    (total + limit - 1) / limit
  }

  datatype Pagination = Pagination(page: int, limit: int, total: nat, pages: nat)

  /** The replies of `GET /`. */
  datatype ListOutcome =
    | Rejected(errors: seq<string>)    // 400 {success: false, errors}
    | Listed(transactions: seq<Transaction>, pagination: Pagination, summary: map<TxType, Stat>)
    | ListForwarded(err: AppErrors.ErrorValue)

  /** `(page - 1) * limit`: the rows skipped before page `page`. */
  function Offset(page: int, limit: int): (offset: nat)
    requires page >= 1 && limit >= 1
    ensures page == 1 ==> offset == 0
  {
    (page - 1) * limit
  }

  /** `findAndCountAll` with `order`, `limit` and `offset`: page `page` of the selected
      rows in descending (date, creation time) order. */
  function PageRows(rows: seq<Transaction>, f: Where, page: int, limit: int): (r: seq<Transaction>)
    requires page >= 1 && limit >= 1
    ensures var ordered := SortDesc(Selected(rows, f), ListRank);
            forall i :: 0 <= i < |r| ==> Offset(page, limit) + i < |ordered| && r[i] == ordered[Offset(page, limit) + i]
    ensures forall t :: t in r ==> t in rows && Matches(f, t)
    ensures SortedDesc(r, ListRank)
    ensures |r| <= limit
    ensures var total, offset := |Selected(rows, f)|, Offset(page, limit);
            && (offset <= total ==> |r| == (if total - offset < limit then total - offset else limit))
            && (offset >= total ==> |r| == 0)
  {
    var ordered := SortDesc(Selected(rows, f), ListRank);
    var offset := Offset(page, limit);
    WindowOfSorted(ordered, ListRank, offset, limit);
    Window(ordered, offset, limit)
  }

  /** Every row of page `page` ranks at least as high as every row of the next page. */
  lemma PagesInOrder(rows: seq<Transaction>, f: Where, page: int, limit: int)
    requires page >= 1 && limit >= 1
    ensures forall x, y :: x in PageRows(rows, f, page, limit) && y in PageRows(rows, f, page + 1, limit) ==>
              RankGe(ListRank(x), ListRank(y))
  {
    var ordered := SortDesc(Selected(rows, f), ListRank);
    assert Offset(page + 1, limit) == Offset(page, limit) + limit;
    NextWindowRanksLower(ordered, ListRank, Offset(page, limit), limit);
  }

  /** Every selected row is on some page. */
  lemma RowOnSomePage(rows: seq<Transaction>, f: Where, limit: int, t: Transaction)
    requires limit >= 1
    requires t in Selected(rows, f)
    ensures exists page :: page >= 1 && t in PageRows(rows, f, page, limit)
  {
    var ordered := SortDesc(Selected(rows, f), ListRank);
    var m := InSomeWindow(ordered, limit, t);
    assert Offset(m + 1, limit) == m * limit;
    assert t in PageRows(rows, f, m + 1, limit);
  }

  /** The handler after authentication: validate, then query the rows of `db`. */
  function List(q: ListQuery, userId: string, db: Result<seq<Transaction>, string>): (r: ListOutcome)
    ensures r.Rejected? <==> |QueryErrors(q)| > 0
    ensures r.Rejected? ==> r.errors == QueryErrors(q)
    ensures r.ListForwarded? <==> |QueryErrors(q)| == 0 && db.Err?
    ensures r.Listed? ==>
              var f := BuildFilter(q, userId);
              var matching := Selected(db.value, f);
              && r.pagination == Pagination(PageOf(q), LimitOf(q), |matching|, PageCount(|matching|, LimitOf(q)))
              && r.transactions == PageRows(db.value, f, PageOf(q), LimitOf(q))
              && r.summary == Totals(matching)
  {
    if |QueryErrors(q)| > 0 then Rejected(QueryErrors(q))
    else if db.Err? then ListForwarded(AppErrors.ErrorValue("Error", db.error, None, []))
    else
      PageAndLimit(q);
      var f := BuildFilter(q, userId);
      var matching := Selected(db.value, f);
      Listed(PageRows(db.value, f, PageOf(q), LimitOf(q)),
             Pagination(PageOf(q), LimitOf(q), |matching|, PageCount(|matching|, LimitOf(q))),
             Totals(matching))
  }

  /** Every listed row is one of the caller's rows that the filter selects, the page is in
      (date, creation time) descending order and holds at most `limit` rows, and the total
      and summary cover the whole selection, not just the page. */
  lemma ListedRows(q: ListQuery, userId: string, rows: seq<Transaction>)
    requires |QueryErrors(q)| == 0
    ensures var r := List(q, userId, Ok(rows));
            var f := BuildFilter(q, userId);
            && r.Listed?
            && (forall t :: t in r.transactions ==> t in rows && Matches(f, t))
            && SortedDesc(r.transactions, ListRank)
            && |r.transactions| <= LimitOf(q) <= MaxLimit
            && r.pagination.total == |Selected(rows, f)|
            && (forall t :: t in r.summary <==> CountOf(Selected(rows, f), t) > 0)
  {
    PageAndLimit(q);
  }

  /** The page holds `limit` rows, or what is left after the offset `(page - 1) * limit`. */
  lemma PageSize(q: ListQuery, userId: string, rows: seq<Transaction>)
    requires |QueryErrors(q)| == 0
    ensures var r := List(q, userId, Ok(rows));
            var offset := Offset(PageOf(q), LimitOf(q));
            && r.Listed?
            && (offset <= r.pagination.total ==>
                  |r.transactions| == (if r.pagination.total - offset < LimitOf(q) then r.pagination.total - offset else LimitOf(q)))
            && (offset >= r.pagination.total ==> |r.transactions| == 0)
  {
    PageAndLimit(q);
  }

  /** A row of another user, or outside a given date range, is never listed. */
  lemma ListIsScoped(q: ListQuery, userId: string, rows: seq<Transaction>, t: Transaction)
    requires List(q, userId, Ok(rows)).Listed?
    requires t in List(q, userId, Ok(rows)).transactions
    ensures t.userId == Some(userId)
    ensures q.startDate.Given? && q.endDate.Given? ==>
              NotAfter(q.startDate.value, t.transactionDate) && NotAfter(t.transactionDate, q.endDate.value)
    ensures q.txType == Some("income") ==> t.txType == Income
  {
  }

  /** With only one of the two dates given, no row is excluded for its date. */
  lemma OneDateIsIgnored(q: ListQuery, userId: string, t: Transaction)
    requires !(q.startDate.Given? && q.endDate.Given?)
    ensures Matches(BuildFilter(q, userId), t) == Matches(BuildFilter(q.(startDate := Absent, endDate := Absent), userId), t)
  {
  }

  // ---------------------------------------------------------------------------
  // POST /

  /** The body of `POST /`. Amounts are in cents. */
  datatype CreateBody = CreateBody(
    categoryId: Field<int>,
    txType: Option<string>,
    amountCents: Field<int>,
    description: Option<string>,
    transactionDate: Field<Date>,
    receiptImageUrl: Option<string>,
    tags: Field<seq<string>>,
    isRecurring: Field<bool>,
    recurringPattern: Option<string>,
    recurringEndDate: Field<Date>,
    splitTransactions: Option<seq<string>>)

  /** The names of the body fields the validators reject, in declaration order. */
  function BodyErrors(b: CreateBody, isUrl: UrlCheck): seq<string>
  {
    (if !(b.categoryId.Given? && b.categoryId.value >= 1) then ["categoryId"] else [])
    + (if !(b.txType.Some? && ParseTxType(b.txType.value).Some?) then ["type"] else [])
    + (if !(b.amountCents.Given? && MinAmountCents <= b.amountCents.value <= MaxAmountCents) then ["amount"] else [])
    + (if b.description.Some? && |b.description.value| > MaxDescriptionLength then ["description"] else [])
    + (if !b.transactionDate.Given? then ["transactionDate"] else [])
    + (if b.receiptImageUrl.Some? && !isUrl(b.receiptImageUrl.value) then ["receiptImageUrl"] else [])
    + (if b.tags.Malformed? then ["tags"] else [])
    + (if b.isRecurring.Malformed? then ["isRecurring"] else [])
    + (if b.recurringPattern.Some? && ParsePattern(b.recurringPattern.value).None? then ["recurringPattern"] else [])
    + (if b.recurringEndDate.Malformed? then ["recurringEndDate"] else [])
  }

  /** A body passes validation exactly when the required fields are present and in range
      and the optional ones, when present, are well formed. */
  lemma BodyAccepted(b: CreateBody, isUrl: UrlCheck)
    ensures |BodyErrors(b, isUrl)| == 0 <==>
              && b.categoryId.Given? && b.categoryId.value >= 1
              && b.txType.Some? && b.txType.value in {"income", "expense"}
              && b.amountCents.Given? && 1 <= b.amountCents.value <= 99999999
              && (b.description.Some? ==> |b.description.value| <= 500)
              && b.transactionDate.Given?
              && (b.receiptImageUrl.Some? ==> isUrl(b.receiptImageUrl.value))
              && !b.tags.Malformed? && !b.isRecurring.Malformed?
              && (b.recurringPattern.Some? ==> b.recurringPattern.value in {"daily", "weekly", "monthly", "yearly"})
              && !b.recurringEndDate.Malformed?
  {
  }

  function FieldValue<T>(f: Field<T>): Option<T>
  {
    if f.Given? then Some(f.value) else None
  }

  /** The attributes the handler passes to `Transaction.create`; the owner is the caller. */
  function NewFromBody(b: CreateBody, userId: string): (n: NewTransaction)
    ensures n.userId == Some(userId)
  {
    NewTransaction(
      Some(userId), FieldValue(b.categoryId),
      if b.txType.Some? then ParseTxType(b.txType.value) else None,
      FieldValue(b.amountCents), b.description, FieldValue(b.transactionDate),
      b.receiptImageUrl, None, None, FieldValue(b.tags), FieldValue(b.isRecurring),
      if b.recurringPattern.Some? then ParsePattern(b.recurringPattern.value) else None,
      FieldValue(b.recurringEndDate), b.splitTransactions, None)
  }

  /** The replies of `POST /`. */
  datatype CreateOutcome =
    | BodyRejected(errors: seq<string>)  // 400 {success: false, errors}
    | UnknownCategory                    // 400 {success: false, error: 'Invalid category'}
    | Stored(record: Transaction)        // 201 {success: true, data}
    | CreateForwarded(err: AppErrors.ErrorValue)

  function StatusOf(o: CreateOutcome): int
    requires !o.CreateForwarded?
  {
    match o
    case BodyRejected(_) => 400
    case UnknownCategory => 400
    case Stored(_) => 201
  }

  /** The handler after authentication. The category is looked up by id alone; `id`,
      `now` and `today` are the generated key, the clock and the current UTC date. */
  function CreateTx(b: CreateBody, userId: string, categories: Result<seq<Category>, string>,
                    id: string, now: int, today: Date, isUrl: UrlCheck): (r: CreateOutcome)
    ensures r.BodyRejected? <==> |BodyErrors(b, isUrl)| > 0
    ensures r.UnknownCategory? <==>
              |BodyErrors(b, isUrl)| == 0 && categories.Ok?
              && !exists c :: c in categories.value && c.id == b.categoryId.value
    ensures r.Stored? ==> && r.record.userId == Some(userId)
                          && r.record.categoryId == Some(b.categoryId.value)
                          && Some(r.record.amountCents) == Some(b.amountCents.value)
                          && Some(TxTypeName(r.record.txType)) == b.txType
                          && r.record.id == id
  {
    if |BodyErrors(b, isUrl)| > 0 then BodyRejected(BodyErrors(b, isUrl))
    else if categories.Err? then CreateForwarded(AppErrors.ErrorValue("Error", categories.error, None, []))
    else if !exists c :: c in categories.value && c.id == b.categoryId.value then UnknownCategory
    else
      match Create(NewFromBody(b, userId), id, now, today, isUrl)
      case Ok(t) => Stored(t)
      case Err(vs) => CreateForwarded(ValidationError(vs))
  }

  /** Once the body is valid and the category exists, the only rules left to fail are the
      date's: the row is stored exactly when its date is on the calendar and not after
      today. The route's ISO 8601 check lets an off-calendar day such as 2026-02-30
      through, and the model's `isDate` answers it with 400; a future date ends in a 400
      carrying the custom message. */
  lemma CreateAfterValidation(b: CreateBody, userId: string, categories: seq<Category>,
                              id: string, now: int, today: Date, isUrl: UrlCheck)
    requires |BodyErrors(b, isUrl)| == 0
    requires exists c :: c in categories && c.id == b.categoryId.value
    ensures var r := CreateTx(b, userId, Ok(categories), id, now, today, isUrl);
            var d := b.transactionDate.value;
            && (r.Stored? <==> Valid(d) && NotAfter(d, today))
            && (!r.Stored? ==> r.CreateForwarded?)
            && (!Valid(d) ==>
                  AppErrors.HandleError(r.err, None) == AppErrors.Reply(400, "Validation isDate on transactionDate failed"))
            && (Valid(d) && Before(today, d) ==>
                  AppErrors.HandleError(r.err, None) == AppErrors.Reply(400, "Transaction date cannot be in the future"))
  {
    var d := b.transactionDate.value;
    BodyLeavesDateRules(b, userId, today, isUrl);
    ValidBodyReachesCreate(b, userId, categories, id, now, today, isUrl);
    if !Valid(d) {
      OneViolationReply(Rule("isDate", "transactionDate"));
      IsDateMessage();
    } else if Before(today, d) {
      OneViolationReply(NotFuture);
    }
  }

  /** A valid body with an existing category is answered by `Transaction.create` alone. */
  lemma ValidBodyReachesCreate(b: CreateBody, userId: string, categories: seq<Category>,
                               id: string, now: int, today: Date, isUrl: UrlCheck)
    requires |BodyErrors(b, isUrl)| == 0
    requires exists c :: c in categories && c.id == b.categoryId.value
    ensures var vs := Violations(NewFromBody(b, userId), today, isUrl);
            CreateTx(b, userId, Ok(categories), id, now, today, isUrl)
              == if |vs| > 0 then CreateForwarded(ValidationError(vs))
                 else Stored(Create(NewFromBody(b, userId), id, now, today, isUrl).value)
  {
  }

  lemma IsDateMessage()
    ensures Message(Rule("isDate", "transactionDate")) == "Validation isDate on transactionDate failed"
  {
  }

  /** A single violation is answered with 400 and its message. */
  lemma OneViolationReply(v: Violation)
    ensures AppErrors.HandleError(ValidationError([v]), None) == AppErrors.Reply(400, Message(v))
  {
  }

  /** After body validation only the date's two rules can still object. */
  lemma BodyLeavesDateRules(b: CreateBody, userId: string, today: Date, isUrl: UrlCheck)
    requires |BodyErrors(b, isUrl)| == 0
    ensures var d := b.transactionDate.value;
            Violations(NewFromBody(b, userId), today, isUrl)
              == (if !Valid(d) then [Rule("isDate", "transactionDate")] else [])
                 + (if Valid(d) && Before(today, d) then [NotFuture] else [])
  {
    var n := NewFromBody(b, userId);
    assert NullViolations(n) == [];
  }

  /** A stored row gets the declared defaults for the attributes the body leaves out. */
  lemma StoredDefaults(b: CreateBody, userId: string, categories: Result<seq<Category>, string>,
                       id: string, now: int, today: Date, isUrl: UrlCheck)
    requires CreateTx(b, userId, categories, id, now, today, isUrl).Stored?
    ensures var t := CreateTx(b, userId, categories, id, now, today, isUrl).record;
            && !t.isOcrProcessed && t.metadata == map[]
            && (b.tags.Absent? ==> t.tags == [])
            && (b.isRecurring.Absent? ==> !t.isRecurring)
            && (b.splitTransactions.None? ==> t.splitTransactions == [])
  {
  }

  // ---------------------------------------------------------------------------
  // The listing scenarios of the controller tests: three rows of one user.

  function SampleRow(id: string, t: TxType, cents: int, day: int): Transaction
  {
    Transaction(id, Some("u1"), Some(1), t, cents, None, Date(2026, 1, day), None, false, None,
                [], false, None, None, [], map[], 0)
  }

  function SampleRows(): seq<Transaction>
  {
    [SampleRow("a", Expense, 10000, 10), SampleRow("b", Expense, 20000, 11), SampleRow("c", Income, 100000, 12)]
  }

  const NoQuery := ListQuery(None, None, Absent, Absent, None, None, Absent, Absent)

  lemma SampleSelection(f: Where)
    requires f.userId == "u1" && f.categoryId.None? && f.txType.None? && f.minCents.None? && f.maxCents.None?
    requires f.dates.None? || f.dates == Some((Date(2026, 1, 11), Date(2026, 1, 12)))
    ensures f.dates.None? ==> Selected(SampleRows(), f) == SampleRows()
    ensures f.dates.Some? ==> Selected(SampleRows(), f) == SampleRows()[1..]
  {
    var rows := SampleRows();
    var a, b, c := rows[0], rows[1], rows[2];
    assert rows[1..] == [b, c] && rows[1..][1..] == [c] && [c][1..] == [];
    assert Matches(f, b) && Matches(f, c);
    assert Selected([c], f) == [c];
    assert Selected([b, c], f) == [b, c];
    assert f.dates.None? <==> Matches(f, a);
  }

  /** `?page=1&limit=2` returns two of the three rows and reports a total of three. */
  lemma PaginationScenario()
    ensures var r := List(NoQuery.(page := Some("1"), limit := Some("2")), "u1", Ok(SampleRows()));
            && r.Listed? && |r.transactions| == 2
            && r.pagination.page == 1 && r.pagination.limit == 2
            && r.pagination.total == 3 && r.pagination.pages == 2
  {
    var q := NoQuery.(page := Some("1"), limit := Some("2"));
    assert Text.ParseInt("1") == Some(1) && Text.ParseInt("2") == Some(2);
    assert |QueryErrors(q)| == 0;
    SampleSelection(BuildFilter(q, "u1"));
  }

  /** `?startDate=2026-01-11&endDate=2026-01-12` selects the two rows of those days. */
  lemma DateRangeScenario()
    ensures var r := List(DateRangeQuery(), "u1", Ok(SampleRows()));
            && r.Listed? && |r.transactions| == 2 && r.pagination.total == 2
  {
    var q := DateRangeQuery();
    DateRangeQueryValid();
    PageAndLimit(q);
    DateRangeSelectsTwo();
    assert Offset(PageOf(q), LimitOf(q)) == 0;
  }

  function DateRangeQuery(): ListQuery
  {
    ListQuery(None, None, Given(Date(2026, 1, 11)), Given(Date(2026, 1, 12)), None, None, Absent, Absent)
  }

  function DateRangeWhere(): Where
  {
    Where("u1", Some((Date(2026, 1, 11), Date(2026, 1, 12))), None, None, None, None)
  }

  lemma DateRangeQueryValid()
    ensures |QueryErrors(DateRangeQuery())| == 0
    ensures BuildFilter(DateRangeQuery(), "u1") == DateRangeWhere()
  {
  }

  lemma DateRangeSelectsTwo()
    ensures |Selected(SampleRows(), DateRangeWhere())| == 2
  {
    SampleSelection(DateRangeWhere());
  }

  /** Without filters the summary totals the expenses to 300.00 and the income to 1000.00. */
  lemma SummaryScenario()
    ensures var r := List(NoQuery, "u1", Ok(SampleRows()));
            && r.Listed? && Expense in r.summary && Income in r.summary
            && r.summary[Expense] == Stat(30000, 2) && r.summary[Income] == Stat(100000, 1)
  {
    assert |QueryErrors(NoQuery)| == 0;
    var f := BuildFilter(NoQuery, "u1");
    assert f == Where("u1", None, None, None, None, None);
    SampleSelection(f);
    SampleTotals();
  }

  lemma SampleTotals()
    ensures CountOf(SampleRows(), Expense) == 2 && SumOf(SampleRows(), Expense) == 30000
    ensures CountOf(SampleRows(), Income) == 1 && SumOf(SampleRows(), Income) == 100000
  {
    var rows := SampleRows();
    var a, b, c := rows[0], rows[1], rows[2];
    assert rows[1..] == [b, c] && rows[1..][1..] == [c] && [c][1..] == [];
    assert CountOf([c], Expense) == 0 && CountOf([c], Income) == 1;
    assert SumOf([c], Expense) == 0 && SumOf([c], Income) == 100000;
  }
}

=== FILE: user_model.dfy ===
/**
 * The User model: attribute rules and defaults, the hook that hashes a changed
 * password before saving, the JSON view without secrets, and the payloads of
 * the access and refresh tokens. Hashing, e-mail syntax and signing are
 * parameters or symbolic values.
 */
module UserModel {
  import opened Wrappers

  datatype Plan = Free | Premium | Enterprise

  function PlanName(p: Plan): string
  {
    match p
    case Free => "free"
    case Premium => "premium"
    case Enterprise => "enterprise"
  }

  /** The ENUM('free', 'premium', 'enterprise') column read from text. */
  function ParsePlan(s: string): (r: Option<Plan>)
    ensures r.Some? ==> PlanName(r.value) == s
  {
    if s == "free" then Some(Free) else if s == "premium" then Some(Premium)
    else if s == "enterprise" then Some(Enterprise) else None
  }

  lemma PlanNamesParse(p: Plan)
    ensures ParsePlan(PlanName(p)) == Some(p)
  {
  }

  const MinPasswordLength := 8
  const MaxPasswordLength := 100
  const MinNameLength := 2
  const MaxNameLength := 50
  const DefaultCurrency := "USD"

  /** A stored user. Times are milliseconds since the epoch. */
  datatype User = User(
    id: string,
    email: string,
    password: string,
    firstName: string,
    lastName: string,
    preferredCurrency: string,
    isEmailVerified: bool,
    lastLoginAt: Option<int>,
    isActive: bool,
    twoFactorSecret: Option<string>,
    twoFactorEnabled: bool,
    subscriptionPlan: Plan,
    subscriptionEndsAt: Option<int>,
    resetPasswordToken: Option<string>,
    resetPasswordExpires: Option<int>,
    createdAt: int,
    updatedAt: int)

  /** The attributes handed to `User.create`; `None` is an attribute left undefined. */
  datatype NewUser = NewUser(
    email: Option<string>,
    password: Option<string>,
    firstName: Option<string>,
    lastName: Option<string>,
    preferredCurrency: Option<string>,
    isEmailVerified: Option<bool>,
    isActive: Option<bool>,
    twoFactorEnabled: Option<bool>,
    subscriptionPlan: Option<Plan>)

  datatype Violation =
    | NotNull(field: string)           // an `allowNull: false` attribute left undefined
    | Rule(rule: string, field: string)  // a validator that rejected the value
    | Unique(field: string)            // the insert hit the unique index on the column

  predicate LengthIn(s: string, lo: nat, hi: nat) { lo <= |s| <= hi }

  /** The validation entries for a new user: the null checks, then the validators, each in
      attribute order. `isEmail` is the e-mail syntax check. */
  function Violations(n: NewUser, isEmail: string -> bool): seq<Violation>
  {
    (if n.email.None? then [NotNull("email")] else [])
    + (if n.password.None? then [NotNull("password")] else [])
    + (if n.firstName.None? then [NotNull("firstName")] else [])
    + (if n.lastName.None? then [NotNull("lastName")] else [])
    + (if n.email.Some? && !isEmail(n.email.value) then [Rule("isEmail", "email")] else [])
    + (if n.password.Some? && !LengthIn(n.password.value, MinPasswordLength, MaxPasswordLength) then [Rule("len", "password")] else [])
    + (if n.firstName.Some? && !LengthIn(n.firstName.value, MinNameLength, MaxNameLength) then [Rule("len", "firstName")] else [])
    + (if n.lastName.Some? && !LengthIn(n.lastName.value, MinNameLength, MaxNameLength) then [Rule("len", "lastName")] else [])
  }

  /** `User.create`: validate the plain attributes, then the save hook hashes the password
      (a new record's password always counts as changed), then the row is inserted. `taken`
      is the set of e-mails already stored: the unique index refuses a second row with one
      of them. `now` stamps `createdAt` and `updatedAt`. */
  function Create(n: NewUser, id: string, now: int, taken: set<string>,
                  isEmail: string -> bool, hash: string -> string): (r: Result<User, seq<Violation>>)
    ensures r.Err? <==> |Violations(n, isEmail)| > 0 || n.email.value in taken
    ensures r.Err? && |Violations(n, isEmail)| > 0 ==> r.error == Violations(n, isEmail)
    ensures r.Err? && |Violations(n, isEmail)| == 0 ==> r.error == [Unique("email")]
    ensures r.Ok? ==> r.value.email !in taken && r.value.id == id
    ensures r.Ok? ==> r.value.createdAt == now && r.value.updatedAt == now
    ensures r.Ok? ==>
              && n.password.Some? && MinPasswordLength <= |n.password.value| <= MaxPasswordLength
              && n.firstName.Some? && MinNameLength <= |n.firstName.value| <= MaxNameLength
              && n.lastName.Some? && MinNameLength <= |n.lastName.value| <= MaxNameLength
              && Some(r.value.email) == n.email && isEmail(r.value.email)
              && r.value.password == hash(n.password.value)
              && r.value.preferredCurrency == n.preferredCurrency.GetOr(DefaultCurrency)
              && r.value.isEmailVerified == n.isEmailVerified.GetOr(false)
              && r.value.isActive == n.isActive.GetOr(true)
              && r.value.twoFactorEnabled == n.twoFactorEnabled.GetOr(false)
              && r.value.subscriptionPlan == n.subscriptionPlan.GetOr(Free)
  {
    var vs := Violations(n, isEmail);
    if |vs| > 0 then Err(vs)
    else if n.email.value in taken then Err([Unique("email")])
    else
      Ok(User(id, n.email.value, hash(n.password.value), n.firstName.value, n.lastName.value,
              n.preferredCurrency.GetOr(DefaultCurrency), n.isEmailVerified.GetOr(false), None,
              n.isActive.GetOr(true), None, n.twoFactorEnabled.GetOr(false), n.subscriptionPlan.GetOr(Free),
              None, None, None, now, now))
  }

  /** A second account with a stored e-mail is refused, even when every field is valid;
      registering a user makes the e-mail taken for the next one. */
  lemma DuplicateEmailRefused(n: NewUser, id: string, id2: string, now: int, taken: set<string>,
                              isEmail: string -> bool, hash: string -> string)
    requires Create(n, id, now, taken, isEmail, hash).Ok?
    ensures Create(n, id2, now, taken + {n.email.value}, isEmail, hash) == Err([Unique("email")])
  {
  }

  /** A password of 7 or 101 characters is refused; the name bounds are 2 and 50. */
  lemma LengthBounds(n: NewUser, isEmail: string -> bool)
    ensures n.password.Some? && (|n.password.value| < 8 || |n.password.value| > 100) ==> Rule("len", "password") in Violations(n, isEmail)
    ensures n.firstName.Some? && (|n.firstName.value| < 2 || |n.firstName.value| > 50) ==> Rule("len", "firstName") in Violations(n, isEmail)
    ensures n.lastName.Some? && (|n.lastName.value| < 2 || |n.lastName.value| > 50) ==> Rule("len", "lastName") in Violations(n, isEmail)
  {
  }

  /** Leaving the optional attributes out gives USD, not verified, active, no two-factor, free plan. */
  lemma CreateDefaults(n: NewUser, id: string, now: int, taken: set<string>, isEmail: string -> bool, hash: string -> string)
    requires Create(n, id, now, taken, isEmail, hash).Ok?
    requires n.preferredCurrency.None? && n.isEmailVerified.None? && n.isActive.None?
    requires n.twoFactorEnabled.None? && n.subscriptionPlan.None?
    ensures var u := Create(n, id, now, taken, isEmail, hash).value;
            && u.preferredCurrency == "USD" && !u.isEmailVerified && u.isActive
            && !u.twoFactorEnabled && u.subscriptionPlan == Free
  {
  }

  /** Saving a stored user after setting its password to `newPassword` (`None`: not set).
      The password counts as changed only when the new value differs; only then is it
      validated as plain text, replaced by its hash, and `updatedAt` stamped with `now`.
      A save with nothing changed writes nothing. */
  function SavePassword(stored: User, newPassword: Option<string>, now: int, hash: string -> string): (r: Result<User, seq<Violation>>)
    ensures r.Ok? ==> r.value.(password := stored.password, updatedAt := stored.updatedAt) == stored
    ensures (newPassword.None? || newPassword == Some(stored.password)) ==> r == Ok(stored)
    ensures newPassword.Some? && newPassword.value != stored.password ==>
              (r.Ok? <==> MinPasswordLength <= |newPassword.value| <= MaxPasswordLength)
              && (r.Ok? ==> r.value.password == hash(newPassword.value) && r.value.updatedAt == now)
  {
    if newPassword.None? || newPassword.value == stored.password then Ok(stored)
    else if !LengthIn(newPassword.value, MinPasswordLength, MaxPasswordLength) then Err([Rule("len", "password")])
    else Ok(stored.(password := hash(newPassword.value), updatedAt := now))
  }

  // ---------------------------------------------------------------------------
  // toJSON

  /** An attribute value as `get()` reports it. */
  datatype Value = Text(s: string) | Flag(b: bool) | Moment(ms: int) | Null

  /** The attribute names of the model. */
  datatype Attr =
    | Id | Email | Password | FirstName | LastName | PreferredCurrency | IsEmailVerified
    | LastLoginAt | IsActive | TwoFactorSecret | TwoFactorEnabled | SubscriptionPlan
    | SubscriptionEndsAt | ResetPasswordToken | ResetPasswordExpires | CreatedAt | UpdatedAt

  /** The declared attributes and the two timestamps the models are defined with. */
  const AllAttrs: set<Attr> := {Id, Email, Password, FirstName, LastName, PreferredCurrency, IsEmailVerified,
                                LastLoginAt, IsActive, TwoFactorSecret, TwoFactorEnabled, SubscriptionPlan,
                                SubscriptionEndsAt, ResetPasswordToken, ResetPasswordExpires, CreatedAt, UpdatedAt}

  function TextOr(o: Option<string>): Value { if o.Some? then Text(o.value) else Null }
  function MomentOr(o: Option<int>): Value { if o.Some? then Moment(o.value) else Null }

  /** `user.get(a)`. */
  function Get(u: User, a: Attr): Value
  {
    match a
    case Id => Text(u.id)
    case Email => Text(u.email)
    case Password => Text(u.password)
    case FirstName => Text(u.firstName)
    case LastName => Text(u.lastName)
    case PreferredCurrency => Text(u.preferredCurrency)
    case IsEmailVerified => Flag(u.isEmailVerified)
    case LastLoginAt => MomentOr(u.lastLoginAt)
    case IsActive => Flag(u.isActive)
    case TwoFactorSecret => TextOr(u.twoFactorSecret)
    case TwoFactorEnabled => Flag(u.twoFactorEnabled)
    case SubscriptionPlan => Text(PlanName(u.subscriptionPlan))
    case SubscriptionEndsAt => MomentOr(u.subscriptionEndsAt)
    case ResetPasswordToken => TextOr(u.resetPasswordToken)
    case ResetPasswordExpires => MomentOr(u.resetPasswordExpires)
    case CreatedAt => Moment(u.createdAt)
    case UpdatedAt => Moment(u.updatedAt)
  }

  /** `this.get()`: every attribute with its value. */
  function Attributes(u: User): (m: map<Attr, Value>)
    ensures m.Keys == AllAttrs
  {
    map a | a in AllAttrs :: Get(u, a)
  }

  const Hidden: set<Attr> := {Password, TwoFactorSecret, ResetPasswordToken, ResetPasswordExpires}

  /** The JSON view: a copy of the attributes without the four secret ones. */
  function ToJson(u: User): (m: map<Attr, Value>)
    ensures m.Keys == Attributes(u).Keys - Hidden
    ensures forall k :: k in m ==> m[k] == Attributes(u)[k]
  {
    Attributes(u) - Hidden
  }

  /** The view hides exactly the four secrets: every other attribute stays, with its value. */
  lemma ToJsonHidesExactlySecrets(u: User, k: Attr)
    ensures k in ToJson(u) <==> k !in Hidden
    ensures k in ToJson(u) ==> ToJson(u)[k] == Get(u, k)
    ensures Password !in ToJson(u) && TwoFactorSecret !in ToJson(u)
    ensures ResetPasswordToken !in ToJson(u) && ResetPasswordExpires !in ToJson(u)
  {
    assert k in AllAttrs;
  }

  /** Two users that differ only in their secrets have the same view. */
  lemma ToJsonIgnoresSecrets(u: User, password: string, secret: Option<string>, token: Option<string>, expires: Option<int>)
    ensures ToJson(u) == ToJson(u.(password := password, twoFactorSecret := secret,
                                   resetPasswordToken := token, resetPasswordExpires := expires))
  {
    var v := u.(password := password, twoFactorSecret := secret, resetPasswordToken := token, resetPasswordExpires := expires);
    forall k | k !in Hidden ensures Get(u, k) == Get(v, k) {
      SameOutsideSecrets(u, v, k);
    }
    SameVisibleSameView(u, v);
  }

  /** Users that agree on every attribute outside the secrets have the same view. */
  lemma SameVisibleSameView(u: User, v: User)
    requires forall k :: k !in Hidden ==> Get(u, k) == Get(v, k)
    ensures ToJson(u) == ToJson(v)
  {
    var a, b := ToJson(u), ToJson(v);
    assert a.Keys == b.Keys;
    forall k | k in a ensures a[k] == b[k] {
      assert a[k] == Get(u, k);
    }
  }

  lemma SameOutsideSecrets(u: User, v: User, k: Attr)
    requires u.id == v.id && u.email == v.email && u.firstName == v.firstName && u.lastName == v.lastName
    requires u.preferredCurrency == v.preferredCurrency && u.isEmailVerified == v.isEmailVerified
    requires u.lastLoginAt == v.lastLoginAt && u.isActive == v.isActive && u.twoFactorEnabled == v.twoFactorEnabled
    requires u.subscriptionPlan == v.subscriptionPlan && u.subscriptionEndsAt == v.subscriptionEndsAt
    requires u.createdAt == v.createdAt && u.updatedAt == v.updatedAt
    requires k !in Hidden
    ensures Get(u, k) == Get(v, k)
  {
  }

  // ---------------------------------------------------------------------------
  // Tokens

  /** The claims of a token. */
  datatype Payload = Payload(id: string, email: Option<string>, plan: Option<string>)

  /** A signed token, kept symbolic: what was signed, with which secret, for how long. */
  datatype Token = Token(payload: Payload, secret: string, expiresIn: string)

  /** `process.env[name] || fallback`: an unset or empty variable falls back. */
  function EnvOr(env: map<string, string>, name: string, fallback: string): (v: string)
    ensures name !in env ==> v == fallback
    ensures name in env && env[name] != "" ==> v == env[name]
  {
    if name in env && env[name] != "" then env[name] else fallback
  }

  /** What the `ms` package accepts as an `expiresIn` string ("7d", "20h", "60", ...). */
  type Timespan = string -> bool

  const NoSecretError: string := "secretOrPrivateKey must have a value"
  const TimespanError: string :=
    "\"expiresIn\" should be a number of seconds or string representing a timespan eg: \"1d\", \"20h\", 60"

  /** `jwt.sign`: an unset or empty secret is refused first; then an `expiresIn` that
      `ms` cannot read is refused. */
  function Sign(p: Payload, env: map<string, string>, secretVar: string, expiresIn: string,
                isTimespan: Timespan): (r: Result<Token, string>)
    ensures r.Err? <==> secretVar !in env || env[secretVar] == "" || !isTimespan(expiresIn)
    ensures (secretVar !in env || env[secretVar] == "") ==> r == Err(NoSecretError)
    ensures secretVar in env && env[secretVar] != "" && !isTimespan(expiresIn) ==> r == Err(TimespanError)
    ensures r.Ok? ==> r.value.payload == p && r.value.expiresIn == expiresIn && r.value.secret == env[secretVar]
  {
    if secretVar !in env || env[secretVar] == "" then Err(NoSecretError)
    else if !isTimespan(expiresIn) then Err(TimespanError)
    else Ok(Token(p, env[secretVar], expiresIn))
  }

  /** True when `name` holds a non-empty value, which `||` then keeps. */
  predicate EnvSet(env: map<string, string>, name: string) { name in env && env[name] != "" }

  /** `generateAuthToken`: id, e-mail and plan, signed with JWT_SECRET, valid for
      JWT_EXPIRES_IN or seven days. */
  function AuthToken(u: User, env: map<string, string>, isTimespan: Timespan): (r: Result<Token, string>)
    ensures r.Ok? ==> r.value.payload == Payload(u.id, Some(u.email), Some(PlanName(u.subscriptionPlan)))
    ensures r.Ok? && !EnvSet(env, "JWT_EXPIRES_IN") ==> r.value.expiresIn == "7d"
    ensures r.Ok? && EnvSet(env, "JWT_EXPIRES_IN") ==> r.value.expiresIn == env["JWT_EXPIRES_IN"]
    ensures r.Ok? ==> "JWT_SECRET" in env && r.value.secret == env["JWT_SECRET"]
    ensures EnvSet(env, "JWT_EXPIRES_IN") ==>
              (r.Err? <==> !EnvSet(env, "JWT_SECRET") || !isTimespan(env["JWT_EXPIRES_IN"]))
    ensures !EnvSet(env, "JWT_EXPIRES_IN") ==>
              (r.Err? <==> !EnvSet(env, "JWT_SECRET") || !isTimespan("7d"))
    ensures !EnvSet(env, "JWT_SECRET") ==> r == Err(NoSecretError)
  {
    Sign(Payload(u.id, Some(u.email), Some(PlanName(u.subscriptionPlan))), env, "JWT_SECRET",
         EnvOr(env, "JWT_EXPIRES_IN", "7d"), isTimespan)
  }

  /** `generateRefreshToken`: the id alone, signed with JWT_REFRESH_SECRET, valid for
      JWT_REFRESH_EXPIRES_IN or thirty days. */
  function RefreshToken(u: User, env: map<string, string>, isTimespan: Timespan): (r: Result<Token, string>)
    ensures r.Ok? ==> r.value.payload == Payload(u.id, None, None)
    ensures r.Ok? && !EnvSet(env, "JWT_REFRESH_EXPIRES_IN") ==> r.value.expiresIn == "30d"
    ensures r.Ok? && EnvSet(env, "JWT_REFRESH_EXPIRES_IN") ==> r.value.expiresIn == env["JWT_REFRESH_EXPIRES_IN"]
    ensures r.Ok? ==> "JWT_REFRESH_SECRET" in env && r.value.secret == env["JWT_REFRESH_SECRET"]
    ensures EnvSet(env, "JWT_REFRESH_EXPIRES_IN") ==>
              (r.Err? <==> !EnvSet(env, "JWT_REFRESH_SECRET") || !isTimespan(env["JWT_REFRESH_EXPIRES_IN"]))
    ensures !EnvSet(env, "JWT_REFRESH_EXPIRES_IN") ==>
              (r.Err? <==> !EnvSet(env, "JWT_REFRESH_SECRET") || !isTimespan("30d"))
    ensures !EnvSet(env, "JWT_REFRESH_SECRET") ==> r == Err(NoSecretError)
  {
    Sign(Payload(u.id, None, None), env, "JWT_REFRESH_SECRET", EnvOr(env, "JWT_REFRESH_EXPIRES_IN", "30d"), isTimespan)
  }

  /** The refresh token carries nothing but the id: users with the same id get the same
      refresh token, whatever their e-mail or plan. */
  lemma RefreshTokenOnlyId(u: User, v: User, env: map<string, string>, isTimespan: Timespan)
    requires u.id == v.id
    ensures RefreshToken(u, env, isTimespan) == RefreshToken(v, env, isTimespan)
  {
  }

  /** An empty expiry variable counts as unset: with a secret, and `ms` reading "7d", the
      token is signed for seven days. */
  lemma EmptyExpiryFallsBack(u: User, env: map<string, string>, isTimespan: Timespan)
    requires "JWT_SECRET" in env && env["JWT_SECRET"] != "" && isTimespan("7d")
    ensures AuthToken(u, env["JWT_EXPIRES_IN" := ""], isTimespan).Ok?
    ensures AuthToken(u, env["JWT_EXPIRES_IN" := ""], isTimespan).value.expiresIn == "7d"
  {
  }

  /** An expiry `ms` cannot read is refused even with a secret set: "abc" is such a text. */
  lemma UnreadableExpiryRefused(u: User, isTimespan: Timespan)
    requires !isTimespan("abc")
    ensures AuthToken(u, map["JWT_SECRET" := "s", "JWT_EXPIRES_IN" := "abc"], isTimespan) == Err(TimespanError)
  {
    var env := map["JWT_SECRET" := "s", "JWT_EXPIRES_IN" := "abc"];
    assert EnvSet(env, "JWT_SECRET") && EnvSet(env, "JWT_EXPIRES_IN");
  }
}

=== FILE: wrappers.dfy ===
/** Option and Result: absent values, and operations that either succeed or fail with an error. */
module Wrappers {

  /** A value that may be absent (JavaScript `undefined`/`null`, Python `None`). */
  datatype Option<+T> = None | Some(value: T) {

    /** The carried value, or `default` when absent. */
    function GetOr(default: T): T
    {
      match this
      case Some(v) => v
      case None => default
    }
  }

  /** The outcome of an operation that may throw: a value, or the error it throws. */
  datatype Result<+T, +E> = Ok(value: T) | Err(error: E)
}
